=== FILE: README.md ===
# A job-board backend, modelled in Dafny

The system is an Express/Mongoose job board.

- Users sign up as `user` or `hr`, sign in, and manage their accounts.
- They recover a password through a six-digit one-time code.
- HRs create companies and post jobs.
- Users apply to jobs with an uploaded CV.
- Every route is a chain of middleware steps: a role gate (`auth`), a Joi validation of the body and query, a CV upload (applyJob only), and the handler.

This project models the core of that system:

- **Documents** (`Models`): the four Mongoose document schemas (User, Company, Job, Application), with their enums and defaults.
- **Store** (`Database`): the database as one immutable value. It holds four collections in natural order and a counter that issues fresh ids. Its integrity invariant `Valid` says:
  - ids are distinct and already issued;
  - user emails and mobile numbers are unique;
  - company names and emails are unique.
- **Handlers** (`UserController`, `CompanyController`, `JobController`): each handler is a pure transition from a store to `Ok(new store, response)` or `Err(error)`. A failed handler changes nothing.
- **Validation** (`Joi`, plus the per-router schema modules): every request schema is a value, and `Accepts` is the predicate the validation middleware applies.
- **Routing** (`Roles`, `Routes`): the role-gate table and the three mounted route tables. `Dispatch` runs a route's step chain.
- **Codes and files** (`Otp`, `Storage`): the one-time-code generator, and the cloud file store behind CV uploads.
- **Scenarios** (`Scenarios`): request sequences that cross these layers.

Collaborators the handlers call but whose code is not part of the system are parameters:

- bcrypt hashing and comparison, and jwt signing: `UserController.Crypto`;
- Joi's email, ISO-date and ObjectId format checks: `Joi.Formats`;
- the random draw and the clock: `k` and `now`;
- the answers of the storage service: `UploadAnswer` and `Creation`.

## Model

| member | source | states |
|---|---|---|
| Models.RoleOrDefault | DB/models/user.model.js:14-19 | An undefined role is stored as `user`; a given role is kept. |
| Models.StatusOrDefault | DB/models/user.model.js:20-25 | An undefined status is stored as `offline`; a given status is kept. |
| Models.LocationOrDefault | DB/models/job.model.js:5-10 | An undefined job location defaults to `remotely`. |
| Models.WorkingTimeOrDefault | DB/models/job.model.js:11-16 | An undefined working time defaults to `part-time`. |
| Models.SeniorityOrDefault | DB/models/job.model.js:17-22 | An undefined seniority level defaults to `Junior`. |
| Models.EnumNamesExact | DB/models/job.model.js:5-22 | Each enum's stored names (location, working time, seniority) are exactly its declared value list, and in each enum distinct values have distinct names. |
| Database.FindUser | src/modules/user.module/user.controller.js:162 | Finds the position of the user with an id, or reports that no user has it. |
| Database.FindUserByEmail | src/modules/user.module/user.controller.js:317 | Finds a user holding an email, or reports that none does. |
| Database.FindCompany | src/modules/company.module/company.controller.js:82 | Finds the company with an id, or reports that none has it. |
| Database.FindCompanyByName | src/modules/company.module/company.controller.js:202 | Finds the first company with a name, or reports that none has it. |
| Database.FindJob | src/modules/job.module/job.controller.js:106 | Finds the job with an id, or reports that none has it. |
| Database.JobsAddedBy | src/modules/company.module/company.controller.js:184 | Returns exactly the stored jobs an HR added: every job with that `addedBy`, and nothing else. When stored job ids are distinct, so are the ids listed. |
| Database.ApplicationsFor | src/modules/company.module/company.controller.js:232 | Returns exactly the stored applications naming a job. |
| Database.AddUserValid | DB/models/user.model.js:9-13 | Appending a user with a fresh id, an unused email and an unused mobile number keeps the store valid. |
| Database.UpdateUserValid | DB/models/user.model.js:9-13 | Rewriting a user in place keeps the store valid, provided its id is unchanged and its email and mobile number are not another user's. |
| Database.AddCompanyValid | DB/models/company.model.js:6-14 | Appending a company with a fresh id, an unused name and an unused email keeps the store valid. |
| Database.UpdateCompanyValid | DB/models/company.model.js:6-14 | Rewriting a company in place keeps the store valid, provided its id is unchanged and its name and email are not another company's. |
| Database.AddJobValid | src/modules/job.module/job.controller.js:31-44 | Appending a job with a fresh id keeps the store valid. |
| Database.UpdateJobValid | src/modules/job.module/job.controller.js:72-85 | Rewriting a job in place under the same id keeps the store valid. |
| Database.AddApplicationValid | src/modules/job.module/job.controller.js:251-257 | Appending an application with a fresh id keeps the store valid. |
| Database.RemoveValid | src/modules/user.module/user.controller.js:207-212 | Deleting any documents from any of the four collections keeps the store valid; every deletion and cascade of the handlers goes through it. |
| Database.UserIdUnique | src/modules/user.module/user.controller.js:162 | In a valid store, an id names at most one user. |
| Database.CompanyNameUnique | DB/models/company.model.js:6 | In a valid store, no other company shares a company's name. |
| Otp.GenerateOtp | src/utils/generateOTP.js:1-6 | The code is six characters long, all decimal digits, and does not start with `0`. |
| Otp.SixDigits | src/utils/generateOTP.js:3-5 | Every number from 100000 to 999999 prints as exactly six digits, so cutting the string to six characters never shortens it. |
| Otp.ParsePrint | src/utils/generateOTP.js:3-4 | Reading a printed number back gives the number. |
| Otp.GenerateOtpRoundTrip | src/utils/generateOTP.js:1-6 | The code reads back as `100000 + k`, which lies between 100000 and 999999. |
| Otp.GenerateOtpInjective | src/utils/generateOTP.js:1-6 | Two draws give the same code exactly when they are the same draw. |
| Storage.Upload | src/modules/job.module/job.controller.js:240-248 | An upload adds exactly the new file and its folder. |
| Storage.Destroy | src/modules/job.module/job.controller.js:258-264 | Destroying a file id removes exactly the files with that id and leaves the folders alone. |
| Storage.DeleteFolder | src/modules/job.module/job.controller.js:258-264 | A folder can be deleted exactly when it holds no file; deleting it removes only that folder. |
| Storage.UndoUpload | src/modules/job.module/job.controller.js:240-264 | Destroying a fresh upload and then deleting its folder restores the storage exactly. |
| UserController.SignUp | src/modules/user.module/user.controller.js:18-74 | An email or mobile number already on file fails the sign-up, email first. Otherwise a successful hash creates the user:<br>- first name, last name, email, recovery email, date of birth and mobile number are the request's;<br>- the username is first name plus last name;<br>- the password is stored hashed;<br>- role and status take their defaults. |
| UserController.SignUpPreservesInvariants | src/modules/user.module/user.controller.js:36-70 | A sign-up keeps the store valid and every username equal to first name plus last name. |
| UserController.SignUpRejectsDuplicates | src/modules/user.module/user.controller.js:36-50 | A second sign-up with the same email fails with EmailExists; one with a new email but the same mobile number fails with MobileNumberExists. |
| UserController.FindLogin | src/modules/user.module/user.controller.js:91-92 | Finds the first user matching the email or the mobile number, or reports that none matches; an absent criterion matches nobody. |
| UserController.SignIn | src/modules/user.module/user.controller.js:86-120 | Sign-in fails when no user matches (UserNotFound), when the password does not verify (InvalidPassword) or when signing fails (TokenFailed); a matching user with a verifying password and a non-empty token always signs in. Success marks that user online, changes nothing else, and returns the token. |
| UserController.LoginByEmailFinds | src/modules/user.module/user.controller.js:91-92 | With unique emails, signing in by email alone finds the owner of that email. |
| UserController.LoginByMobileFinds | src/modules/user.module/user.controller.js:91-92 | With unique mobile numbers, signing in by mobile number alone finds its owner. |
| UserController.SignInPreservesInvariants | src/modules/user.module/user.controller.js:114-116 | Marking a user online keeps both store invariants. |
| UserController.SignUpThenSignIn | src/modules/user.module/user.controller.js:18-120 | When hashes verify, a new user can sign in with the same email or mobile number and password. Doing so marks them online. |
| Common.PickText | src/modules/user.module/user.controller.js:176-188 | A truthy supplied value replaces the stored one; an absent or empty one keeps it. |
| UserController.PatchAccount | src/modules/user.module/user.controller.js:162-188 | Each truthy field replaces its stored value. Changing either name part rebuilds the username from the new first and last names. Id, password, role, status and OTP stay as they were. |
| UserController.UpdateAccount | src/modules/user.module/user.controller.js:131-192 | A supplied email or mobile number held by anyone, the caller included, fails the update (EmailExists before MobileNumberExists). When neither conflicts, a missing caller fails with UserNotFound (see Null dereferences). Otherwise only the caller's document changes. |
| UserController.UpdateAccountPreservesInvariants | src/modules/user.module/user.controller.js:144-188 | A successful update keeps the store valid and every username consistent. |
| UserController.UpdateAccountRejectsOwnEmail | src/modules/user.module/user.controller.js:144-151 | Resubmitting one's own email is refused like anyone else's. |
| UserController.DeleteAccount | src/modules/user.module/user.controller.js:202-221 | Fails exactly when no user has the caller's id. On success it removes that user and exactly the applications they made; other users and applications, and all companies and jobs, are untouched. |
| UserController.DeleteAccountPreservesInvariants | src/modules/user.module/user.controller.js:207-215 | Deleting an account keeps both store invariants. |
| UserController.DeleteAccountThenSignInFails | src/modules/user.module/user.controller.js:202-221 | After an account is deleted, its email signs nobody in. |
| UserController.GetAccount | src/modules/user.module/user.controller.js:230-261 | Fails exactly when no user has the id; otherwise returns a stored user with that id. |
| UserController.UpdatePassword | src/modules/user.module/user.controller.js:272-302 | A missing caller is UserNotFound (see Null dereferences), a wrong old password is InvalidPassword, a failed hash is HashFailed. With the right old password and a successful hash the change always succeeds, storing the new hash on the caller alone. |
| UserController.UpdatePasswordPreservesInvariants | src/modules/user.module/user.controller.js:278-298 | A password change keeps both store invariants. |
| UserController.UpdatePasswordThenSignIn | src/modules/user.module/user.controller.js:272-302 | After a password change, the new password signs the user in. |
| UserController.ForgetPassword | src/modules/user.module/user.controller.js:312-334 | Fails with UserNotFound exactly when no user has the email. Otherwise it stores the generated code, expiring ten minutes after `now`, on that user alone. |
| UserController.ForgetPasswordIssuesCode | src/modules/user.module/user.controller.js:317-330 | The issued code is six digits with no leading zero, and it is the code stored on the user. |
| UserController.ForgetPasswordPreservesInvariants | src/modules/user.module/user.controller.js:317-330 | Issuing a code keeps both store invariants. |
| UserController.ResetPasswordAfterOtp | src/modules/user.module/user.controller.js:346-376 | An unknown email is UserNotFound. A missing, different or expired code is InvalidOrExpiredOtp. With an accepted code, a failed hash is HashFailed and a successful hash always resets the password, storing the new hash on that user alone. |
| UserController.ForgetThenReset | src/modules/user.module/user.controller.js:312-376 | An issued code resets the password at any moment up to its expiry and is refused after it. |
| UserController.ResetKeepsOtp | src/modules/user.module/user.controller.js:351-370 | A successful reset leaves the code in place, so it resets the password again until it expires. |
| UserController.ResetPasswordPreservesInvariants | src/modules/user.module/user.controller.js:351-370 | A reset keeps both store invariants. |
| UserController.GetAllAccountsAssociated | src/modules/user.module/user.controller.js:385-398 | Fails exactly when no user has the recovery email. Otherwise it returns exactly the users that have it. |
| JobController.AddJob | src/modules/job.module/job.controller.js:17-47 | Appends one job added by the caller with the body's fields and the enum defaults, under an id no stored job has. Other collections are untouched. |
| JobController.AddJobPreservesValid | src/modules/job.module/job.controller.js:31-41 | Adding a job keeps the store valid. |
| JobController.PatchJob | src/modules/job.module/job.controller.js:72-85 | A truthy title or description, or any supplied enum or skill list, replaces the stored value. The id and author are kept. |
| JobController.UpdateJob | src/modules/job.module/job.controller.js:58-89 | Fails with JobNotFound exactly when no job has the id. Otherwise only that job changes, patched as supplied. |
| JobController.UpdateJobIgnoresOwner | src/modules/job.module/job.controller.js:58-89 | Every caller gets the same outcome, so a job can be updated by someone other than its author. |
| JobController.UpdateJobPreservesValid | src/modules/job.module/job.controller.js:72-85 | Updating a job keeps the store valid. |
| JobController.DeleteJob | src/modules/job.module/job.controller.js:100-122 | An unknown id is JobNotFound; another HR's job is NotJobOwner, and the owner's deletion always succeeds. Success removes that job and exactly the applications to it. |
| JobController.DeleteJobPreservesValid | src/modules/job.module/job.controller.js:111-116 | Deleting a job keeps the store valid. |
| JobController.GetAllJobsWithTheirCompany | src/modules/job.module/job.controller.js:132-148 | Returns one entry per company, in store order, pairing each company with exactly the jobs its HR added. |
| JobController.GetAllJobsSpecificCompany | src/modules/job.module/job.controller.js:160-177 | An unknown company name is CompanyNotFound. A company whose HR added no job is NoJobs. Otherwise it returns exactly that HR's jobs. |
| JobController.GetAllJobsMatchFilters | src/modules/job.module/job.controller.js:186-212 | Fails with NoJobs exactly when no job matches all five criteria. Otherwise it returns exactly the matching jobs. |
| JobController.FilterOutsideEnumFails | src/modules/job.module/job.controller.js:197-208 | A location, working time or seniority outside its enum finds nothing. |
| JobController.FilterNeedsExactSkills | src/modules/job.module/job.controller.js:197-208 | A job whose skill list differs from the filter's is not returned. |
| JobController.FilterFindsOwnJob | src/modules/job.module/job.controller.js:186-212 | Filtering by a stored job's own values succeeds, the result contains that job, and every job returned has the same working time, location, seniority, title and skill list. |
| JobController.Compensate | src/modules/job.module/job.controller.js:258-264 | The cleanup always reports an error and leaves no file with the uploaded id. |
| JobController.CreateApplication | src/modules/job.module/job.controller.js:251-256 | Appends one application by the caller for the job, with the skills and the uploaded resume; other collections are untouched. |
| JobController.ApplyJobAsWritten | src/modules/job.module/job.controller.js:226-270 | The handler as written: an unknown job is JobNotFound, a missing file is NoFileUploaded and a refused upload is UploadFailed. A created application is stored with the uploaded file. Cleanup runs only when creation settles with a falsy value; a rejected creation fails with the upload left in storage. |
| JobController.ApplyJobAsWrittenLeaksResume | src/modules/job.module/job.controller.js:251-264 | When creation rejects, the handler as written fails but leaves the uploaded resume in storage. |
| JobController.ApplyJob | src/modules/job.module/job.controller.js:226-270 | Same checks as the handler. A created application always succeeds, storing exactly one new application with the resume; every failed creation runs the cleanup. |
| JobController.ApplyJobRestoresStorage | src/modules/job.module/job.controller.js:240-264 | When the upload was fresh, a failed application leaves both the store and the file storage as they were. |
| JobController.ApplyJobPreservesValid | src/modules/job.module/job.controller.js:251-256 | Applying keeps the store valid. |
| CompanyController.CastEmployees | DB/models/company.model.js:10-13 | The employee count is stored exactly when it is a `{from, to}` record. A single number is rejected. |
| CompanyController.AddCompany | src/modules/company.module/company.controller.js:14-52 | A taken name fails with CompanyNameExists, checked first; a taken email fails with CompanyEmailExists. A count the model cannot store fails with NumberOfEmployeesRejected. Otherwise one company is created with the caller as its HR. |
| CompanyController.AddCompanyPreservesValid | src/modules/company.module/company.controller.js:37-46 | Adding a company keeps the store valid. |
| CompanyController.AddCompanyRejectsCount | src/modules/company.module/company.controller.js:42 | A request carrying a single-number employee count never creates a company. |
| CompanyController.GetCompanyByName | src/modules/company.module/company.controller.js:197-207 | Fails exactly when no company has the name. Otherwise it returns a stored company with that name. |
| CompanyController.AddCompanyThenGetByName | src/modules/company.module/company.controller.js:14-207 | A company just added is found again by its name. |
| CompanyController.PatchCompany | src/modules/company.module/company.controller.js:120-126 | Each truthy text field replaces its stored value and the employee range is set. The id and owning HR are kept. |
| CompanyController.UpdateCompany | src/modules/company.module/company.controller.js:68-132 | An unknown id is CompanyNotFound, and a non-owner gets NotCompanyOwner whatever the patch. A name equal to the current one is SameCompanyName; a name another company has is CompanyNameExists. The email is then checked the same way: the current email is SameCompanyEmail, another company's is CompanyEmailExists. Otherwise only that company changes. |
| CompanyController.UpdateCompanyPreservesValid | src/modules/company.module/company.controller.js:90-126 | A successful update keeps company names and emails unique and the store valid. |
| CompanyController.RemoveCompany | src/modules/company.module/company.controller.js:150-156 | An unknown id is CompanyNotFound and a non-owner is NotCompanyOwner. The owner's deletion always succeeds and removes exactly that company. |
| CompanyController.DeleteCompanyAsWritten | src/modules/company.module/company.controller.js:143-164 | Deletion as written is the company removal alone: it succeeds for the owner, removes exactly that company, and leaves every job and application. |
| CompanyController.DeleteCompanyAsWrittenKeepsJobs | src/modules/company.module/company.controller.js:159-160 | After the deletion as written, every job the company's HR added is still listed. |
| CompanyController.DeleteCompany | src/modules/company.module/company.controller.js:143-164 | The intended deletion fails exactly as the ownership check does, so the owner always succeeds. Success removes the company, its HR's jobs, and the applications to those jobs. |
| CompanyController.DeleteCompanyLeavesNoOrphans | src/modules/company.module/company.controller.js:155-160 | After the intended deletion, the HR has no job left and no application points at a removed job. |
| CompanyController.DeleteCompanyFreesName | src/modules/company.module/company.controller.js:155-156 | Once a company is deleted from a valid store, no remaining company has its name, so a lookup by that name reports the company as not found. |
| CompanyController.GetCompanyData | src/modules/company.module/company.controller.js:174-189 | An unknown company is CompanyNotFound. The jobs returned are exactly the caller's own, not the company's. |
| CompanyController.GetCompanyDataIgnoresCompany | src/modules/company.module/company.controller.js:180-185 | Which company is asked for does not change the jobs returned. |
| CompanyController.GroupApplications | src/modules/company.module/company.controller.js:225-235 | Pairs each job, in order, with exactly the applications naming it. |
| CompanyController.GetAllApplicationsSpecificJobs | src/modules/company.module/company.controller.js:220-245 | Fails with NoJobs exactly when the caller added no job. Otherwise every job of the caller's heads a group, each group holding exactly that job's applications; with distinct job ids, no two groups are for the same job. |
| Joi.Names | src/modules/job.module/job.validation.js:9-30 | Returns exactly the keys an object rule declares. |
| Joi.FieldChecked | src/modules/job.module/job.validation.js:9-30 | In an accepted object, every required key is present and every present key passes its rule. |
| Joi.UnknownKeyRejected | src/modules/company.module/company.validation.js:20-44 | An object with an undeclared key is rejected. |
| Joi.EmptyObjectAccepted | src/modules/job.module/job.validation.js:32-64 | The empty object is accepted exactly when no key is required. |
| Joi.Utf16Length | src/modules/user.module/user.validationSchema.js:6 | The length Joi's `min`/`max` bound is the JavaScript `length`: it lies between the character count and twice it, and equals the character count exactly when no character lies above U+FFFF. |
| Joi.Utf16LengthAppend | src/modules/user.module/user.validationSchema.js:6-8 | The length of two joined strings is the sum of their lengths, as the username composed from two names relies on. |
| Joi.BoundedLength | src/modules/job.module/job.validation.js:11 | A string accepted by a `min`/`max` rule is non-empty and has a UTF-16 length within the bounds, so it has between half the minimum and the maximum in characters. |
| Joi.ObjectAcceptedIf | src/modules/job.module/job.validation.js:117-125 | An object is accepted when its keys are all declared, each passes its rule, and the required ones are present. |
| UserSchemas.SignUpUsernameWithinBound | src/modules/user.module/user.validationSchema.js:6-8 | Accepted first and last names have a UTF-16 length of 3 to 15 each, and together they make a username that passes the username rule. |
| UserSchemas.NameBoundCountsCodeUnits | src/modules/user.module/user.validationSchema.js:6 | The name rule's minimum of three counts code units: two characters above U+FFFF (length four) pass it and one such character (length two) does not. |
| UserSchemas.PasswordsBounded | src/modules/user.module/user.validationSchema.js:4-93 | Every password that any user route accepts has a UTF-16 length of 6 to 15. |
| UserSchemas.SignUpRequiredFields | src/modules/user.module/user.validationSchema.js:4-20 | An accepted sign-up has:<br>- a role among `user`/`hr` and a status among `online`/`offline`;<br>- a formatted email and recovery email;<br>- an ISO date of birth and a mobile number. |
| UserSchemas.SignInNeedsNoIdentifier | src/modules/user.module/user.validationSchema.js:22-28 | A password alone passes sign-in validation. |
| UserSchemas.AccountSchemaKeys | src/modules/user.module/user.validationSchema.js:36-48 | The account routes need only `accountId`. A body carrying `firstName` or `lastName` is rejected. |
| UserSchemas.RecoveryFieldsRequired | src/modules/user.module/user.validationSchema.js:82-98 | Recovery needs an email; the reset needs email, code and new password; the account listing needs a recovery email. |
| JobSchemas.AddJobFieldBounds | src/modules/job.module/job.validation.js:9-30 | An accepted new job has:<br>- a title of UTF-16 length 10 to 50;<br>- a description of UTF-16 length at least 20;<br>- both skill arrays;<br>- two formatted ids. |
| JobSchemas.AddJobEnumsMatchModel | src/modules/job.module/job.validation.js:12-23 | Each enum field of an accepted new job names a value of the Job model's enum. |
| JobSchemas.UpdatedJobOptional | src/modules/job.module/job.validation.js:32-64 | A job update needs only the job id, and any present field obeys the creation bounds. |
| JobSchemas.FilterCriteriaUnchecked | src/modules/job.module/job.validation.js:117-125 | The filter body may be empty, and its enum criteria accept any non-empty string. |
| JobSchemas.FilterTitleBounded | src/modules/job.module/job.validation.js:117-125 | A filter title, when present, has a UTF-16 length of 10 to 50. |
| JobSchemas.ApplyJobRequiredFields | src/modules/job.module/job.validation.js:127-134 | An accepted application has a formatted job id and both skill arrays. |
| CompanySchemas.AddCompanyFields | src/modules/company.module/company.validation.js:8-18 | An accepted new company has:<br>- every text field;<br>- a description of UTF-16 length at least 20;<br>- a formatted companyHR;<br>- an employee count that is one number from 11 to 20. |
| CompanySchemas.UpdatedCompanyKeys | src/modules/company.module/company.validation.js:20-44 | A company update needs only the company id. The key `numberOfEmployees` is rejected. The misspelt `numberOfEmployess` must be a number from 11 to 20. |
| CompanySchemas.LookupFieldsRequired | src/modules/company.module/company.validation.js:46-73 | Deletion and the company-data read need a company id; the by-name lookup needs a name. |
| Roles.Admitted | src/modules/job.module/job.endPoints.role.js:3-7 | The HR gate admits only HR, the user gate admits only users, and the shared gate admits both. |
| Roles.GatesPartitionRoles | src/modules/job.module/job.endPoints.role.js:3-7 | Every gate admits a non-empty set of roles. Distinct gates admit distinct sets, and the shared gate is the union of the other two. |
| Routes.RunSteps | src/modules/job.module/job.route.js:61-69 | A chain reaches only a handler it lists. |
| Routes.RunOrdered | src/modules/job.module/job.route.js:20-69 | A chain of gate, optional upload, validation and handler reaches the handler exactly when the gate admits the caller, the upload succeeded and the schema accepts the request. An anonymous caller is unauthenticated and a wrong role is forbidden, whatever the request. |
| Routes.Lookup | src/modules/user.module/user.route.js:19-81 | Finds a route with the verb and path, or reports that the table has none. |
| Routes.Dispatch | src/modules/user.module/user.route.js:19-81 | An unknown route is NoRoute, and a reached handler is one listed on a route with that path. |
| Routes.UserRoutesWellFormed | src/modules/user.module/user.route.js:19-81 | No two user routes share a path, and every chain is ordered: an optional gate, then validation, then the handler. |
| Routes.JobRoutesWellFormed | src/modules/job.module/job.route.js:20-69 | No two job routes share a path, and every chain is ordered. |
| Routes.CompanyRoutesWellFormed | src/modules/company.module/company.route.js:17-57 | No two company routes share a path, and every chain is ordered. |
| Routes.SignUpRoute | src/modules/user.module/user.route.js:19-23 | Needs no sign-in: reaches the handler exactly when the request passes the sign-up schema, whoever sends it. |
| Routes.SignInRoute | src/modules/user.module/user.route.js:24-28 | Needs no sign-in: reaches the handler exactly when the request passes the sign-in schema, whoever sends it. |
| Routes.UpdateAccountRoute | src/modules/user.module/user.route.js:30-35 | Reaches the handler exactly for any signed-in caller whose request passes the account schema. An anonymous caller is unauthenticated. |
| Routes.DeleteAccountRoute | src/modules/user.module/user.route.js:37-42 | Reaches the handler exactly for any signed-in caller whose request passes the account schema. An anonymous caller is unauthenticated. |
| Routes.UserAccountDataRoute | src/modules/user.module/user.route.js:44-49 | Reaches the handler exactly for any signed-in caller whose request passes the account schema. An anonymous caller is unauthenticated. |
| Routes.AnotherUserDataRoute | src/modules/user.module/user.route.js:51-56 | Reaches the handler exactly for any signed-in caller whose request passes the account schema. An anonymous caller is unauthenticated. |
| Routes.UpdatePasswordRoute | src/modules/user.module/user.route.js:58-63 | Reaches the handler exactly for any signed-in caller whose request passes the password-change schema. An anonymous caller is unauthenticated. |
| Routes.ForgetPasswordRoute | src/modules/user.module/user.route.js:65-69 | Needs no sign-in: reaches the handler exactly when the request passes the recovery schema, whoever sends it. |
| Routes.ResetPasswordRoute | src/modules/user.module/user.route.js:71-75 | Needs no sign-in: reaches the handler exactly when the request passes the reset schema, whoever sends it. |
| Routes.AccountsAssociatedRoute | src/modules/user.module/user.route.js:76-81 | Reaches the handler exactly for any signed-in caller whose request passes the recovery-email schema. An anonymous caller is unauthenticated. |
| Routes.AddJobRoute | src/modules/job.module/job.route.js:20-25 | Reaches the handler exactly for a signed-in HR whose request passes the new-job schema. An anonymous caller is unauthenticated and a user is forbidden, whatever the request holds. |
| Routes.UpdateJobRoute | src/modules/job.module/job.route.js:27-32 | Reaches the handler exactly for a signed-in HR whose request passes the job-update schema. An anonymous caller is unauthenticated and a user is forbidden, whatever the request holds. |
| Routes.DeleteJobRoute | src/modules/job.module/job.route.js:34-39 | Reaches the handler exactly for a signed-in HR whose request passes the job-delete schema. An anonymous caller is unauthenticated and a user is forbidden, whatever the request holds. |
| Routes.JobsWithCompanyRoute | src/modules/job.module/job.route.js:41-46 | Reaches the handler exactly when the caller is signed in; body and query are not checked. An anonymous caller is unauthenticated. |
| Routes.JobsOfCompanyRoute | src/modules/job.module/job.route.js:48-53 | Reaches the handler exactly when the caller is signed in, because the route checks only headers. The company name therefore reaches the handler unchecked. An anonymous caller is unauthenticated. |
| Routes.JobFilterRoute | src/modules/job.module/job.route.js:55-60 | Reaches the handler exactly for any signed-in caller whose request passes the filter schema. An anonymous caller is unauthenticated. |
| Routes.ApplyJobRoute | src/modules/job.module/job.route.js:61-69 | Reaches the handler exactly for a signed-in user whose upload succeeded and whose request passes the application schema. For a user, a refused upload stops the chain before validation. |
| Routes.AddCompanyRoute | src/modules/company.module/company.route.js:17-22 | Reaches the handler exactly for a signed-in HR whose request passes the new-company schema. An anonymous caller is unauthenticated and a user is forbidden, whatever the request holds. |
| Routes.UpdateCompanyRoute | src/modules/company.module/company.route.js:24-29 | Reaches the handler exactly for a signed-in HR whose request passes the company-update schema. An anonymous caller is unauthenticated and a user is forbidden, whatever the request holds. |
| Routes.DeleteCompanyRoute | src/modules/company.module/company.route.js:31-36 | Reaches the handler exactly for a signed-in HR whose request passes the company-delete schema. An anonymous caller is unauthenticated and a user is forbidden, whatever the request holds. |
| Routes.CompanyDataRoute | src/modules/company.module/company.route.js:38-43 | Reaches the handler exactly for a signed-in HR whose request passes the company-data schema. An anonymous caller is unauthenticated and a user is forbidden, whatever the request holds. |
| Routes.CompanyByNameRoute | src/modules/company.module/company.route.js:45-50 | Reaches the handler exactly for any signed-in caller whose request passes the by-name schema. An anonymous caller is unauthenticated. |
| Routes.ApplicationsRoute | src/modules/company.module/company.route.js:52-57 | Reaches the handler exactly for a signed-in HR; body and query are not checked. An anonymous caller is unauthenticated and a user is forbidden. |
| Scenarios.CompanyRequestOf | src/modules/company.module/company.controller.js:15-22 | The handler reads the name, email and employee count from the body. |
| Scenarios.AddCompanyRouteAlwaysFails | src/modules/company.module/company.validation.js:14 | Every request that the mounted addcompany route hands to its handler fails to create a company. |
| Scenarios.AddCompanyRangeCreates | DB/models/company.model.js:10-13 | With the employee count validated as a `{from, to}` object, an accepted request with a free name and email creates the company with exactly that range. |
| Scenarios.UnknownWorkingTimePassesSchemaFindsNothing | src/modules/job.module/job.validation.js:117-125 | A working time no job can have passes the filter schema, and the handler answers that no job matches. |
| Scenarios.CompanyThenJob | src/modules/job.module/job.controller.js:17-47 | Adding a company and then a job succeeds exactly when the company can be added. Both are then stored under the same HR. |
| Scenarios.CompanyThenJobFindsCompany | src/modules/company.module/company.controller.js:14-52 | After adding a company and a job, the store is valid and the company's id finds it. |
| Scenarios.CompanyLifecycle | src/modules/company.module/company.controller.js:143-164 | Adding a company and a job, then deleting the company with the intended cascade, leaves none of them behind:<br>- no job;<br>- no application to it;<br>- no company by that name. |
| Scenarios.CompanyLifecycleAsWritten | src/modules/company.module/company.controller.js:159-160 | The same sequence with the cascade as written leaves the job listed. |

## Left out

- **Transport.** HTTP status codes, response shaping and field projections (`select`, `populate`) are not modelled. Neither are the error-handling middleware and `expressAsyncHandler`. A thrown error is an `Err` result. `Routes.Lookup` compares paths exactly; Express routers by default also match a path that differs in letter case or has a trailing slash (`/SignUp`, `/signup/`), which the model answers with NoRoute.
- **Header validation.** The `headers` part of every schema (the token header) is not modelled. The token is the caller: `Routes.Caller` is what `auth` decoded. Its verification and the lookup of the signed-in user are not modelled.
- **Middleware internals.** The validation, `auth` and multer middleware (`src/middlewares/`) are not modelled. The model assumes:
  - Joi's default options, under which unknown keys are rejected and empty strings refused;
  - `systemRole` values `user` and `hr`;
  - the user and company routers' own role tables as the same three gates as the job router's table;
  - the multer outcome as the parameter `uploadOk`.
- **Joi details.** Conversion of numeric strings and the writing of Joi defaults back into the request are not modelled: handlers read the raw fields. JSON numbers are integers.
- **Crypto, tokens, randomness and time.** bcrypt, jwt and the format checks are parameters. jwt's one-day expiry is not modelled. `Math.random` is the integer draw `k` in `[0, 900000)`. `Date.now()` is the parameter `now`.
- **File storage.** The cloud storage service is the abstract `Storage.Storage` (a set of files and a set of folders). Its answers are the parameters `UploadAnswer` and `Creation`, and network failures of the cleanup calls are not modelled. The upload folder `cvs/<jobId>/<userId>/<folderId>` is one flat folder name (`Storage.FolderPath`); parent folders the service may create along that path are not modelled, and `JobController.ApplyJobRestoresStorage` restores the storage exactly only in this flat view.
- **Mongoose.** Save-time validation, other than the cast of the employee count, is not modelled. Neither is the `unique`-index error path, which the handlers pre-empt with their own lookups. Ids are naturals issued by a counter instead of ObjectIds. Queries keep collection order, as `find` does without a sort.
- **Absent query fields.** A missing field in a lookup filter (`findOne({email: undefined})`) is modelled as matching nothing (`UserController.FindLogin`): the value is sent as `null`, and every filtered path is a required field that no stored document lacks. A query layer that dropped undefined criteria instead would change the answers: sign-in by mobile number alone (`$or: [{}, {mobileNumber}]`) would find the first user whoever it is, so `UserController.LoginByMobileFinds` would not describe it, and an updateAccount without an email would fail with EmailExists on any non-empty store. That reading is not modelled.
- **Partial job filter.** `JobController.GetAllJobsMatchFilters` takes the five criteria as supplied values. A request that omits a criterion sends it as `null`, which no job matches, so the answer is NoJobs; the model has no representation for an omitted criterion and does not state that case.
- **Concurrency.** Concurrent requests, the race between a uniqueness check and the write, and partial cascade failure are not modelled. Every handler is one atomic transition.
- **Unused files.** The routers in the `*.routes.js` files are not mounted by `index.js` and are not modelled. Neither are `index.js` and `DB/db_connection.js`.
- JobController.GetAllJobsSpecificCompany: takes the company name as one string. Because the route does not validate the query, the handler may receive no `companyName` at all (a `null` filter that matches no company) or, for a repeated key (`?companyName=A&companyName=B`), an array, which the query layer turns into `$in` and so finds the first company named A or B. Neither case is expressed by the model.
- **The `companyName` query schema.** `JobSchemas.GetAllJobsSpecificCompanySchema` is declared but no mounted route uses it. The mounted route checks only headers, so the handler's `companyName` is never validated.
- **Null dereferences.** deleteJob and deleteCompany read the owner of a document that may be missing. updateAccount assigns to the result of `findById` (src/modules/user.module/user.controller.js:162-188) and updatePassword reads its `password` (src/modules/user.module/user.controller.js:278-279) without testing it. For a caller whose document is gone, the model returns JobNotFound / CompanyNotFound / UserNotFound, where the program would throw a TypeError that the error middleware turns into a server error.
- **Behaviour kept exactly as the code has it, though it may look unintended:**
  - updateJob has no ownership check (`JobController.UpdateJobIgnoresOwner`);
  - getCompanyData returns the caller's jobs rather than the company's (`CompanyController.GetCompanyDataIgnoresCompany`);
  - deleteCompany's cascade removes nothing (see Findings);
  - updateAccount refuses the caller's own email and mobile number.
- **Schema quirks.** The account schema names the first and last names `fName` and `lName`, so updateAccount never receives `firstName`/`lastName` through the route (`UserSchemas.AccountSchemaKeys`). The handler's username recombination is modelled anyway. Likewise, the updateCompany schema and handler spell `numberOfEmployess`. A number in 11..20 given under that key cannot be stored, and that failure is modelled by `CompanyController.CastEmployees`.
- UserController.UpdatePassword: the model commits the new hash atomically with the success answer. updatePassword calls `user.save()` without awaiting it (src/modules/user.module/user.controller.js:298), so the response is sent before the write, and a failed write becomes an unhandled rejection rather than an error answer; that failure path is not modelled.
- CompanyController.DeleteCompanyAsWritten: takes the reading in which the `{companyId}` filter of the cascade matches nothing, because neither Job nor Application declares that path. With Mongoose's strict query mode the unknown path would instead be stripped, and the cascade would delete every job and every application. Which mode applies depends on the Mongoose version and its `strictQuery` setting, so that alternative is not modelled.
- **ApplyJob outcomes.** `JobController.ApplyJob` distinguishes a creation that resolves to a falsy value from one that rejects. Mongoose's `create` never does the former, but the handler tests for it, so both are kept.

## Findings

| source | as written | input that shows it | evidently intended | confidence | as-written member | corrected member |
|---|---|---|---|---|---|---|
| src/modules/company.module/company.controller.js:159-160 | The cascade deletes jobs and applications whose `companyId` is the company's id. Neither the Job nor the Application schema has a `companyId` path, so nothing is matched. Under a strict query filter the condition would instead be dropped, deleting every job. | An HR adds a company and a job, then deletes the company: the job stays listed. | Delete the HR's jobs and the applications to them, leaving no orphan. | not executed | CompanyController.DeleteCompanyAsWritten (shown by CompanyController.DeleteCompanyAsWrittenKeepsJobs and Scenarios.CompanyLifecycleAsWritten) | CompanyController.DeleteCompany (proved by CompanyController.DeleteCompanyLeavesNoOrphans and Scenarios.CompanyLifecycle) |
| src/modules/job.module/job.controller.js:251-264 | The uploaded resume and its folder are removed only when `Application.create` resolves to a falsy value. `create` signals failure by rejecting, which skips the cleanup. | A job exists, a file is uploaded with a fresh id, and creation rejects: the file stays in storage. | Any failed creation destroys the upload and its folder before the error surfaces. | not executed | JobController.ApplyJobAsWritten (shown by JobController.ApplyJobAsWrittenLeaksResume) | JobController.ApplyJob (proved by JobController.ApplyJobRestoresStorage) |
| src/modules/company.module/company.validation.js:14 | `numberOfEmployees` must be one number from 11 to 20, but the Company model stores a required `{from, to}` object (DB/models/company.model.js:10-13). No request through the route can create a company. | Any body the schema accepts, e.g. `numberOfEmployees: 15`. | Validate `numberOfEmployees` as an object with numeric `from` and `to`. | not executed | Scenarios.AddCompanyRouteAlwaysFails (with CompanyController.AddCompanyRejectsCount) | Scenarios.AddCompanyRangeCreates (the property proved about CompanySchemas.AddCompanyRangeSchema) |

=== FILE: common.dfy ===
/** Option and Result types shared by every handler, the errors a handler
    passes to Express's `next`, and JavaScript truthiness of request fields. */
module Common {

  datatype Option<+T> = None | Some(value: T)

  /** What a handler produces: either its value, or the error it forwards to `next`. */
  datatype Result<+T> = Ok(value: T) | Err(error: Error)

  /** One constructor per distinct `next(new Error(...))` (or thrown exception) in the controllers. */
  datatype Error =
    // user.controller.js
    | EmailExists
    | MobileNumberExists
    | HashFailed
    | UserNotFound
    | InvalidPassword
    | TokenFailed
    | InvalidOrExpiredOtp
    | RecoveryEmailNotFound
    // company.controller.js
    | CompanyNameExists
    | CompanyEmailExists
    | CompanyNotFound
    | NotCompanyOwner
    | SameCompanyName
    | SameCompanyEmail
    | NumberOfEmployeesRejected
    // job.controller.js
    | JobNotFound
    | NotJobOwner
    | NoJobs
    | NoFileUploaded
    | UploadFailed
    | ApplicationNotCreated
    | FolderNotDeleted

  /** JavaScript truthiness of an optional string field of `req.body`:
      an absent field (`undefined`) and the empty string are both falsy. */
  predicate Truthy(o: Option<string>) {
    o.Some? && o.value != ""
  }

  /** A patch field as the update handlers apply it: a truthy supplied value
      replaces the stored one, and an absent or empty one keeps it. */
  function PickText(o: Option<string>, current: string): (v: string)
    ensures Truthy(o) ==> v == o.value
    ensures !Truthy(o) ==> v == current
  {
    if Truthy(o) then o.value else current
  }
}

=== FILE: company_controller.dfy ===
/** src/modules/company.module/company.controller.js: company handlers as
    transitions of the store. A handler that fails returns no store, so every
    error leaves the store as it was. */
module CompanyController {
  import opened Common
  import opened Seqs
  import opened Models
  import opened Database

  /** What arrives for `numberOfEmployees`: the `{from, to}` record the model
      declares, or a single number, which is what the route's schema admits. */
  datatype EmployeeCount = Range(range: EmployeeRange) | Count(n: int)

  /** Casting onto the nested `{from, to}` path: a record is taken as it is; a
      plain number is a cast error, and an absent value fails the required bounds. */
  function CastEmployees(e: Option<EmployeeCount>): (r: Result<EmployeeRange>)
    ensures r.Ok? <==> e.Some? && e.value.Range?
    ensures r.Ok? ==> r.value == e.value.range
    ensures r.Err? ==> r.error == NumberOfEmployeesRejected
  {
    match e
    case Some(Range(range)) => Ok(range)
    case _ => Err(NumberOfEmployeesRejected)
  }

  // ================================================================ addCompany

  /** The body fields addCompany reads; the body's `companyHR` is never read. */
  datatype CompanyRequest = CompanyRequest(
    companyName: string,
    description: string,
    industry: string,
    address: string,
    numberOfEmployees: Option<EmployeeCount>,
    companyEmail: string)

  function AddCompany(s: Store, caller: Id, req: CompanyRequest): (r: Result<(Store, Company)>)
    ensures CompanyNameTaken(s, req.companyName) ==> r == Err(CompanyNameExists)
    ensures !CompanyNameTaken(s, req.companyName) && CompanyEmailTaken(s, req.companyEmail) ==> r == Err(CompanyEmailExists)
    ensures r.Ok? <==>
      !CompanyNameTaken(s, req.companyName) && !CompanyEmailTaken(s, req.companyEmail)
      && CastEmployees(req.numberOfEmployees).Ok?
    ensures r.Ok? ==>
      var c := r.value.1;
      && r.value.0.companies == s.companies + [c]
      && r.value.0.users == s.users && r.value.0.jobs == s.jobs && r.value.0.applications == s.applications
      && c.companyHR == caller
      && c.companyName == req.companyName && c.companyEmail == req.companyEmail
      && c.description == req.description && c.industry == req.industry && c.address == req.address
      && Some(Range(c.numberOfEmployees)) == req.numberOfEmployees
      && (forall i :: 0 <= i < |s.companies| ==> s.companies[i].id != c.id || !KeysBelow(s.companies, CompanyIdOf, s.nextId))
  {
    if CompanyNameTaken(s, req.companyName) then Err(CompanyNameExists)
    else if CompanyEmailTaken(s, req.companyEmail) then Err(CompanyEmailExists)
    else match CastEmployees(req.numberOfEmployees)
      case Err(e) => Err(e)
      case Ok(range) =>
        var c := Company(s.nextId, req.companyName, req.description, req.industry, req.address,
                         range, req.companyEmail, caller);
        Ok((s.(companies := s.companies + [c], nextId := s.nextId + 1), c))
  }

  lemma AddCompanyPreservesValid(s: Store, caller: Id, req: CompanyRequest)
    requires Valid(s)
    ensures AddCompany(s, caller, req).Ok? ==> Valid(AddCompany(s, caller, req).value.0)
  {
    if AddCompany(s, caller, req).Ok? {
      AddCompanyValid(s, AddCompany(s, caller, req).value.1);
    }
  }

  /** A request whose employee count is the single number the route's schema
      demands never creates a company. */
  lemma AddCompanyRejectsCount(s: Store, caller: Id, req: CompanyRequest)
    requires req.numberOfEmployees.Some? && req.numberOfEmployees.value.Count?
    ensures AddCompany(s, caller, req).Err?
  {
  }

  // ================================================================ getCompanyByName

  function GetCompanyByName(s: Store, companyName: string): (r: Result<Company>)
    ensures r.Err? <==> !CompanyNameTaken(s, companyName)
    ensures r.Err? ==> r.error == CompanyNotFound
    ensures r.Ok? ==> r.value in s.companies && r.value.companyName == companyName
  {
    match FindCompanyByName(s, companyName)
    case None => Err(CompanyNotFound)
    case Some(i) => Ok(s.companies[i])
  }

  /** A company just added is found again by its name. */
  lemma AddCompanyThenGetByName(s: Store, caller: Id, req: CompanyRequest)
    requires AddCompany(s, caller, req).Ok?
    ensures GetCompanyByName(AddCompany(s, caller, req).value.0, req.companyName)
            == Ok(AddCompany(s, caller, req).value.1)
  {
    var (s', c) := AddCompany(s, caller, req).value;
    FindFirstAppend(s.companies, (x: Company) => x.companyName == req.companyName, c);
  }

  // ================================================================ updateCompany

  /** The body fields updateCompany reads, each possibly absent. The employee
      count is read from the key spelled `numberOfEmployess`. */
  datatype CompanyPatch = CompanyPatch(
    companyName: Option<string>,
    description: Option<string>,
    industry: Option<string>,
    address: Option<string>,
    numberOfEmployess: Option<EmployeeCount>,
    companyEmail: Option<string>)

  /** A number is falsy only when it is zero; a record is always truthy. */
  predicate CountTruthy(e: Option<EmployeeCount>) {
    e.Some? && (e.value.Count? ==> e.value.n != 0)
  }

  /** A new name is refused when it is the current one or any company's. */
  predicate NameRefused(s: Store, cur: Company, p: CompanyPatch) {
    Truthy(p.companyName) && (p.companyName.value == cur.companyName || CompanyNameTaken(s, p.companyName.value))
  }

  predicate EmailRefused(s: Store, cur: Company, p: CompanyPatch) {
    Truthy(p.companyEmail) && (p.companyEmail.value == cur.companyEmail || CompanyEmailTaken(s, p.companyEmail.value))
  }

  /** The in-memory assignments, once the name and email checks have passed;
      the employee count is cast separately. */
  function PatchCompany(c: Company, p: CompanyPatch, range: EmployeeRange): (v: Company)
    ensures v.id == c.id && v.companyHR == c.companyHR
    ensures v.companyName == PickText(p.companyName, c.companyName)
    ensures v.companyEmail == PickText(p.companyEmail, c.companyEmail)
    ensures v.description == PickText(p.description, c.description)
    ensures v.industry == PickText(p.industry, c.industry)
    ensures v.address == PickText(p.address, c.address)
    ensures v.numberOfEmployees == range
  {
    c.(companyName := PickText(p.companyName, c.companyName),
       companyEmail := PickText(p.companyEmail, c.companyEmail),
       description := PickText(p.description, c.description),
       industry := PickText(p.industry, c.industry),
       address := PickText(p.address, c.address),
       numberOfEmployees := range)
  }

  function UpdateCompany(s: Store, caller: Id, companyId: Id, p: CompanyPatch): (r: Result<(Store, Company)>)
    ensures FindCompany(s, companyId).None? ==> r == Err(CompanyNotFound)
    ensures FindCompany(s, companyId).Some? ==>
      var cur := s.companies[FindCompany(s, companyId).value];
      && (cur.companyHR != caller ==> r == Err(NotCompanyOwner))
      && (cur.companyHR == caller && Truthy(p.companyName) && p.companyName.value == cur.companyName ==> r == Err(SameCompanyName))
      && (cur.companyHR == caller && NameRefused(s, cur, p) && p.companyName.value != cur.companyName ==> r == Err(CompanyNameExists))
      && ((cur.companyHR == caller && !NameRefused(s, cur, p) && Truthy(p.companyEmail) && p.companyEmail.value == cur.companyEmail) ==>
            r == Err(SameCompanyEmail))
      && ((cur.companyHR == caller && !NameRefused(s, cur, p) && EmailRefused(s, cur, p) && p.companyEmail.value != cur.companyEmail) ==>
            r == Err(CompanyEmailExists))
      && (r.Ok? <==> cur.companyHR == caller && !NameRefused(s, cur, p) && !EmailRefused(s, cur, p)
                     && (CountTruthy(p.numberOfEmployess) ==> p.numberOfEmployess.value.Range?))
      && (r.Ok? ==>
            var c := r.value.1;
            && c.id == cur.id && c.companyHR == cur.companyHR
            && c.companyName == PickText(p.companyName, cur.companyName)
            && c.companyEmail == PickText(p.companyEmail, cur.companyEmail)
            && c.description == PickText(p.description, cur.description)
            && c.industry == PickText(p.industry, cur.industry)
            && c.address == PickText(p.address, cur.address)
            && c.numberOfEmployees == (if CountTruthy(p.numberOfEmployess) then p.numberOfEmployess.value.range else cur.numberOfEmployees)
            && r.value.0 == s.(companies := s.companies[FindCompany(s, companyId).value := c]))
  {
    match FindCompany(s, companyId)
    case None => Err(CompanyNotFound)
    case Some(i) =>
      var cur := s.companies[i];
      if cur.companyHR != caller then Err(NotCompanyOwner)
      else if Truthy(p.companyName) && p.companyName.value == cur.companyName then Err(SameCompanyName)
      else if Truthy(p.companyName) && CompanyNameTaken(s, p.companyName.value) then Err(CompanyNameExists)
      else if Truthy(p.companyEmail) && p.companyEmail.value == cur.companyEmail then Err(SameCompanyEmail)
      else if Truthy(p.companyEmail) && CompanyEmailTaken(s, p.companyEmail.value) then Err(CompanyEmailExists)
      else
        var range := if CountTruthy(p.numberOfEmployess) then CastEmployees(p.numberOfEmployess) else Ok(cur.numberOfEmployees);
        match range
        case Err(e) => Err(e)
        case Ok(range) =>
          var c := PatchCompany(cur, p, range);
          Ok((s.(companies := s.companies[i := c]), c))
  }

  lemma UpdateCompanyPreservesValid(s: Store, caller: Id, companyId: Id, p: CompanyPatch)
    requires Valid(s)
    ensures UpdateCompany(s, caller, companyId, p).Ok? ==> Valid(UpdateCompany(s, caller, companyId, p).value.0)
  {
    var r := UpdateCompany(s, caller, companyId, p);
    if r.Ok? {
      var i := FindCompany(s, companyId).value;
      var c := r.value.1;
      forall j | 0 <= j < |s.companies| && j != i
        ensures s.companies[j].companyName != c.companyName
        ensures s.companies[j].companyEmail != c.companyEmail
      {
        assert j < i ==> CompanyNameOf(s.companies[j]) != CompanyNameOf(s.companies[i]);
        assert i < j ==> CompanyNameOf(s.companies[i]) != CompanyNameOf(s.companies[j]);
        assert j < i ==> CompanyEmailOf(s.companies[j]) != CompanyEmailOf(s.companies[i]);
        assert i < j ==> CompanyEmailOf(s.companies[i]) != CompanyEmailOf(s.companies[j]);
      }
      UpdateCompanyValid(s, i, c);
    }
  }

  // ================================================================ deleteCompany

  /** The ownership check and the removal of the company itself, shared by both
      readings of the cascade. An unknown id is an error. */
  function RemoveCompany(s: Store, caller: Id, companyId: Id): (r: Result<(Store, Company)>)
    ensures FindCompany(s, companyId).None? ==> r == Err(CompanyNotFound)
    ensures FindCompany(s, companyId).Some? && s.companies[FindCompany(s, companyId).value].companyHR != caller ==>
              r == Err(NotCompanyOwner)
    ensures FindCompany(s, companyId).Some? && s.companies[FindCompany(s, companyId).value].companyHR == caller ==>
              r.Ok? && r.value.1 == s.companies[FindCompany(s, companyId).value]
    ensures r.Ok? ==>
      && r.value.1 in s.companies && r.value.1.id == companyId && r.value.1.companyHR == caller
      && (forall i :: 0 <= i < |r.value.0.companies| ==> r.value.0.companies[i] in s.companies && r.value.0.companies[i].id != companyId)
      && (forall i :: 0 <= i < |s.companies| && s.companies[i].id != companyId ==> s.companies[i] in r.value.0.companies)
      && r.value.0.users == s.users && r.value.0.jobs == s.jobs && r.value.0.applications == s.applications
      && r.value.0.nextId == s.nextId
  {
    match FindCompany(s, companyId)
    case None => Err(CompanyNotFound)
    case Some(i) =>
      if s.companies[i].companyHR != caller then Err(NotCompanyOwner)
      else Ok((s.(companies := Filter(s.companies, (c: Company) => c.id != companyId)), s.companies[i]))
  }

  /** deleteCompany as written: the cascade filters jobs and applications on a
      `companyId` neither record has, so it matches nothing and removes nothing. */
  function DeleteCompanyAsWritten(s: Store, caller: Id, companyId: Id): (r: Result<(Store, Company)>)
    ensures r.Ok? ==> r.value.0.jobs == s.jobs && r.value.0.applications == s.applications
    ensures r == RemoveCompany(s, caller, companyId)
  {
    RemoveCompany(s, caller, companyId)
  }

  /** After the as-written deletion the HR's jobs are all still listed. */
  lemma DeleteCompanyAsWrittenKeepsJobs(s: Store, caller: Id, companyId: Id, k: nat)
    requires DeleteCompanyAsWritten(s, caller, companyId).Ok?
    requires k < |s.jobs| && s.jobs[k].addedBy == caller
    ensures s.jobs[k] in DeleteCompanyAsWritten(s, caller, companyId).value.0.jobs
    ensures DeleteCompanyAsWritten(s, caller, companyId).value.1.companyHR == s.jobs[k].addedBy
  {
  }

  /** Whether an application is for one of the HR's jobs. */
  predicate ForJobOf(s: Store, hr: Id, a: Application) {
    exists k :: 0 <= k < |s.jobs| && s.jobs[k].addedBy == hr && s.jobs[k].id == a.jobId
  }

  /** deleteCompany with the cascade it intends: the company's jobs (those its
      HR added) and the applications to those jobs go with it. */
  function DeleteCompany(s: Store, caller: Id, companyId: Id): (r: Result<(Store, Company)>)
    ensures r.Ok? <==> RemoveCompany(s, caller, companyId).Ok?
    ensures r.Err? ==> r == RemoveCompany(s, caller, companyId)
    ensures r.Ok? ==>
      var s' := r.value.0;
      && r.value.1 == RemoveCompany(s, caller, companyId).value.1
      && s'.companies == RemoveCompany(s, caller, companyId).value.0.companies
      && s'.users == s.users
      && (forall i :: 0 <= i < |s'.jobs| ==> s'.jobs[i] in s.jobs && s'.jobs[i].addedBy != caller)
      && (forall i :: 0 <= i < |s.jobs| && s.jobs[i].addedBy != caller ==> s.jobs[i] in s'.jobs)
      && (forall i :: 0 <= i < |s'.applications| ==> s'.applications[i] in s.applications && !ForJobOf(s, caller, s'.applications[i]))
      && (forall i :: 0 <= i < |s.applications| && !ForJobOf(s, caller, s.applications[i]) ==> s.applications[i] in s'.applications)
  {
    match RemoveCompany(s, caller, companyId)
    case Err(e) => Err(e)
    case Ok((s1, company)) =>
      Ok((s1.(jobs := Filter(s.jobs, (j: Job) => j.addedBy != caller),
              applications := Filter(s.applications, (a: Application) => !ForJobOf(s, caller, a))),
          company))
  }

  /** After the corrected deletion, no remaining application points at a job
      of the deleted company's HR, and that HR has no jobs left. */
  lemma DeleteCompanyLeavesNoOrphans(s: Store, caller: Id, companyId: Id)
    requires Valid(s)
    requires DeleteCompany(s, caller, companyId).Ok?
    ensures var s' := DeleteCompany(s, caller, companyId).value.0;
            && Valid(s')
            && (forall k :: 0 <= k < |s'.jobs| ==> s'.jobs[k].addedBy != caller)
            && (forall i, k :: 0 <= i < |s'.applications| && 0 <= k < |s.jobs| && s.jobs[k].addedBy == caller ==>
                  s'.applications[i].jobId != s.jobs[k].id)
  {
    var s' := DeleteCompany(s, caller, companyId).value.0;
    RemoveValid(s, (u: User) => true, (c: Company) => c.id != companyId, (j: Job) => j.addedBy != caller,
                (a: Application) => !ForJobOf(s, caller, a));
    FilterAll(s.users);
  }

  /** Deleting a company frees its name: looking the name up afterwards finds nothing. */
  lemma DeleteCompanyFreesName(s: Store, caller: Id, companyId: Id)
    requires Valid(s)
    requires DeleteCompany(s, caller, companyId).Ok?
    ensures var (s', c) := DeleteCompany(s, caller, companyId).value;
            GetCompanyByName(s', c.companyName) == Err(CompanyNotFound)
  {
    var (s', c) := DeleteCompany(s, caller, companyId).value;
    var ci :| 0 <= ci < |s.companies| && s.companies[ci] == c;
    CompanyNameUnique(s, ci);
    forall i | 0 <= i < |s'.companies|
      ensures s'.companies[i].companyName != c.companyName
    {
      var i' :| 0 <= i' < |s.companies| && s.companies[i'] == s'.companies[i];
      assert i' != ci;
    }
  }

  // ================================================================ getCompanyData

  /** The company is looked up by id, but the jobs are the caller's own. */
  function GetCompanyData(s: Store, caller: Id, companyId: Id): (r: Result<(Company, seq<Job>)>)
    ensures FindCompany(s, companyId).None? ==> r == Err(CompanyNotFound)
    ensures FindCompany(s, companyId).Some? ==>
      (r == Err(JobNotFound) <==> forall k :: 0 <= k < |s.jobs| ==> s.jobs[k].addedBy != caller)
    ensures r.Ok? ==>
      && r.value.0 in s.companies && r.value.0.id == companyId
      && |r.value.1| > 0
      && (forall k :: 0 <= k < |r.value.1| ==> r.value.1[k] in s.jobs && r.value.1[k].addedBy == caller)
      && (forall k :: 0 <= k < |s.jobs| && s.jobs[k].addedBy == caller ==> s.jobs[k] in r.value.1)
  {
    match FindCompany(s, companyId)
    case None => Err(CompanyNotFound)
    case Some(i) =>
      var jobs := JobsAddedBy(s, caller);
      if |jobs| == 0 then Err(JobNotFound)
      else
        assert jobs[0] in s.jobs;
        Ok((s.companies[i], jobs))
  }

  /** The jobs returned do not depend on which company was asked for. */
  lemma GetCompanyDataIgnoresCompany(s: Store, caller: Id, c1: Id, c2: Id)
    requires GetCompanyData(s, caller, c1).Ok? && GetCompanyData(s, caller, c2).Ok?
    ensures GetCompanyData(s, caller, c1).value.1 == GetCompanyData(s, caller, c2).value.1
  {
  }

  // ================================================================ getAllApplicationsSpecificJobs

  /** One element of the response: a job followed by its applications. */
  datatype JobApplications = JobApplications(job: Job, applications: seq<Application>)

  /** Every group holds exactly the stored applications naming its job. */
  predicate GroupsExact(s: Store, groups: seq<JobApplications>) {
    forall g :: 0 <= g < |groups| ==>
      && (forall a :: 0 <= a < |groups[g].applications| ==>
            groups[g].applications[a] in s.applications && groups[g].applications[a].jobId == groups[g].job.id)
      && (forall a :: 0 <= a < |s.applications| && s.applications[a].jobId == groups[g].job.id ==>
            s.applications[a] in groups[g].applications)
  }

  /** Each job paired with the applications naming it, in the jobs' order. */
  function GroupApplications(s: Store, jobs: seq<Job>): (r: seq<JobApplications>)
    ensures |r| == |jobs|
    ensures forall g :: 0 <= g < |r| ==> r[g].job == jobs[g]
    ensures GroupsExact(s, r)
    ensures KeysDistinct(jobs, JobIdOf) ==> forall g, h :: 0 <= g < h < |r| ==> r[g].job != r[h].job
  {
    seq(|jobs|, g requires 0 <= g < |jobs| => JobApplications(jobs[g], ApplicationsFor(s, jobs[g].id)))
  }

  function GetAllApplicationsSpecificJobs(s: Store, caller: Id): (r: Result<seq<JobApplications>>)
    ensures r.Err? <==> forall k :: 0 <= k < |s.jobs| ==> s.jobs[k].addedBy != caller
    ensures r.Err? ==> r.error == NoJobs
    ensures r.Ok? ==> |r.value| > 0
    ensures r.Ok? ==> forall g :: 0 <= g < |r.value| ==> r.value[g].job in s.jobs && r.value[g].job.addedBy == caller
    ensures r.Ok? ==> forall k :: 0 <= k < |s.jobs| && s.jobs[k].addedBy == caller ==>
              exists g :: 0 <= g < |r.value| && r.value[g].job == s.jobs[k]
    ensures r.Ok? ==> GroupsExact(s, r.value)
    ensures r.Ok? && KeysDistinct(s.jobs, JobIdOf) ==>
              forall g, h :: 0 <= g < h < |r.value| ==> r.value[g].job != r.value[h].job
  {
    var jobs := JobsAddedBy(s, caller);
    OwnJobsGrouped(s, caller);
    if |jobs| == 0 then Err(NoJobs) else Ok(GroupApplications(s, jobs))
  }

  /** What the jobs listed for `caller` and their groups say about the stored jobs. */
  lemma OwnJobsGrouped(s: Store, caller: Id)
    ensures |JobsAddedBy(s, caller)| == 0 <==> forall k :: 0 <= k < |s.jobs| ==> s.jobs[k].addedBy != caller
    ensures forall k :: 0 <= k < |s.jobs| && s.jobs[k].addedBy == caller ==>
              exists g :: 0 <= g < |GroupApplications(s, JobsAddedBy(s, caller))| &&
                GroupApplications(s, JobsAddedBy(s, caller))[g].job == s.jobs[k]
    ensures KeysDistinct(s.jobs, JobIdOf) ==> KeysDistinct(JobsAddedBy(s, caller), JobIdOf)
  {
    var jobs := JobsAddedBy(s, caller);
    var groups := GroupApplications(s, jobs);
    if |jobs| > 0 {
      assert jobs[0] in s.jobs;
    }
    forall k | 0 <= k < |s.jobs| && s.jobs[k].addedBy == caller
      ensures exists g :: 0 <= g < |groups| && groups[g].job == s.jobs[k]
    {
      var g :| 0 <= g < |jobs| && jobs[g] == s.jobs[k];
      assert groups[g].job == s.jobs[k];
    }
  }
}

=== FILE: company_schemas.dfy ===
/** src/modules/company.module/company.validation.js: the company routes'
    request schemas as values of the Joi model, and what acceptance implies. */
module CompanySchemas {
  import opened Common
  import opened Joi

  const DescriptionRule: Rule := Text(20, None, None, AnyText)
  /** `Joi.number().min(11).max(20)`: one number, where the model stores a `{from, to}` record. */
  const EmployeesRule: Rule := Between(11, 20)

  const AddCompanyBody: seq<Field> := [
    Required("companyName", AnyString),
    Required("description", DescriptionRule),
    Required("industry", AnyString),
    Required("address", AnyString),
    Required("numberOfEmployees", EmployeesRule),
    Required("companyEmail", AnyString),
    Required("companyHR", ObjectIdString)
  ]
  const AddCompanySchema: Schema := Schema(Some(AddCompanyBody), None)

  /** The employee count as the Company model stores it: a `{from, to}` object of two numbers. */
  const EmployeeRangeRule: Rule := Obj([Required("from", AnyNumber), Required("to", AnyNumber)])

  /** addCompanySchema with the employee count the model expects, all other fields as declared. */
  const AddCompanyRangeBody: seq<Field> := AddCompanyBody[4 := Required("numberOfEmployees", EmployeeRangeRule)]
  const AddCompanyRangeSchema: Schema := Schema(Some(AddCompanyRangeBody), None)

  /** Every field optional; the employee count's key is spelled `numberOfEmployess`. */
  const UpdatedCompanyBody: seq<Field> := [
    Optional("companyName", AnyString),
    Optional("description", DescriptionRule),
    Optional("industry", AnyString),
    Optional("address", AnyString),
    Optional("numberOfEmployess", EmployeesRule),
    Optional("companyEmail", AnyString)
  ]
  const CompanyIdQuery: seq<Field> := [Required("companyId", ObjectIdString)]
  const UpdatedCompanySchema: Schema := Schema(Some(UpdatedCompanyBody), Some(CompanyIdQuery))

  const DeleteCompanySchema: Schema := Schema(None, Some(CompanyIdQuery))
  const GetCompanyDataSchema: Schema := Schema(None, Some(CompanyIdQuery))
  const GetCompanyByNameSchema: Schema := Schema(Some([Required("companyName", AnyString)]), None)
  /** Only headers are checked. */
  const GetAllApplicationsSpecificJobsSchema: Schema := Schema(None, None)

  /** An accepted addCompany body holds every field, a description of at least
      20 characters, a companyHR id, and an employee count that is a single number in 11..20. */
  lemma AddCompanyFields(fm: Formats, req: Request)
    requires Accepts(fm, AddCompanySchema, req)
    ensures forall k :: k in ["companyName", "industry", "address", "companyEmail"] ==>
              k in req.body && req.body[k].JStr? && req.body[k].str != ""
    ensures "description" in req.body && req.body["description"].JStr? && Utf16Length(req.body["description"].str) >= 20
    ensures "companyHR" in req.body && req.body["companyHR"].JStr? && fm.isObjectId(req.body["companyHR"].str)
    ensures "numberOfEmployees" in req.body && req.body["numberOfEmployees"].JNum?
            && 11 <= req.body["numberOfEmployees"].num <= 20
  {
    FieldChecked(fm, AddCompanyBody, req.body, 0);
    FieldChecked(fm, AddCompanyBody, req.body, 1);
    FieldChecked(fm, AddCompanyBody, req.body, 2);
    FieldChecked(fm, AddCompanyBody, req.body, 3);
    FieldChecked(fm, AddCompanyBody, req.body, 4);
    FieldChecked(fm, AddCompanyBody, req.body, 5);
    FieldChecked(fm, AddCompanyBody, req.body, 6);
  }

  /** updateCompany needs only the company id; the correctly spelled
      `numberOfEmployees` is an unknown key, and the misspelt one is a number in 11..20. */
  lemma UpdatedCompanyKeys(fm: Formats, req: Request, companyId: string)
    requires companyId != "" && fm.isObjectId(companyId)
    ensures Accepts(fm, UpdatedCompanySchema, Request(map[], map["companyId" := JStr(companyId)]))
    ensures "numberOfEmployees" in req.body ==> !Accepts(fm, UpdatedCompanySchema, req)
    ensures Accepts(fm, UpdatedCompanySchema, req) && "numberOfEmployess" in req.body ==>
              req.body["numberOfEmployess"].JNum? && 11 <= req.body["numberOfEmployess"].num <= 20
    ensures Accepts(fm, UpdatedCompanySchema, req) ==> "companyId" in req.query
  {
    EmptyObjectAccepted(fm, UpdatedCompanyBody);
    var q := map["companyId" := JStr(companyId)];
    assert RuleAccepts(fm, CompanyIdQuery[0].rule, q["companyId"]);
    ObjectAcceptedIf(fm, CompanyIdQuery, q);
    if "numberOfEmployees" in req.body {
      UnknownKeyRejected(fm, UpdatedCompanyBody, req.body, "numberOfEmployees");
    }
    if Accepts(fm, UpdatedCompanySchema, req) {
      FieldChecked(fm, UpdatedCompanyBody, req.body, 4);
      FieldChecked(fm, CompanyIdQuery, req.query, 0);
    }
  }

  /** The delete and company-data routes need a company id; the by-name route needs a name. */
  lemma LookupFieldsRequired(fm: Formats, req: Request)
    ensures Accepts(fm, DeleteCompanySchema, req) ==> "companyId" in req.query
    ensures Accepts(fm, GetCompanyDataSchema, req) ==> "companyId" in req.query
    ensures Accepts(fm, GetCompanyByNameSchema, req) ==> "companyName" in req.body
  {
    if Accepts(fm, DeleteCompanySchema, req) { FieldChecked(fm, CompanyIdQuery, req.query, 0); }
    if Accepts(fm, GetCompanyDataSchema, req) { FieldChecked(fm, CompanyIdQuery, req.query, 0); }
    if Accepts(fm, GetCompanyByNameSchema, req) {
      FieldChecked(fm, GetCompanyByNameSchema.body.value, req.body, 0);
    }
  }
}

=== FILE: database.dfy ===
/** The document store as one immutable value: four collections in natural
    order and the source of fresh ObjectIds. Each handler is a transition
    from one `Store` to the next. */
module Database {
  import opened Common
  import opened Seqs
  import opened Models

  datatype Store = Store(
    users: seq<User>,
    companies: seq<Company>,
    jobs: seq<Job>,
    applications: seq<Application>,
    nextId: Id)

  /** The store's integrity constraints: `_id` is unique and already issued in
      every collection, and the fields the schemas declare `unique` (user
      `email` and `mobileNumber`, `companyName` and `companyEmail`) are unique. */
  predicate Valid(s: Store) {
    && KeysDistinct(s.users, UserIdOf) && KeysBelow(s.users, UserIdOf, s.nextId)
    && KeysDistinct(s.users, EmailOf) && KeysDistinct(s.users, MobileOf)
    && KeysDistinct(s.companies, CompanyIdOf) && KeysBelow(s.companies, CompanyIdOf, s.nextId)
    && KeysDistinct(s.companies, CompanyNameOf) && KeysDistinct(s.companies, CompanyEmailOf)
    && KeysDistinct(s.jobs, JobIdOf) && KeysBelow(s.jobs, JobIdOf, s.nextId)
    && KeysDistinct(s.applications, ApplicationIdOf) && KeysBelow(s.applications, ApplicationIdOf, s.nextId)
  }

  /** Every stored user's `username` is its first name followed by its last name. */
  predicate UsernamesConsistent(s: Store) {
    forall i :: 0 <= i < |s.users| ==> s.users[i].username == Some(s.users[i].firstName + s.users[i].lastName)
  }

  // ---------------------------------------------------------------- findById / findOne

  function FindUser(s: Store, id: Id): (r: Option<nat>)
    ensures r.Some? ==> r.value < |s.users| && s.users[r.value].id == id
    ensures r.None? <==> forall i :: 0 <= i < |s.users| ==> s.users[i].id != id
  {
    FindFirst(s.users, (u: User) => u.id == id)
  }

  function FindUserByEmail(s: Store, email: string): (r: Option<nat>)
    ensures r.Some? ==> r.value < |s.users| && s.users[r.value].email == email
    ensures r.None? <==> forall i :: 0 <= i < |s.users| ==> s.users[i].email != email
  {
    FindFirst(s.users, (u: User) => u.email == email)
  }

  function FindCompany(s: Store, id: Id): (r: Option<nat>)
    ensures r.Some? ==> r.value < |s.companies| && s.companies[r.value].id == id
    ensures r.None? <==> forall i :: 0 <= i < |s.companies| ==> s.companies[i].id != id
  {
    FindFirst(s.companies, (c: Company) => c.id == id)
  }

  function FindCompanyByName(s: Store, name: string): (r: Option<nat>)
    ensures r.Some? ==> r.value < |s.companies| && s.companies[r.value].companyName == name
    ensures r.Some? ==> forall j :: 0 <= j < r.value ==> s.companies[j].companyName != name
    ensures r.None? <==> forall i :: 0 <= i < |s.companies| ==> s.companies[i].companyName != name
  {
    FindFirst(s.companies, (c: Company) => c.companyName == name)
  }

  function FindJob(s: Store, id: Id): (r: Option<nat>)
    ensures r.Some? ==> r.value < |s.jobs| && s.jobs[r.value].id == id
    ensures r.None? <==> forall i :: 0 <= i < |s.jobs| ==> s.jobs[i].id != id
  {
    FindFirst(s.jobs, (j: Job) => j.id == id)
  }

  /** `findOne({email})` finds a document. */
  predicate EmailTaken(s: Store, email: string) {
    exists i :: 0 <= i < |s.users| && s.users[i].email == email
  }

  /** `findOne({mobileNumber})` finds a document. */
  predicate MobileTaken(s: Store, mobile: string) {
    exists i :: 0 <= i < |s.users| && s.users[i].mobileNumber == mobile
  }

  predicate CompanyNameTaken(s: Store, name: string) {
    exists i :: 0 <= i < |s.companies| && s.companies[i].companyName == name
  }

  predicate CompanyEmailTaken(s: Store, email: string) {
    exists i :: 0 <= i < |s.companies| && s.companies[i].companyEmail == email
  }

  /** `Job.find({addedBy})`. */
  function JobsAddedBy(s: Store, hr: Id): (r: seq<Job>)
    ensures forall i :: 0 <= i < |r| ==> r[i] in s.jobs && r[i].addedBy == hr
    ensures forall i :: 0 <= i < |s.jobs| && s.jobs[i].addedBy == hr ==> s.jobs[i] in r
    ensures KeysDistinct(s.jobs, JobIdOf) ==> KeysDistinct(r, JobIdOf)
  {
    var added := (j: Job) => j.addedBy == hr;
    FilterKeysDistinct(s.jobs, added, JobIdOf);
    Filter(s.jobs, added)
  }

  /** `Application.find({jobId})`. */
  function ApplicationsFor(s: Store, jobId: Id): (r: seq<Application>)
    ensures forall i :: 0 <= i < |r| ==> r[i] in s.applications && r[i].jobId == jobId
    ensures forall i :: 0 <= i < |s.applications| && s.applications[i].jobId == jobId ==> s.applications[i] in r
  {
    Filter(s.applications, (a: Application) => a.jobId == jobId)
  }

  // ---------------------------------------------------------------- invariant helpers

  /** Appending a user with a fresh id and an unused email and mobile number keeps the store valid. */
  lemma AddUserValid(s: Store, u: User)
    requires Valid(s)
    requires u.id == s.nextId
    requires !EmailTaken(s, u.email) && !MobileTaken(s, u.mobileNumber)
    ensures Valid(s.(users := s.users + [u], nextId := s.nextId + 1))
  {
    AppendKeysDistinct(s.users, u, UserIdOf);
    AppendKeysDistinct(s.users, u, EmailOf);
    AppendKeysDistinct(s.users, u, MobileOf);
  }

  /** Rewriting user `i` without changing its id, and with an email and mobile
      number no other user holds, keeps the store valid. */
  lemma UpdateUserValid(s: Store, i: nat, u: User)
    requires Valid(s) && i < |s.users|
    requires u.id == s.users[i].id
    requires forall j :: 0 <= j < |s.users| && j != i ==> s.users[j].email != u.email
    requires forall j :: 0 <= j < |s.users| && j != i ==> s.users[j].mobileNumber != u.mobileNumber
    ensures Valid(s.(users := s.users[i := u]))
  {
    UpdateKeysDistinct(s.users, i, u, UserIdOf);
    UpdateKeysDistinct(s.users, i, u, EmailOf);
    UpdateKeysDistinct(s.users, i, u, MobileOf);
  }

  lemma AddCompanyValid(s: Store, c: Company)
    requires Valid(s)
    requires c.id == s.nextId
    requires !CompanyNameTaken(s, c.companyName) && !CompanyEmailTaken(s, c.companyEmail)
    ensures Valid(s.(companies := s.companies + [c], nextId := s.nextId + 1))
  {
    AppendKeysDistinct(s.companies, c, CompanyIdOf);
    AppendKeysDistinct(s.companies, c, CompanyNameOf);
    AppendKeysDistinct(s.companies, c, CompanyEmailOf);
  }

  lemma UpdateCompanyValid(s: Store, i: nat, c: Company)
    requires Valid(s) && i < |s.companies|
    requires c.id == s.companies[i].id
    requires forall j :: 0 <= j < |s.companies| && j != i ==> s.companies[j].companyName != c.companyName
    requires forall j :: 0 <= j < |s.companies| && j != i ==> s.companies[j].companyEmail != c.companyEmail
    ensures Valid(s.(companies := s.companies[i := c]))
  {
    UpdateKeysDistinct(s.companies, i, c, CompanyIdOf);
    UpdateKeysDistinct(s.companies, i, c, CompanyNameOf);
    UpdateKeysDistinct(s.companies, i, c, CompanyEmailOf);
  }

  lemma AddJobValid(s: Store, j: Job)
    requires Valid(s)
    requires j.id == s.nextId
    ensures Valid(s.(jobs := s.jobs + [j], nextId := s.nextId + 1))
  {
    AppendKeysDistinct(s.jobs, j, JobIdOf);
  }

  lemma UpdateJobValid(s: Store, i: nat, j: Job)
    requires Valid(s) && i < |s.jobs|
    requires j.id == s.jobs[i].id
    ensures Valid(s.(jobs := s.jobs[i := j]))
  {
    UpdateKeysDistinct(s.jobs, i, j, JobIdOf);
  }

  lemma AddApplicationValid(s: Store, a: Application)
    requires Valid(s)
    requires a.id == s.nextId
    ensures Valid(s.(applications := s.applications + [a], nextId := s.nextId + 1))
  {
    AppendKeysDistinct(s.applications, a, ApplicationIdOf);
  }

  /** Removing documents from any collections keeps the store valid. */
  lemma RemoveValid(s: Store, pu: User -> bool, pc: Company -> bool, pj: Job -> bool, pa: Application -> bool)
    requires Valid(s)
    ensures Valid(Store(Filter(s.users, pu), Filter(s.companies, pc), Filter(s.jobs, pj), Filter(s.applications, pa), s.nextId))
  {
    FilterKeysDistinct(s.users, pu, UserIdOf);
    FilterKeysDistinct(s.users, pu, EmailOf);
    FilterKeysDistinct(s.users, pu, MobileOf);
    FilterKeysBelow(s.users, pu, UserIdOf, s.nextId);
    FilterKeysDistinct(s.companies, pc, CompanyIdOf);
    FilterKeysDistinct(s.companies, pc, CompanyNameOf);
    FilterKeysDistinct(s.companies, pc, CompanyEmailOf);
    FilterKeysBelow(s.companies, pc, CompanyIdOf, s.nextId);
    FilterKeysDistinct(s.jobs, pj, JobIdOf);
    FilterKeysBelow(s.jobs, pj, JobIdOf, s.nextId);
    FilterKeysDistinct(s.applications, pa, ApplicationIdOf);
    FilterKeysBelow(s.applications, pa, ApplicationIdOf, s.nextId);
  }

  /** In a valid store an id identifies at most one user. */
  lemma UserIdUnique(s: Store, i: nat, j: nat)
    requires Valid(s) && i < |s.users| && j < |s.users|
    ensures s.users[i].id == s.users[j].id ==> i == j
  {
    assert KeysDistinct(s.users, UserIdOf);
    assert i < j ==> UserIdOf(s.users[i]) != UserIdOf(s.users[j]);
    assert j < i ==> UserIdOf(s.users[j]) != UserIdOf(s.users[i]);
  }

  /** In a valid store no other company shares company `i`'s name. */
  lemma CompanyNameUnique(s: Store, i: nat)
    requires Valid(s) && i < |s.companies|
    ensures forall j :: 0 <= j < |s.companies| && j != i ==> s.companies[j].companyName != s.companies[i].companyName
  {
    forall j | 0 <= j < |s.companies| && j != i
      ensures s.companies[j].companyName != s.companies[i].companyName
    {
      if j < i {
        assert CompanyNameOf(s.companies[j]) != CompanyNameOf(s.companies[i]);
      } else {
        assert CompanyNameOf(s.companies[i]) != CompanyNameOf(s.companies[j]);
      }
    }
  }
}

=== FILE: job_controller.dfy ===
/** src/modules/job.module/job.controller.js: job handlers as transitions
    of the store, and applyJob as a transition of the store and the file
    storage together. */
module JobController {
  import opened Common
  import opened Seqs
  import opened Models
  import opened Database
  import opened Storage

  // ================================================================ addJob

  /** The body fields addJob reads. An undefined enum field takes the schema default. */
  datatype JobRequest = JobRequest(
    jobTitle: string,
    jobLocation: Option<Location>,
    workingTime: Option<WorkingTime>,
    seniorityLevel: Option<Seniority>,
    jobDescription: string,
    technicalSkills: seq<string>,
    softSkills: seq<string>)

  /** addJob always creates: the body's `addedBy` and `companyId` are never read,
      the caller becomes `addedBy`. */
  function AddJob(s: Store, caller: Id, req: JobRequest): (r: (Store, Job))
    ensures r.0.jobs == s.jobs + [r.1]
    ensures r.0.users == s.users && r.0.companies == s.companies && r.0.applications == s.applications
    ensures r.1.addedBy == caller
    ensures r.1.jobTitle == req.jobTitle && r.1.jobDescription == req.jobDescription
    ensures r.1.technicalSkills == req.technicalSkills && r.1.softSkills == req.softSkills
    ensures r.1.jobLocation == LocationOrDefault(req.jobLocation)
    ensures r.1.workingTime == WorkingTimeOrDefault(req.workingTime)
    ensures r.1.seniorityLevel == SeniorityOrDefault(req.seniorityLevel)
    ensures KeysBelow(s.jobs, JobIdOf, s.nextId) ==> forall i :: 0 <= i < |s.jobs| ==> s.jobs[i].id != r.1.id
  {
    var job := Job(s.nextId, req.jobTitle, LocationOrDefault(req.jobLocation),
                   WorkingTimeOrDefault(req.workingTime), SeniorityOrDefault(req.seniorityLevel),
                   req.jobDescription, req.technicalSkills, req.softSkills, caller);
    (s.(jobs := s.jobs + [job], nextId := s.nextId + 1), job)
  }

  lemma AddJobPreservesValid(s: Store, caller: Id, req: JobRequest)
    requires Valid(s)
    ensures Valid(AddJob(s, caller, req).0)
  {
    AddJobValid(s, AddJob(s, caller, req).1);
  }

  // ================================================================ updateJob

  /** The body fields updateJob reads; each may be absent. */
  datatype JobPatch = JobPatch(
    jobTitle: Option<string>,
    jobLocation: Option<Location>,
    workingTime: Option<WorkingTime>,
    seniorityLevel: Option<Seniority>,
    jobDescription: Option<string>,
    technicalSkills: Option<seq<string>>,
    softSkills: Option<seq<string>>)

  /** A supplied enum or array (arrays are truthy even when empty) replaces the current value. */
  function PickValue<T>(o: Option<T>, current: T): (v: T)
    ensures o.Some? ==> v == o.value
    ensures o.None? ==> v == current
  {
    if o.Some? then o.value else current
  }

  /** The in-memory assignments updateJob makes. */
  function PatchJob(j: Job, p: JobPatch): (v: Job)
    ensures v.jobTitle == (if Truthy(p.jobTitle) then p.jobTitle.value else j.jobTitle)
    ensures v.jobDescription == (if Truthy(p.jobDescription) then p.jobDescription.value else j.jobDescription)
    ensures v.jobLocation == PickValue(p.jobLocation, j.jobLocation)
    ensures v.workingTime == PickValue(p.workingTime, j.workingTime)
    ensures v.seniorityLevel == PickValue(p.seniorityLevel, j.seniorityLevel)
    ensures v.technicalSkills == PickValue(p.technicalSkills, j.technicalSkills)
    ensures v.softSkills == PickValue(p.softSkills, j.softSkills)
    ensures v.id == j.id && v.addedBy == j.addedBy
  {
    j.(jobTitle := if Truthy(p.jobTitle) then p.jobTitle.value else j.jobTitle,
       jobLocation := PickValue(p.jobLocation, j.jobLocation),
       workingTime := PickValue(p.workingTime, j.workingTime),
       seniorityLevel := PickValue(p.seniorityLevel, j.seniorityLevel),
       jobDescription := if Truthy(p.jobDescription) then p.jobDescription.value else j.jobDescription,
       technicalSkills := PickValue(p.technicalSkills, j.technicalSkills),
       softSkills := PickValue(p.softSkills, j.softSkills))
  }

  /** updateJob takes the caller like every handler, and never looks at it. */
  function UpdateJob(s: Store, caller: Id, jobId: Id, p: JobPatch): (r: Result<(Store, Job)>)
    ensures r.Err? <==> forall i :: 0 <= i < |s.jobs| ==> s.jobs[i].id != jobId
    ensures r.Err? ==> r.error == JobNotFound
    ensures r.Ok? ==>
      var i := FindJob(s, jobId).value;
      && r.value.1 == PatchJob(s.jobs[i], p)
      && r.value.0 == s.(jobs := s.jobs[i := r.value.1])
  {
    match FindJob(s, jobId)
    case None => Err(JobNotFound)
    case Some(i) =>
      var job := PatchJob(s.jobs[i], p);
      Ok((s.(jobs := s.jobs[i := job]), job))
  }

  /** There is no ownership check: every caller gets the same outcome, even one
      who is not the job's author. */
  lemma UpdateJobIgnoresOwner(s: Store, c1: Id, c2: Id, jobId: Id, p: JobPatch)
    ensures UpdateJob(s, c1, jobId, p) == UpdateJob(s, c2, jobId, p)
    ensures (exists i :: 0 <= i < |s.jobs| && s.jobs[i].id == jobId && s.jobs[i].addedBy != c1) ==>
              UpdateJob(s, c1, jobId, p).Ok?
  {
  }

  lemma UpdateJobPreservesValid(s: Store, caller: Id, jobId: Id, p: JobPatch)
    requires Valid(s)
    ensures UpdateJob(s, caller, jobId, p).Ok? ==> Valid(UpdateJob(s, caller, jobId, p).value.0)
  {
    var r := UpdateJob(s, caller, jobId, p);
    if r.Ok? {
      UpdateJobValid(s, FindJob(s, jobId).value, r.value.1);
    }
  }

  // ================================================================ deleteJob

  function DeleteJob(s: Store, caller: Id, jobId: Id): (r: Result<(Store, Job)>)
    ensures FindJob(s, jobId).None? ==> r == Err(JobNotFound)
    ensures FindJob(s, jobId).Some? && s.jobs[FindJob(s, jobId).value].addedBy != caller ==> r == Err(NotJobOwner)
    ensures FindJob(s, jobId).Some? && s.jobs[FindJob(s, jobId).value].addedBy == caller ==>
              r.Ok? && r.value.1 == s.jobs[FindJob(s, jobId).value]
    ensures r.Ok? ==> r.value.1 in s.jobs && r.value.1.id == jobId && r.value.1.addedBy == caller
    ensures r.Ok? ==>
      var s' := r.value.0;
      && (forall i :: 0 <= i < |s'.jobs| ==> s'.jobs[i] in s.jobs && s'.jobs[i].id != jobId)
      && (forall i :: 0 <= i < |s.jobs| && s.jobs[i].id != jobId ==> s.jobs[i] in s'.jobs)
      && (forall i :: 0 <= i < |s'.applications| ==> s'.applications[i] in s.applications && s'.applications[i].jobId != jobId)
      && (forall i :: 0 <= i < |s.applications| && s.applications[i].jobId != jobId ==> s.applications[i] in s'.applications)
      && s'.users == s.users && s'.companies == s.companies && s'.nextId == s.nextId
  {
    match FindJob(s, jobId)
    case None => Err(JobNotFound)
    case Some(i) =>
      if s.jobs[i].addedBy != caller then Err(NotJobOwner)
      else
        Ok((s.(jobs := Filter(s.jobs, (j: Job) => j.id != jobId),
               applications := Filter(s.applications, (a: Application) => a.jobId != jobId)),
            s.jobs[i]))
  }

  lemma DeleteJobPreservesValid(s: Store, caller: Id, jobId: Id)
    requires Valid(s)
    ensures DeleteJob(s, caller, jobId).Ok? ==> Valid(DeleteJob(s, caller, jobId).value.0)
  {
    if DeleteJob(s, caller, jobId).Ok? {
      RemoveValid(s, (u: User) => true, (c: Company) => true, (j: Job) => j.id != jobId,
                  (a: Application) => a.jobId != jobId);
      FilterAll(s.users);
      FilterAll(s.companies);
    }
  }

  // ================================================================ getAllJobsWithTheirCompany

  /** One element of the response: a company followed by its HR's jobs. */
  datatype CompanyJobs = CompanyJobs(company: Company, jobs: seq<Job>)

  function GetAllJobsWithTheirCompany(s: Store): (r: seq<CompanyJobs>)
    ensures |r| == |s.companies|
    ensures forall i :: 0 <= i < |r| ==> r[i].company == s.companies[i]
    ensures forall i :: 0 <= i < |r| ==>
              forall k :: 0 <= k < |r[i].jobs| ==> r[i].jobs[k] in s.jobs && r[i].jobs[k].addedBy == s.companies[i].companyHR
    ensures forall i :: 0 <= i < |r| ==>
              forall k :: 0 <= k < |s.jobs| && s.jobs[k].addedBy == s.companies[i].companyHR ==> s.jobs[k] in r[i].jobs
  {
    seq(|s.companies|, i requires 0 <= i < |s.companies| =>
      CompanyJobs(s.companies[i], JobsAddedBy(s, s.companies[i].companyHR)))
  }

  // ================================================================ getAllJobsSpecificCompany

  function GetAllJobsSpecificCompany(s: Store, companyName: string): (r: Result<seq<Job>>)
    ensures FindCompanyByName(s, companyName).None? <==> r == Err(CompanyNotFound)
    ensures r.Ok? ==> |r.value| > 0
    ensures FindCompanyByName(s, companyName).Some? ==>
      var hr := s.companies[FindCompanyByName(s, companyName).value].companyHR;
      && (r == Err(NoJobs) <==> forall k :: 0 <= k < |s.jobs| ==> s.jobs[k].addedBy != hr)
      && (r.Ok? ==> forall k :: 0 <= k < |r.value| ==> r.value[k] in s.jobs && r.value[k].addedBy == hr)
      && (r.Ok? ==> forall k :: 0 <= k < |s.jobs| && s.jobs[k].addedBy == hr ==> s.jobs[k] in r.value)
  {
    match FindCompanyByName(s, companyName)
    case None => Err(CompanyNotFound)
    case Some(i) =>
      var jobs := JobsAddedBy(s, s.companies[i].companyHR);
      if |jobs| == 0 then Err(NoJobs)
      else
        assert jobs[0] in s.jobs;
        Ok(jobs)
  }

  // ================================================================ getAllJobsMatchFilters

  /** The five criteria, each compared by equality with the stored value;
      enum criteria are compared with the stored enum string. */
  datatype JobFilter = JobFilter(
    workingTime: string,
    jobLocation: string,
    seniorityLevel: string,
    jobTitle: string,
    technicalSkills: seq<string>)

  /** The `$and` of the five equality conditions; the skill list must be equal as a whole. */
  predicate MatchesFilter(j: Job, f: JobFilter) {
    && WorkingTimeName(j.workingTime) == f.workingTime
    && LocationName(j.jobLocation) == f.jobLocation
    && SeniorityName(j.seniorityLevel) == f.seniorityLevel
    && j.jobTitle == f.jobTitle
    && j.technicalSkills == f.technicalSkills
  }

  function GetAllJobsMatchFilters(s: Store, f: JobFilter): (r: Result<seq<Job>>)
    ensures r.Err? <==> forall k :: 0 <= k < |s.jobs| ==> !MatchesFilter(s.jobs[k], f)
    ensures r.Err? ==> r.error == NoJobs
    ensures r.Ok? ==> 0 < |r.value| <= |s.jobs|
    ensures r.Ok? ==> forall k :: 0 <= k < |r.value| ==> r.value[k] in s.jobs && MatchesFilter(r.value[k], f)
    ensures r.Ok? ==> forall k :: 0 <= k < |s.jobs| && MatchesFilter(s.jobs[k], f) ==> s.jobs[k] in r.value
  {
    var found := Filter(s.jobs, (j: Job) => MatchesFilter(j, f));
    if |found| == 0 then Err(NoJobs)
    else
      assert found[0] in s.jobs && MatchesFilter(found[0], f);
      Ok(found)
  }

  /** The enum criteria are not checked against the enums: a criterion that is
      not one of the stored strings matches no job, so the query fails. */
  lemma FilterOutsideEnumFails(s: Store, f: JobFilter)
    requires f.jobLocation !in LocationNames || f.workingTime !in WorkingTimeNames || f.seniorityLevel !in SeniorityNames
    ensures GetAllJobsMatchFilters(s, f) == Err(NoJobs)
  {
    EnumNamesExact();
  }

  /** The conjunction is strict: a job that differs from the filter in its skill
      list (even by order) is not returned, whatever the other criteria. */
  lemma FilterNeedsExactSkills(s: Store, f: JobFilter, k: nat)
    requires k < |s.jobs| && s.jobs[k].technicalSkills != f.technicalSkills
    ensures GetAllJobsMatchFilters(s, f).Ok? ==> s.jobs[k] !in GetAllJobsMatchFilters(s, f).value
  {
  }

  /** The filter a job's own values make. */
  function CriteriaOf(j: Job): (f: JobFilter)
    ensures MatchesFilter(j, f)
  {
    JobFilter(WorkingTimeName(j.workingTime), LocationName(j.jobLocation),
              SeniorityName(j.seniorityLevel), j.jobTitle, j.technicalSkills)
  }

  /** Filtering by a stored job's own values finds it, and every job found
      agrees with it on all five criteria. */
  lemma FilterFindsOwnJob(s: Store, k: nat)
    requires k < |s.jobs|
    ensures var r := GetAllJobsMatchFilters(s, CriteriaOf(s.jobs[k]));
            && r.Ok? && s.jobs[k] in r.value
            && forall i :: 0 <= i < |r.value| ==>
                 && r.value[i].workingTime == s.jobs[k].workingTime
                 && r.value[i].jobLocation == s.jobs[k].jobLocation
                 && r.value[i].seniorityLevel == s.jobs[k].seniorityLevel
                 && r.value[i].jobTitle == s.jobs[k].jobTitle
                 && r.value[i].technicalSkills == s.jobs[k].technicalSkills
  {
    var r := GetAllJobsMatchFilters(s, CriteriaOf(s.jobs[k]));
    EnumNamesExact();
    assert !r.Err?;
  }

  // ================================================================ applyJob

  /** What the storage service answered to the upload. */
  datatype UploadAnswer = UploadRejected | Uploaded(secureUrl: string, publicId: string)

  /** How `Application.create` settled: with a document, with a falsy value, or by rejecting. */
  datatype Creation = Created | ResolvedEmpty | Rejected

  /** applyJob's effect on both the store (only on success) and the file storage. */
  datatype ApplyOutcome = ApplyOutcome(result: Result<(Store, Application)>, storage: Storage)

  /** The cleanup after a failed creation: destroy the upload, then its folder. */
  function Compensate(st: Storage, folder: FolderPath, publicId: string): (o: ApplyOutcome)
    ensures o.result.Err?
    ensures forall f :: f in o.storage.files ==> f.publicId != publicId
  {
    var st2 := Destroy(st, publicId);
    match DeleteFolder(st2, folder)
    case None => ApplyOutcome(Err(FolderNotDeleted), st2)
    case Some(st3) => ApplyOutcome(Err(ApplicationNotCreated), st3)
  }

  /** The success path shared by both readings of the handler. */
  function CreateApplication(s: Store, caller: Id, jobId: Id, techSkills: seq<string>, softSkills: seq<string>,
                             folderId: string, secureUrl: string, publicId: string): (r: (Store, Application))
    ensures r.0.applications == s.applications + [r.1]
    ensures r.0.users == s.users && r.0.companies == s.companies && r.0.jobs == s.jobs
    ensures r.1.userId == caller && r.1.jobId == jobId
    ensures r.1.userTechSkills == techSkills && r.1.userSoftSkills == softSkills
    ensures r.1.userResume == [Resume(secureUrl, publicId, folderId)]
  {
    var app := Application(s.nextId, jobId, caller, techSkills, softSkills, [Resume(secureUrl, publicId, folderId)]);
    (s.(applications := s.applications + [app], nextId := s.nextId + 1), app)
  }

  /** applyJob as written: the cleanup runs only when creation resolves to a
      falsy value; a rejected creation skips it. */
  function ApplyJobAsWritten(s: Store, st: Storage, caller: Id, jobId: Id, techSkills: seq<string>,
                             softSkills: seq<string>, hasFile: bool, folderId: string,
                             upload: UploadAnswer, creation: Creation): (o: ApplyOutcome)
    ensures FindJob(s, jobId).None? ==> o == ApplyOutcome(Err(JobNotFound), st)
    ensures FindJob(s, jobId).Some? && !hasFile ==> o == ApplyOutcome(Err(NoFileUploaded), st)
    ensures FindJob(s, jobId).Some? && hasFile && upload.UploadRejected? ==> o == ApplyOutcome(Err(UploadFailed), st)
    ensures FindJob(s, jobId).Some? && hasFile && upload.Uploaded? ==>
      var folder := CvFolder(jobId, caller, folderId);
      var st1 := Upload(st, folder, upload.secureUrl, upload.publicId);
      && (creation.Created? ==>
            && o.result.Ok? && o.storage == st1
            && o.result.value.0.applications == s.applications + [o.result.value.1]
            && o.result.value.1.userId == caller && o.result.value.1.jobId == jobId
            && o.result.value.1.userResume == [Resume(upload.secureUrl, upload.publicId, folderId)])
      && (creation.ResolvedEmpty? ==> o == Compensate(st1, folder, upload.publicId))
      && (creation.Rejected? ==> o == ApplyOutcome(Err(ApplicationNotCreated), st1))
  {
    if FindJob(s, jobId).None? then ApplyOutcome(Err(JobNotFound), st)
    else if !hasFile then ApplyOutcome(Err(NoFileUploaded), st)
    else
      var folder := CvFolder(jobId, caller, folderId);
      match upload
      case UploadRejected => ApplyOutcome(Err(UploadFailed), st)
      case Uploaded(url, pid) =>
        var st1 := Upload(st, folder, url, pid);
        match creation
        case Created => ApplyOutcome(Ok(CreateApplication(s, caller, jobId, techSkills, softSkills, folderId, url, pid)), st1)
        case ResolvedEmpty => Compensate(st1, folder, pid)
        case Rejected => ApplyOutcome(Err(ApplicationNotCreated), st1)
  }

  /** A rejected creation leaves the uploaded resume in storage. */
  lemma ApplyJobAsWrittenLeaksResume(s: Store, st: Storage, caller: Id, jobId: Id, techSkills: seq<string>,
                                     softSkills: seq<string>, folderId: string, url: string, pid: string)
    requires FindJob(s, jobId).Some?
    requires Unused(st, CvFolder(jobId, caller, folderId), pid)
    ensures var o := ApplyJobAsWritten(s, st, caller, jobId, techSkills, softSkills, true, folderId, Uploaded(url, pid), Rejected);
            && o.result.Err?
            && StoredFile(pid, url, CvFolder(jobId, caller, folderId)) in o.storage.files
            && o.storage != st
  {
    var f := StoredFile(pid, url, CvFolder(jobId, caller, folderId));
    assert f !in st.files;
  }

  /** applyJob with the cleanup the handler intends: every failed creation, however
      it fails, destroys the uploaded resume and its folder before the error. */
  function ApplyJob(s: Store, st: Storage, caller: Id, jobId: Id, techSkills: seq<string>,
                    softSkills: seq<string>, hasFile: bool, folderId: string,
                    upload: UploadAnswer, creation: Creation): (o: ApplyOutcome)
    ensures FindJob(s, jobId).None? ==> o == ApplyOutcome(Err(JobNotFound), st)
    ensures FindJob(s, jobId).Some? && !hasFile ==> o == ApplyOutcome(Err(NoFileUploaded), st)
    ensures upload.UploadRejected? ==> o.result.Err? && o.storage == st
    ensures FindJob(s, jobId).Some? && hasFile && upload.Uploaded? && creation.Created? ==> o.result.Ok?
    ensures o.result.Ok? ==>
      && FindJob(s, jobId).Some? && hasFile && upload.Uploaded? && creation.Created?
      && o.result.value.0.applications == s.applications + [o.result.value.1]
      && o.result.value.1.userId == caller && o.result.value.1.jobId == jobId
      && o.result.value.1.userResume == [Resume(upload.secureUrl, upload.publicId, folderId)]
      && o.storage == Upload(st, CvFolder(jobId, caller, folderId), upload.secureUrl, upload.publicId)
    ensures FindJob(s, jobId).Some? && hasFile && upload.Uploaded? && !creation.Created? ==>
      o.result.Err? && forall f :: f in o.storage.files ==> f.publicId != upload.publicId
  {
    if FindJob(s, jobId).None? then ApplyOutcome(Err(JobNotFound), st)
    else if !hasFile then ApplyOutcome(Err(NoFileUploaded), st)
    else
      var folder := CvFolder(jobId, caller, folderId);
      match upload
      case UploadRejected => ApplyOutcome(Err(UploadFailed), st)
      case Uploaded(url, pid) =>
        var st1 := Upload(st, folder, url, pid);
        match creation
        case Created => ApplyOutcome(Ok(CreateApplication(s, caller, jobId, techSkills, softSkills, folderId, url, pid)), st1)
        case ResolvedEmpty => Compensate(st1, folder, pid)
        case Rejected => Compensate(st1, folder, pid)
  }

  /** When the upload used a fresh id and folder, a failed creation gives the
      storage back exactly as it was before the request. */
  lemma ApplyJobRestoresStorage(s: Store, st: Storage, caller: Id, jobId: Id, techSkills: seq<string>,
                                softSkills: seq<string>, hasFile: bool, folderId: string,
                                upload: UploadAnswer, creation: Creation)
    requires !creation.Created?
    requires upload.Uploaded? ==> Unused(st, CvFolder(jobId, caller, folderId), upload.publicId)
    ensures var o := ApplyJob(s, st, caller, jobId, techSkills, softSkills, hasFile, folderId, upload, creation);
            o.result.Err? && o.storage == st
  {
    if FindJob(s, jobId).Some? && hasFile && upload.Uploaded? {
      UndoUpload(st, CvFolder(jobId, caller, folderId), upload.secureUrl, upload.publicId);
    }
  }

  lemma ApplyJobPreservesValid(s: Store, st: Storage, caller: Id, jobId: Id, techSkills: seq<string>,
                               softSkills: seq<string>, hasFile: bool, folderId: string,
                               upload: UploadAnswer, creation: Creation)
    requires Valid(s)
    ensures var o := ApplyJob(s, st, caller, jobId, techSkills, softSkills, hasFile, folderId, upload, creation);
            o.result.Ok? ==> Valid(o.result.value.0)
  {
    var o := ApplyJob(s, st, caller, jobId, techSkills, softSkills, hasFile, folderId, upload, creation);
    if o.result.Ok? {
      AddApplicationValid(s, o.result.value.1);
    }
  }
}

=== FILE: job_schemas.dfy ===
/** src/modules/job.module/job.validation.js: the job routes' request schemas
    as values of the Joi model, and what acceptance by each implies. */
module JobSchemas {
  import opened Common
  import opened Models
  import opened Joi

  const TitleRule: Rule := Bounded(10, 50)
  /** `Joi.string().min(20)`. */
  const DescriptionRule: Rule := Text(20, None, None, AnyText)

  const AddJobBody: seq<Field> := [
    Required("jobTitle", TitleRule),
    Required("jobLocation", OneOf(LocationNames)),
    Required("workingTime", OneOf(WorkingTimeNames)),
    Required("seniorityLevel", OneOf(SeniorityNames)),
    Required("jobDescription", DescriptionRule),
    Required("technicalSkills", List),
    Required("softSkills", List),
    Required("addedBy", ObjectIdString),
    Required("companyId", ObjectIdString)
  ]
  const AddJobSchema: Schema := Schema(Some(AddJobBody), None)

  const UpdatedJobBody: seq<Field> := [
    Optional("jobTitle", TitleRule),
    Optional("jobLocation", OneOf(LocationNames)),
    Optional("workingTime", OneOf(WorkingTimeNames)),
    Optional("seniorityLevel", OneOf(SeniorityNames)),
    Optional("jobDescription", DescriptionRule),
    Optional("technicalSkills", List),
    Optional("softSkills", List),
    Optional("companyId", ObjectIdString)
  ]
  const JobIdQuery: seq<Field> := [Required("jobId", ObjectIdString)]
  const UpdatedJobSchema: Schema := Schema(Some(UpdatedJobBody), Some(JobIdQuery))

  const DeleteJobSchema: Schema := Schema(None, Some(JobIdQuery))

  /** Only headers are checked. */
  const GetAllJobsWithTheirCompanySchema: Schema := Schema(None, None)

  /** Declared, though no mounted route uses it. */
  const GetAllJobsSpecificCompanySchema: Schema := Schema(None, Some([Required("companyName", AnyString)]))

  /** Every criterion is optional; only the title is bounded and the enum
      criteria are plain strings. */
  const FilterBody: seq<Field> := [
    Optional("jobTitle", TitleRule),
    Optional("workingTime", AnyString),
    Optional("jobLocation", AnyString),
    Optional("seniorityLevel", AnyString),
    Optional("technicalSkills", List)
  ]
  const FilterSchema: Schema := Schema(Some(FilterBody), None)

  const ApplyJobBody: seq<Field> := [
    Required("jobId", ObjectIdString),
    Optional("userId", ObjectIdString),
    Required("userTechSkills", List),
    Required("userSoftSkills", List)
  ]
  const ApplyJobSchema: Schema := Schema(Some(ApplyJobBody), None)

  /** An accepted addJob body has a 10..50 character title, a description of at
      least 20 characters, skill arrays, and both ids. */
  lemma AddJobFieldBounds(fm: Formats, req: Request)
    requires Accepts(fm, AddJobSchema, req)
    ensures "jobTitle" in req.body && req.body["jobTitle"].JStr? && 10 <= Utf16Length(req.body["jobTitle"].str) <= 50
    ensures "jobDescription" in req.body && req.body["jobDescription"].JStr? && Utf16Length(req.body["jobDescription"].str) >= 20
    ensures "technicalSkills" in req.body && req.body["technicalSkills"].JArr?
    ensures "softSkills" in req.body && req.body["softSkills"].JArr?
    ensures "addedBy" in req.body && req.body["addedBy"].JStr? && fm.isObjectId(req.body["addedBy"].str)
    ensures "companyId" in req.body && req.body["companyId"].JStr? && fm.isObjectId(req.body["companyId"].str)
  {
    FieldChecked(fm, AddJobBody, req.body, 0);
    FieldChecked(fm, AddJobBody, req.body, 4);
    FieldChecked(fm, AddJobBody, req.body, 5);
    FieldChecked(fm, AddJobBody, req.body, 6);
    FieldChecked(fm, AddJobBody, req.body, 7);
    FieldChecked(fm, AddJobBody, req.body, 8);
  }

  /** The three enum fields of an accepted addJob body each name a value of the
      Job model's enum. */
  lemma AddJobEnumsMatchModel(fm: Formats, req: Request)
    requires Accepts(fm, AddJobSchema, req)
    ensures "jobLocation" in req.body && req.body["jobLocation"].JStr?
            && exists l: Location :: LocationName(l) == req.body["jobLocation"].str
    ensures "workingTime" in req.body && req.body["workingTime"].JStr?
            && exists w: WorkingTime :: WorkingTimeName(w) == req.body["workingTime"].str
    ensures "seniorityLevel" in req.body && req.body["seniorityLevel"].JStr?
            && exists v: Seniority :: SeniorityName(v) == req.body["seniorityLevel"].str
  {
    FieldChecked(fm, AddJobBody, req.body, 1);
    FieldChecked(fm, AddJobBody, req.body, 2);
    FieldChecked(fm, AddJobBody, req.body, 3);
    EnumNamesExact();
  }

  /** updateJob needs only the job id; any body field that is present obeys the
      same bounds and enums as in addJob. */
  lemma UpdatedJobOptional(fm: Formats, req: Request, jobId: string)
    requires jobId != "" && fm.isObjectId(jobId)
    ensures Accepts(fm, UpdatedJobSchema, Request(map[], map["jobId" := JStr(jobId)]))
    ensures Accepts(fm, UpdatedJobSchema, req) ==> "jobId" in req.query
    ensures Accepts(fm, UpdatedJobSchema, req) && "jobTitle" in req.body ==>
              req.body["jobTitle"].JStr? && 10 <= Utf16Length(req.body["jobTitle"].str) <= 50
    ensures Accepts(fm, UpdatedJobSchema, req) && "jobLocation" in req.body ==>
              req.body["jobLocation"].JStr? && req.body["jobLocation"].str in LocationNames
    ensures Accepts(fm, UpdatedJobSchema, req) && "jobDescription" in req.body ==>
              req.body["jobDescription"].JStr? && Utf16Length(req.body["jobDescription"].str) >= 20
  {
    EmptyObjectAccepted(fm, UpdatedJobBody);
    var q := map["jobId" := JStr(jobId)];
    assert RuleAccepts(fm, JobIdQuery[0].rule, q["jobId"]);
    ObjectAcceptedIf(fm, JobIdQuery, q);
    if Accepts(fm, UpdatedJobSchema, req) {
      FieldChecked(fm, JobIdQuery, req.query, 0);
      FieldChecked(fm, UpdatedJobBody, req.body, 0);
      FieldChecked(fm, UpdatedJobBody, req.body, 1);
      FieldChecked(fm, UpdatedJobBody, req.body, 4);
    }
  }

  /** The filter body may be empty, and its enum criteria take any non-empty
      string, including ones no job can hold. */
  lemma FilterCriteriaUnchecked(fm: Formats, workingTime: string)
    requires workingTime != ""
    ensures Accepts(fm, FilterSchema, Request(map[], map[]))
    ensures Accepts(fm, FilterSchema, Request(map["workingTime" := JStr(workingTime)], map[]))
  {
    EmptyObjectAccepted(fm, FilterBody);
    var m := map["workingTime" := JStr(workingTime)];
    assert FilterBody[1].name == "workingTime" && RuleAccepts(fm, FilterBody[1].rule, m["workingTime"]);
    ObjectAcceptedIf(fm, FilterBody, m);
  }

  /** A filter title that is present is 10..50 characters long. */
  lemma FilterTitleBounded(fm: Formats, req: Request)
    requires Accepts(fm, FilterSchema, req) && "jobTitle" in req.body
    ensures req.body["jobTitle"].JStr? && 10 <= Utf16Length(req.body["jobTitle"].str) <= 50
  {
    FieldChecked(fm, FilterBody, req.body, 0);
  }

  /** applyJob needs the job id and both skill arrays. */
  lemma ApplyJobRequiredFields(fm: Formats, req: Request)
    requires Accepts(fm, ApplyJobSchema, req)
    ensures "jobId" in req.body && req.body["jobId"].JStr? && fm.isObjectId(req.body["jobId"].str)
    ensures "userTechSkills" in req.body && req.body["userTechSkills"].JArr?
    ensures "userSoftSkills" in req.body && req.body["userSoftSkills"].JArr?
  {
    FieldChecked(fm, ApplyJobBody, req.body, 0);
    FieldChecked(fm, ApplyJobBody, req.body, 2);
    FieldChecked(fm, ApplyJobBody, req.body, 3);
  }
}

=== FILE: joi.dfy ===
/** The part of Joi the request schemas use, as a predicate on parsed JSON.
    An object schema rejects keys it does not declare, requires its required
    keys, and checks every present key against that key's rule. A string rule
    rejects the empty string. The email, ObjectId and ISO-date checks are
    parameters. */
module Joi {
  import opened Common

  /** A parsed request value; numbers are taken to be integers. */
  datatype Json =
    | JStr(str: string)
    | JNum(num: int)
    | JArr(items: seq<Json>)
    | JObj(fields: map<string, Json>)
    | JBool(b: bool)
    | JNull

  /** The `.email()` and `.custom(objectIdValidation)` string checks, and none. */
  datatype Format = AnyText | EmailText | ObjectIdText

  /** The format checks Joi and the ObjectId helper perform, left uninterpreted. */
  datatype Formats = Formats(isEmail: string -> bool, isObjectId: string -> bool, isIsoDate: string -> bool)

  datatype Rule =
    | Text(min: nat, max: Option<nat>, valid: Option<set<string>>, format: Format)
    | Number(lo: Option<int>, hi: Option<int>)
    | List
    | IsoDate
    | Obj(fields: seq<Field>)

  datatype Field = Field(name: string, rule: Rule, required: bool)

  /** A route's schema: the object rules for the body and the query, when given.
      The header rules are not part of this model. */
  datatype Schema = Schema(body: Option<seq<Field>>, query: Option<seq<Field>>)

  /** The parts of a request the schemas look at. */
  datatype Request = Request(body: map<string, Json>, query: map<string, Json>)

  /** The keys an object rule declares. */
  function Names(fields: seq<Field>): (r: set<string>)
    ensures forall i :: 0 <= i < |fields| ==> fields[i].name in r
    ensures forall k :: k in r ==> exists i :: 0 <= i < |fields| && fields[i].name == k
  {
    set i | 0 <= i < |fields| :: fields[i].name
  }

  predicate FormatHolds(fm: Formats, format: Format, s: string) {
    match format
    case AnyText => true
    case EmailText => fm.isEmail(s)
    case ObjectIdText => fm.isObjectId(s)
  }

  /** A string's JavaScript `length`, the count Joi's `min` and `max` bound:
      UTF-16 code units, two for a character above U+FFFF and one otherwise. */
  function Utf16Length(s: string): (n: nat)
    ensures |s| <= n <= 2 * |s|
    ensures n == |s| <==> forall i :: 0 <= i < |s| ==> s[i] as int <= 0xFFFF
  {
    if |s| == 0 then 0
    else (if s[0] as int > 0xFFFF then 2 else 1) + Utf16Length(s[1..])
  }

  /** The UTF-16 length of a concatenation is the sum of the lengths. */
  lemma {:induction false} Utf16LengthAppend(a: string, b: string)
    ensures Utf16Length(a + b) == Utf16Length(a) + Utf16Length(b)
  {
    if |a| > 0 {
      assert (a + b)[0] == a[0];
      assert (a + b)[1..] == a[1..] + b;
      Utf16LengthAppend(a[1..], b);
    } else {
      assert a + b == b;
    }
  }

  /** A `Joi.string()` with optional `min`, `max`, `valid` and format checks. */
  predicate TextAccepts(fm: Formats, min: nat, max: Option<nat>, valid: Option<set<string>>, format: Format, s: string) {
    && s != ""
    && min <= Utf16Length(s)
    && (max.Some? ==> Utf16Length(s) <= max.value)
    && (valid.Some? ==> s in valid.value)
    && FormatHolds(fm, format, s)
  }

  predicate RuleAccepts(fm: Formats, r: Rule, j: Json)
    decreases r, 1
  {
    match r
    case Text(min, max, valid, format) => j.JStr? && TextAccepts(fm, min, max, valid, format, j.str)
    case Number(lo, hi) => j.JNum? && (lo.Some? ==> lo.value <= j.num) && (hi.Some? ==> j.num <= hi.value)
    case List => j.JArr?
    case IsoDate => j.JStr? && fm.isIsoDate(j.str)
    case Obj(fields) => j.JObj? && ObjectAccepts(fm, fields, j.fields)
  }

  predicate ObjectAccepts(fm: Formats, fields: seq<Field>, m: map<string, Json>)
    decreases Obj(fields), 0
  {
    && m.Keys <= Names(fields)
    && (forall i :: 0 <= i < |fields| && fields[i].required ==> fields[i].name in m)
    && (forall i :: 0 <= i < |fields| && fields[i].name in m ==> RuleAccepts(fm, fields[i].rule, m[fields[i].name]))
  }

  predicate Accepts(fm: Formats, sc: Schema, req: Request) {
    && (sc.body.Some? ==> ObjectAccepts(fm, sc.body.value, req.body))
    && (sc.query.Some? ==> ObjectAccepts(fm, sc.query.value, req.query))
  }

  // ---------------------------------------------------------------- field constructors

  function Required(name: string, rule: Rule): Field { Field(name, rule, true) }
  function Optional(name: string, rule: Rule): Field { Field(name, rule, false) }

  /** A bare `Joi.string()`. */
  const AnyString: Rule := Text(0, None, None, AnyText)
  /** `Joi.string().min(lo).max(hi)`. */
  function Bounded(lo: nat, hi: nat): Rule { Text(lo, Some(hi), None, AnyText) }
  /** `Joi.string().valid(...)`. */
  function OneOf(names: set<string>): Rule { Text(0, None, Some(names), AnyText) }
  /** `Joi.number().min(lo).max(hi)`. */
  function Between(lo: int, hi: int): Rule { Number(Some(lo), Some(hi)) }
  /** A bare `Joi.number()`. */
  const AnyNumber: Rule := Number(None, None)
  const EmailString: Rule := Text(0, None, None, EmailText)
  const ObjectIdString: Rule := Text(0, None, None, ObjectIdText)

  // ---------------------------------------------------------------- what acceptance implies

  /** An accepted object holds every required key, each present key passes its
      rule, and no other key is present. */
  lemma FieldChecked(fm: Formats, fields: seq<Field>, m: map<string, Json>, i: nat)
    requires ObjectAccepts(fm, fields, m) && i < |fields|
    ensures fields[i].required ==> fields[i].name in m
    ensures fields[i].name in m ==> RuleAccepts(fm, fields[i].rule, m[fields[i].name])
  {
  }

  /** A key the object does not declare makes it rejected. */
  lemma UnknownKeyRejected(fm: Formats, fields: seq<Field>, m: map<string, Json>, k: string)
    requires k in m
    requires forall i :: 0 <= i < |fields| ==> fields[i].name != k
    ensures !ObjectAccepts(fm, fields, m)
  {
  }

  /** The empty object is accepted exactly when no key is required. */
  lemma EmptyObjectAccepted(fm: Formats, fields: seq<Field>)
    ensures ObjectAccepts(fm, fields, map[]) <==> forall i :: 0 <= i < |fields| ==> !fields[i].required
  {
    var empty: map<string, Json> := map[];
    assert empty.Keys == {};
  }

  /** A string accepted by a `min`/`max` rule has a UTF-16 length within the
      bounds, is not empty, and has at least half as many characters as `lo`. */
  lemma BoundedLength(fm: Formats, lo: nat, hi: nat, j: Json)
    requires RuleAccepts(fm, Bounded(lo, hi), j)
    ensures j.JStr? && lo <= Utf16Length(j.str) <= hi && |j.str| > 0
    ensures lo <= 2 * |j.str| && |j.str| <= hi
  {
  }

  /** An object whose every key is declared and passes its rule, and which holds
      every required key, is accepted. */
  lemma ObjectAcceptedIf(fm: Formats, fields: seq<Field>, m: map<string, Json>)
    requires forall k :: k in m ==> exists i :: 0 <= i < |fields| && fields[i].name == k && RuleAccepts(fm, fields[i].rule, m[k])
    requires forall i :: 0 <= i < |fields| && fields[i].required ==> fields[i].name in m
    requires forall i, j :: 0 <= i < j < |fields| ==> fields[i].name != fields[j].name
    ensures ObjectAccepts(fm, fields, m)
  {
    forall i | 0 <= i < |fields| && fields[i].name in m
      ensures RuleAccepts(fm, fields[i].rule, m[fields[i].name])
    {
      var k := fields[i].name;
      var i' :| 0 <= i' < |fields| && fields[i'].name == k && RuleAccepts(fm, fields[i'].rule, m[k]);
      assert i' == i;
    }
  }
}

=== FILE: models.dfy ===
/** The four document schemas of DB/models as immutable records. Ids stand
    for Mongo ObjectIds; dates are millisecond timestamps, except
    `dateOfBirth`, which is kept as the submitted ISO string. */
module Models {
  import opened Common

  type Id = nat

  // ---------------------------------------------------------------- User

  /** The two values of the user `role` enum. */
  datatype Role = USER | HR

  datatype Status = Online | Offline

  /** The optional `passwordResetOTP` sub-record. */
  datatype OtpRecord = OtpRecord(code: string, expiresAt: int)

  /** A User document. `username` is the only optional string field. */
  datatype User = User(
    id: Id,
    firstName: string,
    lastName: string,
    username: Option<string>,
    email: string,
    recoveryEmail: string,
    password: string,
    dateOfBirth: string,
    mobileNumber: string,
    role: Role,
    status: Status,
    passwordResetOTP: Option<OtpRecord>)

  /** The value the schema stores when `role` is left undefined at creation. */
  function RoleOrDefault(r: Option<Role>): (role: Role)
    ensures r.Some? ==> role == r.value
    ensures r.None? ==> role == USER
  {
    if r.Some? then r.value else USER
  }

  /** The value the schema stores when `status` is left undefined at creation. */
  function StatusOrDefault(s: Option<Status>): (status: Status)
    ensures s.Some? ==> status == s.value
    ensures s.None? ==> status == Offline
  {
    if s.Some? then s.value else Offline
  }

  // ---------------------------------------------------------------- Job

  datatype Location = Onsite | Remotely | Hybrid
  datatype WorkingTime = PartTime | FullTime
  datatype Seniority = Junior | MidLevel | Senior | TeamLead | CTO

  /** The string each enum value is stored as. */
  function LocationName(l: Location): string {
    match l
    case Onsite => "onsite"
    case Remotely => "remotely"
    case Hybrid => "hybrid"
  }

  function WorkingTimeName(w: WorkingTime): string {
    match w
    case PartTime => "part-time"
    case FullTime => "full-time"
  }

  function SeniorityName(v: Seniority): string {
    match v
    case Junior => "Junior"
    case MidLevel => "Mid-Level"
    case Senior => "Senior"
    case TeamLead => "Team-Lead"
    case CTO => "CTO"
  }

  /** The schema defaults applied when a job field is left undefined at creation. */
  function LocationOrDefault(l: Option<Location>): (v: Location)
    ensures l.None? ==> v == Remotely
    ensures l.Some? ==> v == l.value
  {
    if l.Some? then l.value else Remotely
  }

  function WorkingTimeOrDefault(w: Option<WorkingTime>): (v: WorkingTime)
    ensures w.None? ==> v == PartTime
    ensures w.Some? ==> v == w.value
  {
    if w.Some? then w.value else PartTime
  }

  function SeniorityOrDefault(l: Option<Seniority>): (v: Seniority)
    ensures l.None? ==> v == Junior
    ensures l.Some? ==> v == l.value
  {
    if l.Some? then l.value else Junior
  }

  const LocationNames: set<string> := {"onsite", "remotely", "hybrid"}
  const WorkingTimeNames: set<string> := {"part-time", "full-time"}
  const SeniorityNames: set<string> := {"Junior", "Mid-Level", "Senior", "Team-Lead", "CTO"}

  /** A Job document. The schema has no `companyId` path; `jobTitle`'s
      `min`/`max` options are not string-length validators, so the title is
      unbounded here. */
  datatype Job = Job(
    id: Id,
    jobTitle: string,
    jobLocation: Location,
    workingTime: WorkingTime,
    seniorityLevel: Seniority,
    jobDescription: string,
    technicalSkills: seq<string>,
    softSkills: seq<string>,
    addedBy: Id)

  // ---------------------------------------------------------------- Company

  /** The `{from, to}` employee range; no ordering between the bounds is declared. */
  datatype EmployeeRange = EmployeeRange(from: int, to: int)

  datatype Company = Company(
    id: Id,
    companyName: string,
    description: string,
    industry: string,
    address: string,
    numberOfEmployees: EmployeeRange,
    companyEmail: string,
    companyHR: Id)

  // ---------------------------------------------------------------- Application

  /** One entry of `userResume`, as built from the storage upload result. */
  datatype Resume = Resume(secureUrl: string, publicId: string, folderId: string)

  datatype Application = Application(
    id: Id,
    jobId: Id,
    userId: Id,
    userTechSkills: seq<string>,
    userSoftSkills: seq<string>,
    userResume: seq<Resume>)

  // ---------------------------------------------------------------- keys

  function UserIdOf(u: User): Id { u.id }
  function EmailOf(u: User): string { u.email }
  function MobileOf(u: User): string { u.mobileNumber }
  function CompanyIdOf(c: Company): Id { c.id }
  function CompanyNameOf(c: Company): string { c.companyName }
  function CompanyEmailOf(c: Company): string { c.companyEmail }
  function JobIdOf(j: Job): Id { j.id }
  function ApplicationIdOf(a: Application): Id { a.id }

  /** The enum names are pairwise distinct and are exactly the declared value lists. */
  lemma EnumNamesExact()
    ensures forall l: Location :: LocationName(l) in LocationNames
    ensures forall n :: n in LocationNames ==> exists l: Location :: LocationName(l) == n
    ensures forall w: WorkingTime :: WorkingTimeName(w) in WorkingTimeNames
    ensures forall n :: n in WorkingTimeNames ==> exists w: WorkingTime :: WorkingTimeName(w) == n
    ensures forall v: Seniority :: SeniorityName(v) in SeniorityNames
    ensures forall n :: n in SeniorityNames ==> exists v: Seniority :: SeniorityName(v) == n
    ensures forall a: Location, b: Location :: LocationName(a) == LocationName(b) ==> a == b
    ensures forall a: WorkingTime, b: WorkingTime :: WorkingTimeName(a) == WorkingTimeName(b) ==> a == b
    ensures forall a: Seniority, b: Seniority :: SeniorityName(a) == SeniorityName(b) ==> a == b
  {
    assert LocationName(Onsite) == "onsite" && LocationName(Remotely) == "remotely" && LocationName(Hybrid) == "hybrid";
    assert WorkingTimeName(PartTime) == "part-time" && WorkingTimeName(FullTime) == "full-time";
    assert SeniorityName(Junior) == "Junior" && SeniorityName(MidLevel) == "Mid-Level";
    assert SeniorityName(Senior) == "Senior" && SeniorityName(TeamLead) == "Team-Lead" && SeniorityName(CTO) == "CTO";
  }
}

=== FILE: otp.dfy ===
/** src/utils/generateOTP.js: a six-digit one-time code. The floating-point
    draw `Math.random() * 900000` enters as its integer floor `k`, since
    `floor(100000 + x) == 100000 + floor(x)`. */
module Otp {

  /** The integer part of `Math.random() * 900000`, for a draw in [0, 1). */
  type Draw = k: int | 0 <= k < 900000

  const OtpLength: nat := 6

  function DigitChar(d: int): char
    requires 0 <= d < 10
  {
    ('0' as int + d) as char
  }

  predicate IsDigit(c: char) {
    '0' <= c <= '9'
  }

  function DigitValue(c: char): int {
    c as int - '0' as int
  }

  /** `Number.prototype.toString()` on a non-negative integer: decimal, no leading zeros. */
  function DecimalString(n: nat): string
    decreases n
  {
    if n < 10 then [DigitChar(n)] else DecimalString(n / 10) + [DigitChar(n % 10)]
  }

  /** Reads a string of decimal digits back as a number. */
  function ParseDecimal(s: string): nat
    decreases |s|
  {
    if |s| == 0 then 0
    else
      var d := DigitValue(s[|s| - 1]);
      10 * ParseDecimal(s[..|s| - 1]) + (if 0 <= d then d else 0)
  }

  /** The generator: the decimal form of `100000 + k`, cut to its first six characters. */
  function GenerateOtp(k: Draw): (code: string)
    ensures |code| == OtpLength
    ensures forall i :: 0 <= i < |code| ==> IsDigit(code[i])
    ensures code[0] != '0'
  {
    var n := 100000 + k;
    SixDigits(n);
    LeadingDigitNonZero(n);
    DecimalDigits(n);
    var s := DecimalString(n);
    s[..if |s| < OtpLength then |s| else OtpLength]
  }

  /** Numbers in [10^5, 10^6) have exactly six decimal digits. */
  lemma SixDigits(n: nat)
    requires 100000 <= n <= 999999
    ensures |DecimalString(n)| == 6
  {
    var n1 := n / 10;
    var n2 := n1 / 10;
    var n3 := n2 / 10;
    var n4 := n3 / 10;
    var n5 := n4 / 10;
    assert 1 <= n5 < 10;
    assert |DecimalString(n4)| == 2;
    assert |DecimalString(n3)| == 3;
    assert |DecimalString(n2)| == 4;
    assert |DecimalString(n1)| == 5;
  }

  lemma {:induction false} LeadingDigitNonZero(n: nat)
    requires n >= 1
    ensures DecimalString(n)[0] != '0'
    decreases n
  {
    if n >= 10 {
      LeadingDigitNonZero(n / 10);
      assert DecimalString(n)[0] == DecimalString(n / 10)[0];
    }
  }

  lemma {:induction false} DecimalDigits(n: nat)
    ensures forall i :: 0 <= i < |DecimalString(n)| ==> IsDigit(DecimalString(n)[i])
    decreases n
  {
    if n >= 10 {
      DecimalDigits(n / 10);
    }
  }

  /** Parsing undoes printing. */
  lemma {:induction false} ParsePrint(n: nat)
    ensures ParseDecimal(DecimalString(n)) == n
    decreases n
  {
    var s := DecimalString(n);
    if n >= 10 {
      ParsePrint(n / 10);
      assert s[..|s| - 1] == DecimalString(n / 10);
      assert DigitValue(s[|s| - 1]) == n % 10;
    } else {
      assert s[..0] == [];
    }
  }

  /** The code reads back as `100000 + k`: the six-character cut loses nothing. */
  lemma GenerateOtpRoundTrip(k: Draw)
    ensures ParseDecimal(GenerateOtp(k)) == 100000 + k
    ensures 100000 <= ParseDecimal(GenerateOtp(k)) <= 999999
  {
    var n := 100000 + k;
    SixDigits(n);
    ParsePrint(n);
    assert GenerateOtp(k) == DecimalString(n);
  }

  /** Different draws give different codes, so the code depends on nothing but the draw. */
  lemma GenerateOtpInjective(k1: Draw, k2: Draw)
    ensures GenerateOtp(k1) == GenerateOtp(k2) <==> k1 == k2
  {
    GenerateOtpRoundTrip(k1);
    GenerateOtpRoundTrip(k2);
  }
}

=== FILE: roles.dfy ===
/** src/modules/job.module/job.endPoints.role.js: the role gates the auth
    middleware is given. The company and user routers name the same three
    gates from tables of their own, which are read here with the same meaning. */
module Roles {
  import opened Models

  datatype Gate = HRGate | UserAndHRGate | UserGate

  /** The roles listed under each gate, in the table's order. */
  function GateRoles(g: Gate): seq<Role> {
    match g
    case HRGate => [HR]
    case UserAndHRGate => [HR, USER]
    case UserGate => [USER]
  }

  /** The roles a gate admits. */
  function Admitted(g: Gate): (r: set<Role>)
    ensures HR in r <==> !g.UserGate?
    ensures USER in r <==> !g.HRGate?
  {
    set x | x in GateRoles(g)
  }

  /** Every gate admits a non-empty subset of the two roles, no two gates admit
      the same roles, and the shared gate admits what the other two admit together. */
  lemma GatesPartitionRoles()
    ensures forall g: Gate :: Admitted(g) != {} && Admitted(g) <= {HR, USER}
    ensures Admitted(HRGate) == {HR} && Admitted(UserGate) == {USER}
    ensures Admitted(UserAndHRGate) == Admitted(HRGate) + Admitted(UserGate)
    ensures forall g1: Gate, g2: Gate :: Admitted(g1) == Admitted(g2) ==> g1 == g2
  {
    forall g: Gate ensures Admitted(g) <= {HR, USER} {
      forall r | r in Admitted(g) ensures r in {HR, USER} {
        assert r.HR? || r.USER?;
      }
    }
    assert HR !in Admitted(UserGate) && USER !in Admitted(HRGate);
  }
}

=== FILE: routes.dfy ===
/** The three mounted routers (the `*.route.js` files under src/modules): each endpoint is a
    chain of middleware run in order, the auth gate, the resume upload, the
    schema check and the handler. A step that refuses the request ends the chain. */
module Routes {
  import opened Common
  import opened Seqs
  import opened Models
  import opened Roles
  import opened Joi
  import opened UserSchemas
  import opened JobSchemas
  import opened CompanySchemas

  datatype Verb = Get | Post | Put | Patch | Delete

  datatype Handler =
    | SignUpH | SignInH | UpdateAccountH | DeleteAccountH | GetUserAccountDataH
    | GetProfileDataForAnotherUserH | UpdatePasswordH | ForgetPasswordH
    | ResetPasswordAfterOtpH | GetAllAccountsAssociatedH
    | AddJobH | UpdateJobH | DeleteJobH | GetAllJobsWithTheirCompanyH
    | GetAllJobsSpecificCompanyH | GetAllJobsMatchFiltersH | ApplyJobH
    | AddCompanyH | UpdateCompanyH | DeleteCompanyH | GetCompanyDataH
    | GetCompanyByNameH | GetAllApplicationsSpecificJobsH

  /** One middleware: `auth(gate)`, the single-file `cv` upload, `validationMiddleWare(schema)`, or the handler. */
  datatype Step = Auth(gate: Gate) | UploadCv | Validate(schema: Schema) | Handle(handler: Handler)

  datatype Route = Route(verb: Verb, path: string, steps: seq<Step>)

  /** Who sends the request: nobody signed in, or a signed-in user with a role. */
  datatype Caller = Anonymous | SignedIn(id: Id, role: Role)

  datatype Outcome = NoRoute | Unauthenticated | Forbidden | UploadRefused | Invalid | Reached(handler: Handler)

  // ---------------------------------------------------------------- the tables

  const UserRoutes: seq<Route> := [
    Route(Post, "/signup", [Validate(SignUpSchema), Handle(SignUpH)]),
    Route(Post, "/signIn", [Validate(SignInSchema), Handle(SignInH)]),
    Route(Put, "/update", [Auth(UserAndHRGate), Validate(AccountSchema), Handle(UpdateAccountH)]),
    Route(Delete, "/delete", [Auth(UserAndHRGate), Validate(AccountSchema), Handle(DeleteAccountH)]),
    Route(Get, "/getuserdata", [Auth(UserAndHRGate), Validate(AccountSchema), Handle(GetUserAccountDataH)]),
    Route(Get, "/getanotheuserdata", [Auth(UserAndHRGate), Validate(AccountSchema), Handle(GetProfileDataForAnotherUserH)]),
    Route(Patch, "/updatepassword", [Auth(UserAndHRGate), Validate(UpdatePasswordSchema), Handle(UpdatePasswordH)]),
    Route(Get, "/forgetPassword", [Validate(ForgetPasswordSchema), Handle(ForgetPasswordH)]),
    Route(Patch, "/resetPasswordAfterOTP", [Validate(ResetPasswordSchema), Handle(ResetPasswordAfterOtpH)]),
    Route(Get, "/getAllAccountsAssociated", [Auth(UserAndHRGate), Validate(AccountsAssociatedSchema), Handle(GetAllAccountsAssociatedH)])
  ]

  const JobRoutes: seq<Route> := [
    Route(Post, "/addjob", [Auth(HRGate), Validate(AddJobSchema), Handle(AddJobH)]),
    Route(Put, "/updatejob", [Auth(HRGate), Validate(UpdatedJobSchema), Handle(UpdateJobH)]),
    Route(Delete, "/deletejob", [Auth(HRGate), Validate(DeleteJobSchema), Handle(DeleteJobH)]),
    Route(Get, "/getAllJobsWithTheirCompany", [Auth(UserAndHRGate), Validate(GetAllJobsWithTheirCompanySchema), Handle(GetAllJobsWithTheirCompanyH)]),
    Route(Get, "/getAllJobsSpecificCompany", [Auth(UserAndHRGate), Validate(GetAllJobsWithTheirCompanySchema), Handle(GetAllJobsSpecificCompanyH)]),
    Route(Get, "/getAllJobsMatchFilters", [Auth(UserAndHRGate), Validate(FilterSchema), Handle(GetAllJobsMatchFiltersH)]),
    Route(Post, "/applyJob", [Auth(UserGate), UploadCv, Validate(ApplyJobSchema), Handle(ApplyJobH)])
  ]

  const CompanyRoutes: seq<Route> := [
    Route(Post, "/addcompany", [Auth(HRGate), Validate(AddCompanySchema), Handle(AddCompanyH)]),
    Route(Put, "/updateCompany", [Auth(HRGate), Validate(UpdatedCompanySchema), Handle(UpdateCompanyH)]),
    Route(Delete, "/deletecompany", [Auth(HRGate), Validate(DeleteCompanySchema), Handle(DeleteCompanyH)]),
    Route(Get, "/getCompanyData", [Auth(HRGate), Validate(GetCompanyDataSchema), Handle(GetCompanyDataH)]),
    Route(Get, "/getCompanyByName", [Auth(UserAndHRGate), Validate(GetCompanyByNameSchema), Handle(GetCompanyByNameH)]),
    Route(Get, "/getAllApplicationsSpecificJobs", [Auth(HRGate), Validate(GetAllApplicationsSpecificJobsSchema), Handle(GetAllApplicationsSpecificJobsH)])
  ]

  // ---------------------------------------------------------------- running a chain

  /** Whether the auth middleware lets this caller through this gate. */
  predicate Admits(g: Gate, caller: Caller) {
    caller.SignedIn? && caller.role in Admitted(g)
  }

  /** Runs the middleware in order; `uploadOk` says whether the upload middleware accepts the file. */
  function RunSteps(steps: seq<Step>, caller: Caller, fm: Formats, req: Request, uploadOk: bool): (o: Outcome)
    ensures o.Reached? ==> exists i :: 0 <= i < |steps| && steps[i] == Handle(o.handler)
    decreases |steps|
  {
    if |steps| == 0 then NoRoute
    else match steps[0]
      case Auth(g) =>
        if caller.Anonymous? then Unauthenticated
        else if !Admits(g, caller) then Forbidden
        else RunSteps(steps[1..], caller, fm, req, uploadOk)
      case UploadCv =>
        if !uploadOk then UploadRefused else RunSteps(steps[1..], caller, fm, req, uploadOk)
      case Validate(sc) =>
        if !Accepts(fm, sc, req) then Invalid else RunSteps(steps[1..], caller, fm, req, uploadOk)
      case Handle(h) => Reached(h)
  }

  /** A chain of the shape every mounted endpoint has: an optional gate, an
      optional upload, the schema check, then the handler. */
  predicate Ordered(steps: seq<Step>) {
    && |steps| >= 2
    && steps[|steps| - 1].Handle?
    && steps[|steps| - 2].Validate?
    && (|steps| >= 3 ==> steps[0].Auth?)
    && (|steps| == 4 ==> steps[1].UploadCv?)
    && |steps| <= 4
  }

  /** On an ordered chain the handler is reached exactly when the gate (if any)
      admits the caller, the upload (if any) succeeds and the schema accepts the
      request; a refused caller is refused whatever the request holds. */
  lemma {:induction false} RunOrdered(steps: seq<Step>, caller: Caller, fm: Formats, req: Request, uploadOk: bool)
    requires Ordered(steps)
    ensures var o := RunSteps(steps, caller, fm, req, uploadOk);
      && (steps[0].Auth? && caller.Anonymous? ==> o == Unauthenticated)
      && (steps[0].Auth? && caller.SignedIn? && !Admits(steps[0].gate, caller) ==> o == Forbidden)
      && (|steps| == 4 && Admits(steps[0].gate, caller) && !uploadOk ==> o == UploadRefused)
      && (o == Reached(steps[|steps| - 1].handler) <==>
            && (steps[0].Auth? ==> Admits(steps[0].gate, caller))
            && (|steps| == 4 ==> uploadOk)
            && Accepts(fm, steps[|steps| - 2].schema, req))
  {
    var n := |steps|;
    var tail2 := steps[n - 2..];
    assert RunSteps(tail2, caller, fm, req, uploadOk) ==
      (if Accepts(fm, steps[n - 2].schema, req) then Reached(steps[n - 1].handler) else Invalid) by {
      assert tail2[1..] == [steps[n - 1]];
    }
    if n >= 3 {
      assert steps[1..][n - 3..] == tail2;
      if n == 4 {
        assert steps[1..][1..] == tail2;
      } else {
        assert steps[1..] == tail2;
      }
    } else {
      assert steps == tail2;
    }
  }

  /** The first route with this verb and path. */
  function Lookup(routes: seq<Route>, verb: Verb, path: string): (r: Option<nat>)
    ensures r.Some? ==> r.value < |routes| && routes[r.value].verb == verb && routes[r.value].path == path
    ensures r.None? <==> forall i :: 0 <= i < |routes| ==> routes[i].verb != verb || routes[i].path != path
  {
    FindFirst(routes, (rt: Route) => rt.verb == verb && rt.path == path)
  }

  function Dispatch(routes: seq<Route>, verb: Verb, path: string, caller: Caller, fm: Formats, req: Request,
                    uploadOk: bool): (o: Outcome)
    ensures Lookup(routes, verb, path).None? ==> o == NoRoute
    ensures o.Reached? ==> exists i :: 0 <= i < |routes| && routes[i].path == path && Handle(o.handler) in routes[i].steps
  {
    match Lookup(routes, verb, path)
    case None => NoRoute
    case Some(i) => RunSteps(routes[i].steps, caller, fm, req, uploadOk)
  }

  /** No two routes of a table share a path, and every chain is ordered. */
  predicate WellFormed(routes: seq<Route>) {
    && (forall i, j :: 0 <= i < j < |routes| ==> routes[i].path != routes[j].path)
    && (forall i :: 0 <= i < |routes| ==> Ordered(routes[i].steps))
  }

  lemma UserRoutesWellFormed()
    ensures WellFormed(UserRoutes)
  {
    UserPathsDistinct();
  }

  /** The ten user paths are pairwise different. */
  lemma UserPathsDistinct()
    ensures forall i, j :: 0 <= i < j < |UserRoutes| ==> UserRoutes[i].path != UserRoutes[j].path
  {
  }

  lemma JobRoutesWellFormed()
    ensures WellFormed(JobRoutes)
  {
  }

  lemma CompanyRoutesWellFormed()
    ensures WellFormed(CompanyRoutes)
  {
  }

  /** In a well-formed table, a request to a route's own verb and path runs that route's chain. */
  lemma DispatchAt(routes: seq<Route>, i: nat, caller: Caller, fm: Formats, req: Request, uploadOk: bool)
    requires WellFormed(routes) && i < |routes|
    ensures Dispatch(routes, routes[i].verb, routes[i].path, caller, fm, req, uploadOk)
            == RunSteps(routes[i].steps, caller, fm, req, uploadOk)
  {
    assert forall j :: 0 <= j < |routes| && j != i ==> routes[j].path != routes[i].path by {
      forall j | 0 <= j < |routes| && j != i ensures routes[j].path != routes[i].path {
        if j < i { assert routes[j].path != routes[i].path; } else { assert routes[i].path != routes[j].path; }
      }
    }
  }

  /** The chain of an ordered route admits the request: its gate, upload and schema all pass. */
  predicate ChainAdmits(steps: seq<Step>, caller: Caller, fm: Formats, req: Request, uploadOk: bool)
    requires Ordered(steps)
  {
    && (steps[0].Auth? ==> Admits(steps[0].gate, caller))
    && (|steps| == 4 ==> uploadOk)
    && Accepts(fm, steps[|steps| - 2].schema, req)
  }

  /** What a request to route `i` of a well-formed table comes to. */
  lemma RouteAccess(routes: seq<Route>, i: nat, caller: Caller, fm: Formats, req: Request, uploadOk: bool)
    requires WellFormed(routes) && i < |routes|
    ensures var steps := routes[i].steps;
            var o := Dispatch(routes, routes[i].verb, routes[i].path, caller, fm, req, uploadOk);
      && (o == Reached(steps[|steps| - 1].handler) <==> ChainAdmits(steps, caller, fm, req, uploadOk))
      && (steps[0].Auth? && caller.Anonymous? ==> o == Unauthenticated)
      && (steps[0].Auth? && caller.SignedIn? && !Admits(steps[0].gate, caller) ==> o == Forbidden)
      && (|steps| == 4 && Admits(steps[0].gate, caller) && !uploadOk ==> o == UploadRefused)
  {
    DispatchAt(routes, i, caller, fm, req, uploadOk);
    RunOrdered(routes[i].steps, caller, fm, req, uploadOk);
  }

  /** A gated route of a well-formed table reaches its handler exactly when the
      gate admits the caller and the schema accepts the request. */
  lemma GatedRoute(routes: seq<Route>, i: nat, verb: Verb, path: string, g: Gate, sc: Schema, h: Handler,
                   caller: Caller, fm: Formats, req: Request, uploadOk: bool)
    requires WellFormed(routes) && i < |routes| && routes[i] == Route(verb, path, [Auth(g), Validate(sc), Handle(h)])
    ensures var o := Dispatch(routes, verb, path, caller, fm, req, uploadOk);
      && (o == Reached(h) <==> Admits(g, caller) && Accepts(fm, sc, req))
      && (caller.Anonymous? ==> o == Unauthenticated)
      && (caller.SignedIn? && !Admits(g, caller) ==> o == Forbidden)
  {
    RouteAccess(routes, i, caller, fm, req, uploadOk);
  }

  /** An ungated route of a well-formed table reaches its handler exactly when
      the schema accepts the request, whoever sends it. */
  lemma OpenRoute(routes: seq<Route>, i: nat, verb: Verb, path: string, sc: Schema, h: Handler,
                  caller: Caller, fm: Formats, req: Request, uploadOk: bool)
    requires WellFormed(routes) && i < |routes| && routes[i] == Route(verb, path, [Validate(sc), Handle(h)])
    ensures Dispatch(routes, verb, path, caller, fm, req, uploadOk) == Reached(h)
            <==> Accepts(fm, sc, req)
  {
    RouteAccess(routes, i, caller, fm, req, uploadOk);
  }

  /** What each gate's admission means in terms of the caller's role. */
  lemma AdmitsByRole(caller: Caller)
    ensures Admits(HRGate, caller) <==> SignedInAs(caller, HR)
    ensures Admits(UserGate, caller) <==> SignedInAs(caller, USER)
    ensures Admits(UserAndHRGate, caller) <==> caller.SignedIn?
  {
    if caller.SignedIn? {
      assert caller.role.HR? || caller.role.USER?;
    }
  }

  /** Whether the caller is signed in with this role. */
  predicate SignedInAs(caller: Caller, role: Role) {
    caller.SignedIn? && caller.role == role
  }

  // ---------------------------------------------------------------- what each route admits

  /** Signing up needs no sign-in: an accepted request reaches the handler whoever sends it. */
  lemma SignUpRoute(caller: Caller, fm: Formats, req: Request, uploadOk: bool)
    ensures Dispatch(UserRoutes, Post, "/signup", caller, fm, req, uploadOk) == Reached(SignUpH)
            <==> Accepts(fm, SignUpSchema, req)
  {
    UserRoutesWellFormed();
    OpenRoute(UserRoutes, 0, Post, "/signup", SignUpSchema, SignUpH, caller, fm, req, uploadOk);
  }

  /** Signing in needs no sign-in. */
  lemma SignInRoute(caller: Caller, fm: Formats, req: Request, uploadOk: bool)
    ensures Dispatch(UserRoutes, Post, "/signIn", caller, fm, req, uploadOk) == Reached(SignInH)
            <==> Accepts(fm, SignInSchema, req)
  {
    UserRoutesWellFormed();
    OpenRoute(UserRoutes, 1, Post, "/signIn", SignInSchema, SignInH, caller, fm, req, uploadOk);
  }

  /** Updating an account needs any signed-in caller and the account schema. */
  lemma UpdateAccountRoute(caller: Caller, fm: Formats, req: Request, uploadOk: bool)
    ensures Dispatch(UserRoutes, Put, "/update", caller, fm, req, uploadOk) == Reached(UpdateAccountH)
            <==> caller.SignedIn? && Accepts(fm, AccountSchema, req)
    ensures caller.Anonymous? ==> Dispatch(UserRoutes, Put, "/update", caller, fm, req, uploadOk) == Unauthenticated
  {
    AdmitsByRole(caller);
    UserRoutesWellFormed();
    GatedRoute(UserRoutes, 2, Put, "/update", UserAndHRGate, AccountSchema, UpdateAccountH, caller, fm, req, uploadOk);
  }

  /** Deleting an account needs any signed-in caller and the account schema. */
  lemma DeleteAccountRoute(caller: Caller, fm: Formats, req: Request, uploadOk: bool)
    ensures Dispatch(UserRoutes, Delete, "/delete", caller, fm, req, uploadOk) == Reached(DeleteAccountH)
            <==> caller.SignedIn? && Accepts(fm, AccountSchema, req)
    ensures caller.Anonymous? ==> Dispatch(UserRoutes, Delete, "/delete", caller, fm, req, uploadOk) == Unauthenticated
  {
    AdmitsByRole(caller);
    UserRoutesWellFormed();
    GatedRoute(UserRoutes, 3, Delete, "/delete", UserAndHRGate, AccountSchema, DeleteAccountH, caller, fm, req, uploadOk);
  }

  /** Reading one's own account needs any signed-in caller and the account schema. */
  lemma UserAccountDataRoute(caller: Caller, fm: Formats, req: Request, uploadOk: bool)
    ensures Dispatch(UserRoutes, Get, "/getuserdata", caller, fm, req, uploadOk) == Reached(GetUserAccountDataH)
            <==> caller.SignedIn? && Accepts(fm, AccountSchema, req)
    ensures caller.Anonymous? ==> Dispatch(UserRoutes, Get, "/getuserdata", caller, fm, req, uploadOk) == Unauthenticated
  {
    AdmitsByRole(caller);
    UserRoutesWellFormed();
    GatedRoute(UserRoutes, 4, Get, "/getuserdata", UserAndHRGate, AccountSchema, GetUserAccountDataH, caller, fm, req, uploadOk);
  }

  /** Reading another user's profile needs any signed-in caller and the account schema. */
  lemma AnotherUserDataRoute(caller: Caller, fm: Formats, req: Request, uploadOk: bool)
    ensures Dispatch(UserRoutes, Get, "/getanotheuserdata", caller, fm, req, uploadOk) == Reached(GetProfileDataForAnotherUserH)
            <==> caller.SignedIn? && Accepts(fm, AccountSchema, req)
    ensures caller.Anonymous? ==> Dispatch(UserRoutes, Get, "/getanotheuserdata", caller, fm, req, uploadOk) == Unauthenticated
  {
    AdmitsByRole(caller);
    UserRoutesWellFormed();
    GatedRoute(UserRoutes, 5, Get, "/getanotheuserdata", UserAndHRGate, AccountSchema, GetProfileDataForAnotherUserH, caller, fm, req, uploadOk);
  }

  /** Changing the password needs any signed-in caller. */
  lemma UpdatePasswordRoute(caller: Caller, fm: Formats, req: Request, uploadOk: bool)
    ensures Dispatch(UserRoutes, Patch, "/updatepassword", caller, fm, req, uploadOk) == Reached(UpdatePasswordH)
            <==> caller.SignedIn? && Accepts(fm, UpdatePasswordSchema, req)
    ensures caller.Anonymous? ==> Dispatch(UserRoutes, Patch, "/updatepassword", caller, fm, req, uploadOk) == Unauthenticated
  {
    AdmitsByRole(caller);
    UserRoutesWellFormed();
    GatedRoute(UserRoutes, 6, Patch, "/updatepassword", UserAndHRGate, UpdatePasswordSchema, UpdatePasswordH, caller, fm, req, uploadOk);
  }

  /** Asking for a reset code needs no sign-in. */
  lemma ForgetPasswordRoute(caller: Caller, fm: Formats, req: Request, uploadOk: bool)
    ensures Dispatch(UserRoutes, Get, "/forgetPassword", caller, fm, req, uploadOk) == Reached(ForgetPasswordH)
            <==> Accepts(fm, ForgetPasswordSchema, req)
  {
    UserRoutesWellFormed();
    OpenRoute(UserRoutes, 7, Get, "/forgetPassword", ForgetPasswordSchema, ForgetPasswordH, caller, fm, req, uploadOk);
  }

  /** Resetting the password with a code needs no sign-in. */
  lemma ResetPasswordRoute(caller: Caller, fm: Formats, req: Request, uploadOk: bool)
    ensures Dispatch(UserRoutes, Patch, "/resetPasswordAfterOTP", caller, fm, req, uploadOk) == Reached(ResetPasswordAfterOtpH)
            <==> Accepts(fm, ResetPasswordSchema, req)
  {
    UserRoutesWellFormed();
    OpenRoute(UserRoutes, 8, Patch, "/resetPasswordAfterOTP", ResetPasswordSchema, ResetPasswordAfterOtpH, caller, fm, req, uploadOk);
  }

  /** Listing the accounts on a recovery email needs any signed-in caller. */
  lemma AccountsAssociatedRoute(caller: Caller, fm: Formats, req: Request, uploadOk: bool)
    ensures Dispatch(UserRoutes, Get, "/getAllAccountsAssociated", caller, fm, req, uploadOk) == Reached(GetAllAccountsAssociatedH)
            <==> caller.SignedIn? && Accepts(fm, AccountsAssociatedSchema, req)
    ensures caller.Anonymous? ==> Dispatch(UserRoutes, Get, "/getAllAccountsAssociated", caller, fm, req, uploadOk) == Unauthenticated
  {
    AdmitsByRole(caller);
    UserRoutesWellFormed();
    GatedRoute(UserRoutes, 9, Get, "/getAllAccountsAssociated", UserAndHRGate, AccountsAssociatedSchema, GetAllAccountsAssociatedH, caller, fm, req, uploadOk);
  }

  /** Adding a job needs an HR caller; a USER caller is refused before the body is looked at. */
  lemma AddJobRoute(caller: Caller, fm: Formats, req: Request, uploadOk: bool)
    ensures Dispatch(JobRoutes, Post, "/addjob", caller, fm, req, uploadOk) == Reached(AddJobH)
            <==> SignedInAs(caller, HR) && Accepts(fm, AddJobSchema, req)
    ensures caller.Anonymous? ==> Dispatch(JobRoutes, Post, "/addjob", caller, fm, req, uploadOk) == Unauthenticated
    ensures SignedInAs(caller, USER) ==> Dispatch(JobRoutes, Post, "/addjob", caller, fm, req, uploadOk) == Forbidden
  {
    AdmitsByRole(caller);
    JobRoutesWellFormed();
    GatedRoute(JobRoutes, 0, Post, "/addjob", HRGate, AddJobSchema, AddJobH, caller, fm, req, uploadOk);
  }

  /** Updating a job needs an HR caller, any HR. */
  lemma UpdateJobRoute(caller: Caller, fm: Formats, req: Request, uploadOk: bool)
    ensures Dispatch(JobRoutes, Put, "/updatejob", caller, fm, req, uploadOk) == Reached(UpdateJobH)
            <==> SignedInAs(caller, HR) && Accepts(fm, UpdatedJobSchema, req)
    ensures caller.Anonymous? ==> Dispatch(JobRoutes, Put, "/updatejob", caller, fm, req, uploadOk) == Unauthenticated
    ensures SignedInAs(caller, USER) ==> Dispatch(JobRoutes, Put, "/updatejob", caller, fm, req, uploadOk) == Forbidden
  {
    AdmitsByRole(caller);
    JobRoutesWellFormed();
    GatedRoute(JobRoutes, 1, Put, "/updatejob", HRGate, UpdatedJobSchema, UpdateJobH, caller, fm, req, uploadOk);
  }

  /** Deleting a job needs an HR caller. */
  lemma DeleteJobRoute(caller: Caller, fm: Formats, req: Request, uploadOk: bool)
    ensures Dispatch(JobRoutes, Delete, "/deletejob", caller, fm, req, uploadOk) == Reached(DeleteJobH)
            <==> SignedInAs(caller, HR) && Accepts(fm, DeleteJobSchema, req)
    ensures caller.Anonymous? ==> Dispatch(JobRoutes, Delete, "/deletejob", caller, fm, req, uploadOk) == Unauthenticated
    ensures SignedInAs(caller, USER) ==> Dispatch(JobRoutes, Delete, "/deletejob", caller, fm, req, uploadOk) == Forbidden
  {
    AdmitsByRole(caller);
    JobRoutesWellFormed();
    GatedRoute(JobRoutes, 2, Delete, "/deletejob", HRGate, DeleteJobSchema, DeleteJobH, caller, fm, req, uploadOk);
  }

  /** Listing jobs with their companies needs any signed-in caller; only headers are checked. */
  lemma JobsWithCompanyRoute(caller: Caller, fm: Formats, req: Request, uploadOk: bool)
    ensures Dispatch(JobRoutes, Get, "/getAllJobsWithTheirCompany", caller, fm, req, uploadOk) == Reached(GetAllJobsWithTheirCompanyH)
            <==> caller.SignedIn?
    ensures caller.Anonymous? ==> Dispatch(JobRoutes, Get, "/getAllJobsWithTheirCompany", caller, fm, req, uploadOk) == Unauthenticated
  {
    AdmitsByRole(caller);
    JobRoutesWellFormed();
    GatedRoute(JobRoutes, 3, Get, "/getAllJobsWithTheirCompany", UserAndHRGate, GetAllJobsWithTheirCompanySchema, GetAllJobsWithTheirCompanyH, caller, fm, req, uploadOk);
  }

  /** Listing a company's jobs needs any signed-in caller; the route checks only headers, so the company name goes unchecked. */
  lemma JobsOfCompanyRoute(caller: Caller, fm: Formats, req: Request, uploadOk: bool)
    ensures Dispatch(JobRoutes, Get, "/getAllJobsSpecificCompany", caller, fm, req, uploadOk) == Reached(GetAllJobsSpecificCompanyH)
            <==> caller.SignedIn?
    ensures caller.Anonymous? ==> Dispatch(JobRoutes, Get, "/getAllJobsSpecificCompany", caller, fm, req, uploadOk) == Unauthenticated
  {
    AdmitsByRole(caller);
    JobRoutesWellFormed();
    GatedRoute(JobRoutes, 4, Get, "/getAllJobsSpecificCompany", UserAndHRGate, GetAllJobsWithTheirCompanySchema, GetAllJobsSpecificCompanyH, caller, fm, req, uploadOk);
  }

  /** Filtering jobs needs any signed-in caller and the filter schema. */
  lemma JobFilterRoute(caller: Caller, fm: Formats, req: Request, uploadOk: bool)
    ensures Dispatch(JobRoutes, Get, "/getAllJobsMatchFilters", caller, fm, req, uploadOk) == Reached(GetAllJobsMatchFiltersH)
            <==> caller.SignedIn? && Accepts(fm, FilterSchema, req)
    ensures caller.Anonymous? ==> Dispatch(JobRoutes, Get, "/getAllJobsMatchFilters", caller, fm, req, uploadOk) == Unauthenticated
  {
    AdmitsByRole(caller);
    JobRoutesWellFormed();
    GatedRoute(JobRoutes, 5, Get, "/getAllJobsMatchFilters", UserAndHRGate, FilterSchema, GetAllJobsMatchFiltersH, caller, fm, req, uploadOk);
  }

  /** Applying needs a USER caller and an accepted upload, and the upload is taken before the body is checked. */
  lemma ApplyJobRoute(caller: Caller, fm: Formats, req: Request, uploadOk: bool)
    ensures Dispatch(JobRoutes, Post, "/applyJob", caller, fm, req, uploadOk) == Reached(ApplyJobH)
            <==> SignedInAs(caller, USER) && uploadOk && Accepts(fm, ApplyJobSchema, req)
    ensures SignedInAs(caller, USER) && !uploadOk ==>
              Dispatch(JobRoutes, Post, "/applyJob", caller, fm, req, uploadOk) == UploadRefused
  {
    AdmitsByRole(caller);
    assert Dispatch(JobRoutes, Post, "/applyJob", caller, fm, req, uploadOk) == Reached(ApplyJobH)
           <==> SignedInAs(caller, USER) && uploadOk && Accepts(fm, ApplyJobSchema, req) by {
      JobRoutesWellFormed();
      RouteAccess(JobRoutes, 6, caller, fm, req, uploadOk);
    }
    assert SignedInAs(caller, USER) && !uploadOk ==>
             Dispatch(JobRoutes, Post, "/applyJob", caller, fm, req, uploadOk) == UploadRefused by {
      JobRoutesWellFormed();
      RouteAccess(JobRoutes, 6, caller, fm, req, uploadOk);
    }
  }

  /** Adding a company needs an HR caller. */
  lemma AddCompanyRoute(caller: Caller, fm: Formats, req: Request, uploadOk: bool)
    ensures Dispatch(CompanyRoutes, Post, "/addcompany", caller, fm, req, uploadOk) == Reached(AddCompanyH)
            <==> SignedInAs(caller, HR) && Accepts(fm, AddCompanySchema, req)
    ensures caller.Anonymous? ==> Dispatch(CompanyRoutes, Post, "/addcompany", caller, fm, req, uploadOk) == Unauthenticated
    ensures SignedInAs(caller, USER) ==> Dispatch(CompanyRoutes, Post, "/addcompany", caller, fm, req, uploadOk) == Forbidden
  {
    AdmitsByRole(caller);
    CompanyRoutesWellFormed();
    GatedRoute(CompanyRoutes, 0, Post, "/addcompany", HRGate, AddCompanySchema, AddCompanyH, caller, fm, req, uploadOk);
  }

  /** Updating a company needs an HR caller. */
  lemma UpdateCompanyRoute(caller: Caller, fm: Formats, req: Request, uploadOk: bool)
    ensures Dispatch(CompanyRoutes, Put, "/updateCompany", caller, fm, req, uploadOk) == Reached(UpdateCompanyH)
            <==> SignedInAs(caller, HR) && Accepts(fm, UpdatedCompanySchema, req)
    ensures caller.Anonymous? ==> Dispatch(CompanyRoutes, Put, "/updateCompany", caller, fm, req, uploadOk) == Unauthenticated
    ensures SignedInAs(caller, USER) ==> Dispatch(CompanyRoutes, Put, "/updateCompany", caller, fm, req, uploadOk) == Forbidden
  {
    AdmitsByRole(caller);
    CompanyRoutesWellFormed();
    GatedRoute(CompanyRoutes, 1, Put, "/updateCompany", HRGate, UpdatedCompanySchema, UpdateCompanyH, caller, fm, req, uploadOk);
  }

  /** Deleting a company needs an HR caller. */
  lemma DeleteCompanyRoute(caller: Caller, fm: Formats, req: Request, uploadOk: bool)
    ensures Dispatch(CompanyRoutes, Delete, "/deletecompany", caller, fm, req, uploadOk) == Reached(DeleteCompanyH)
            <==> SignedInAs(caller, HR) && Accepts(fm, DeleteCompanySchema, req)
    ensures caller.Anonymous? ==> Dispatch(CompanyRoutes, Delete, "/deletecompany", caller, fm, req, uploadOk) == Unauthenticated
    ensures SignedInAs(caller, USER) ==> Dispatch(CompanyRoutes, Delete, "/deletecompany", caller, fm, req, uploadOk) == Forbidden
  {
    AdmitsByRole(caller);
    CompanyRoutesWellFormed();
    GatedRoute(CompanyRoutes, 2, Delete, "/deletecompany", HRGate, DeleteCompanySchema, DeleteCompanyH, caller, fm, req, uploadOk);
  }

  /** Reading company data needs an HR caller. */
  lemma CompanyDataRoute(caller: Caller, fm: Formats, req: Request, uploadOk: bool)
    ensures Dispatch(CompanyRoutes, Get, "/getCompanyData", caller, fm, req, uploadOk) == Reached(GetCompanyDataH)
            <==> SignedInAs(caller, HR) && Accepts(fm, GetCompanyDataSchema, req)
    ensures caller.Anonymous? ==> Dispatch(CompanyRoutes, Get, "/getCompanyData", caller, fm, req, uploadOk) == Unauthenticated
    ensures SignedInAs(caller, USER) ==> Dispatch(CompanyRoutes, Get, "/getCompanyData", caller, fm, req, uploadOk) == Forbidden
  {
    AdmitsByRole(caller);
    CompanyRoutesWellFormed();
    GatedRoute(CompanyRoutes, 3, Get, "/getCompanyData", HRGate, GetCompanyDataSchema, GetCompanyDataH, caller, fm, req, uploadOk);
  }

  /** Looking a company up by name needs any signed-in caller. */
  lemma CompanyByNameRoute(caller: Caller, fm: Formats, req: Request, uploadOk: bool)
    ensures Dispatch(CompanyRoutes, Get, "/getCompanyByName", caller, fm, req, uploadOk) == Reached(GetCompanyByNameH)
            <==> caller.SignedIn? && Accepts(fm, GetCompanyByNameSchema, req)
    ensures caller.Anonymous? ==> Dispatch(CompanyRoutes, Get, "/getCompanyByName", caller, fm, req, uploadOk) == Unauthenticated
  {
    AdmitsByRole(caller);
    CompanyRoutesWellFormed();
    GatedRoute(CompanyRoutes, 4, Get, "/getCompanyByName", UserAndHRGate, GetCompanyByNameSchema, GetCompanyByNameH, caller, fm, req, uploadOk);
  }

  /** Listing the applications to one's jobs needs an HR caller; only headers are checked. */
  lemma ApplicationsRoute(caller: Caller, fm: Formats, req: Request, uploadOk: bool)
    ensures Dispatch(CompanyRoutes, Get, "/getAllApplicationsSpecificJobs", caller, fm, req, uploadOk) == Reached(GetAllApplicationsSpecificJobsH)
            <==> SignedInAs(caller, HR)
    ensures caller.Anonymous? ==> Dispatch(CompanyRoutes, Get, "/getAllApplicationsSpecificJobs", caller, fm, req, uploadOk) == Unauthenticated
    ensures SignedInAs(caller, USER) ==> Dispatch(CompanyRoutes, Get, "/getAllApplicationsSpecificJobs", caller, fm, req, uploadOk) == Forbidden
  {
    AdmitsByRole(caller);
    CompanyRoutesWellFormed();
    GatedRoute(CompanyRoutes, 5, Get, "/getAllApplicationsSpecificJobs", HRGate, GetAllApplicationsSpecificJobsSchema, GetAllApplicationsSpecificJobsH, caller, fm, req, uploadOk);
  }
}

=== FILE: scenarios.dfy ===
/** Properties that span the layers: what a validated request hands to its
    handler, and whole request sequences over one store. */
module Scenarios {
  import opened Common
  import opened Seqs
  import opened Models
  import opened Database
  import opened Joi
  import opened CompanySchemas
  import opened JobSchemas
  import opened Routes
  import opened CompanyController
  import opened JobController

  // ---------------------------------------------------------------- from request body to handler input

  /** A string body field as the handler reads it; anything else reads as the empty string. */
  function TextOf(m: map<string, Json>, k: string): (s: string)
    ensures k in m && m[k].JStr? ==> s == m[k].str
  {
    if k in m && m[k].JStr? then m[k].str else ""
  }

  /** The employee count the handler passes on: a number, a `{from, to}` object of numbers, or nothing usable. */
  function EmployeesOf(m: map<string, Json>): (e: Option<EmployeeCount>)
    ensures "numberOfEmployees" in m && m["numberOfEmployees"].JNum? ==> e == Some(Count(m["numberOfEmployees"].num))
    ensures e.Some? && e.value.Range? ==>
              "numberOfEmployees" in m && m["numberOfEmployees"].JObj?
              && var f := m["numberOfEmployees"].fields;
              "from" in f && "to" in f && f["from"].JNum? && f["to"].JNum?
              && e.value.range == EmployeeRange(f["from"].num, f["to"].num)
  {
    if "numberOfEmployees" !in m then None
    else match m["numberOfEmployees"]
      case JNum(n) => Some(Count(n))
      case JObj(f) =>
        if "from" in f && "to" in f && f["from"].JNum? && f["to"].JNum?
        then Some(Range(EmployeeRange(f["from"].num, f["to"].num)))
        else None
      case _ => None
  }

  /** The addCompany handler's reading of the body. */
  function CompanyRequestOf(m: map<string, Json>): (r: CompanyRequest)
    ensures r.companyName == TextOf(m, "companyName") && r.companyEmail == TextOf(m, "companyEmail")
    ensures r.numberOfEmployees == EmployeesOf(m)
  {
    CompanyRequest(TextOf(m, "companyName"), TextOf(m, "description"), TextOf(m, "industry"),
                   TextOf(m, "address"), EmployeesOf(m), TextOf(m, "companyEmail"))
  }

  /** Every request the mounted addcompany route hands to its handler carries
      the single number the schema demands, which the Company model cannot
      store: no request through this route creates a company. */
  lemma AddCompanyRouteAlwaysFails(s: Store, caller: Id, fm: Formats, req: Request, uploadOk: bool)
    requires Dispatch(CompanyRoutes, Post, "/addcompany", SignedIn(caller, HR), fm, req, uploadOk) == Reached(AddCompanyH)
    ensures AddCompany(s, caller, CompanyRequestOf(req.body)).Err?
  {
    AddCompanyRoute(SignedIn(caller, HR), fm, req, uploadOk);
    AddCompanyFields(fm, req);
  }

  /** With the employee count validated as the `{from, to}` object the model
      stores, an accepted request whose name and email are free creates the
      company with exactly that range. */
  lemma AddCompanyRangeCreates(s: Store, caller: Id, fm: Formats, req: Request)
    requires Accepts(fm, AddCompanyRangeSchema, req)
    requires !CompanyNameTaken(s, TextOf(req.body, "companyName"))
    requires !CompanyEmailTaken(s, TextOf(req.body, "companyEmail"))
    ensures var r := AddCompany(s, caller, CompanyRequestOf(req.body));
            && r.Ok?
            && var f := req.body["numberOfEmployees"].fields;
            r.value.1.numberOfEmployees == EmployeeRange(f["from"].num, f["to"].num)
  {
    FieldChecked(fm, AddCompanyRangeBody, req.body, 4);
    var f := req.body["numberOfEmployees"].fields;
    FieldChecked(fm, EmployeeRangeRule.fields, f, 0);
    FieldChecked(fm, EmployeeRangeRule.fields, f, 1);
  }

  /** A filter naming a working time no job can have still passes the schema,
      and the handler then answers that no job matches. */
  lemma UnknownWorkingTimePassesSchemaFindsNothing(s: Store, fm: Formats, f: JobFilter)
    requires f.workingTime != "" && f.workingTime !in WorkingTimeNames
    ensures Accepts(fm, FilterSchema, Request(map["workingTime" := JStr(f.workingTime)], map[]))
    ensures GetAllJobsMatchFilters(s, f) == Err(NoJobs)
  {
    FilterCriteriaUnchecked(fm, f.workingTime);
    FilterOutsideEnumFails(s, f);
  }

  // ---------------------------------------------------------------- a company's lifetime

  /** The store after an HR adds a company and then a job. */
  function CompanyThenJob(s: Store, hr: Id, creq: CompanyRequest, jreq: JobRequest): (r: Option<(Store, Company, Job)>)
    ensures r.Some? <==> AddCompany(s, hr, creq).Ok?
    ensures r.Some? ==> r.value.2.addedBy == hr && r.value.1.companyHR == hr
                        && r.value.2 in r.value.0.jobs && r.value.1 in r.value.0.companies
  {
    match AddCompany(s, hr, creq)
    case Err(_) => None
    case Ok((s1, c)) =>
      var (s2, j) := AddJob(s1, hr, jreq);
      Some((s2, c, j))
  }

  /** The company just added is the one its id finds. */
  lemma CompanyThenJobFindsCompany(s: Store, hr: Id, creq: CompanyRequest, jreq: JobRequest)
    requires Valid(s)
    requires CompanyThenJob(s, hr, creq, jreq).Some?
    ensures var (s2, c, j) := CompanyThenJob(s, hr, creq, jreq).value;
            && Valid(s2)
            && FindCompany(s2, c.id).Some? && s2.companies[FindCompany(s2, c.id).value] == c
  {
    var (s1, c) := AddCompany(s, hr, creq).value;
    AddCompanyPreservesValid(s, hr, creq);
    AddJobPreservesValid(s1, hr, jreq);
    FindFirstAppend(s.companies, (x: Company) => x.id == c.id, c);
  }

  /** Adding a company and a job and then deleting the company with the
      intended cascade leaves neither the job, nor any application to it, nor
      the company's name. */
  lemma CompanyLifecycle(s: Store, hr: Id, creq: CompanyRequest, jreq: JobRequest)
    requires Valid(s)
    requires CompanyThenJob(s, hr, creq, jreq).Some?
    ensures var (s2, c, j) := CompanyThenJob(s, hr, creq, jreq).value;
            var r := DeleteCompany(s2, hr, c.id);
            && r.Ok?
            && j !in r.value.0.jobs
            && (forall i :: 0 <= i < |r.value.0.applications| ==> r.value.0.applications[i].jobId != j.id)
            && GetCompanyByName(r.value.0, c.companyName) == Err(CompanyNotFound)
  {
    var (s2, c, j) := CompanyThenJob(s, hr, creq, jreq).value;
    CompanyThenJobFindsCompany(s, hr, creq, jreq);
    var r := DeleteCompany(s2, hr, c.id);
    assert r.Ok?;
    var k :| 0 <= k < |s2.jobs| && s2.jobs[k] == j;
    DeleteCompanyLeavesNoOrphans(s2, hr, c.id);
    DeleteCompanyFreesName(s2, hr, c.id);
  }

  /** The same sequence with the cascade as written: the company is gone but
      its HR's job is still listed. */
  lemma CompanyLifecycleAsWritten(s: Store, hr: Id, creq: CompanyRequest, jreq: JobRequest)
    requires Valid(s)
    requires CompanyThenJob(s, hr, creq, jreq).Some?
    ensures var (s2, c, j) := CompanyThenJob(s, hr, creq, jreq).value;
            var r := DeleteCompanyAsWritten(s2, hr, c.id);
            r.Ok? && j in r.value.0.jobs
  {
    CompanyThenJobFindsCompany(s, hr, creq, jreq);
  }
}

=== FILE: seqs.dfy ===
/** Sequence helpers standing in for the document store's query primitives:
    `find(filter)` is `Filter`, `findOne(filter)` is `FindFirst`. Collections
    are kept in insertion (natural) order, which is the order both return. */
module Seqs {
  import opened Common

  /** The elements of `s` satisfying `p`; none is kept more often than it occurs in `s`. */
  function Filter<T>(s: seq<T>, p: T -> bool): (r: seq<T>)
    ensures |r| <= |s|
    ensures multiset(r) <= multiset(s)
    ensures forall i :: 0 <= i < |r| ==> r[i] in s && p(r[i])
    ensures forall i :: 0 <= i < |s| && p(s[i]) ==> s[i] in r
  {
    if |s| == 0 then []
    else
      assert s == [s[0]] + s[1..];
      (if p(s[0]) then [s[0]] else []) + Filter(s[1..], p)
  }

  /** Keeping everything is the identity. */
  lemma {:induction false} FilterAll<T>(s: seq<T>)
    ensures Filter(s, (x: T) => true) == s
  {
    if |s| > 0 {
      FilterAll(s[1..]);
      assert s == [s[0]] + s[1..];
    }
  }

  /** Index of the first element satisfying `p`, if any. */
  function FindFirst<T>(s: seq<T>, p: T -> bool): (r: Option<nat>)
    ensures r.Some? ==> r.value < |s| && p(s[r.value])
    ensures r.Some? ==> forall j :: 0 <= j < r.value ==> !p(s[j])
    ensures r.None? <==> forall j :: 0 <= j < |s| ==> !p(s[j])
  {
    if |s| == 0 then None
    else if p(s[0]) then Some(0)
    else match FindFirst(s[1..], p)
      case None => None
      case Some(k) => Some(k + 1)
  }

  /** No two positions of `s` share a key. */
  predicate KeysDistinct<T, K(==)>(s: seq<T>, key: T -> K) {
    forall i, j :: 0 <= i < j < |s| ==> key(s[i]) != key(s[j])
  }

  /** Every key of `s` is below `bound`. */
  predicate KeysBelow<T>(s: seq<T>, key: T -> nat, bound: nat) {
    forall i :: 0 <= i < |s| ==> key(s[i]) < bound
  }

  /** Removing elements never makes two keys collide. */
  lemma {:induction false} FilterKeysDistinct<T, K>(s: seq<T>, p: T -> bool, key: T -> K)
    ensures KeysDistinct(s, key) ==> KeysDistinct(Filter(s, p), key)
  {
    if |s| > 0 && KeysDistinct(s, key) {
      var tail := Filter(s[1..], p);
      assert KeysDistinct(s[1..], key) by {
        forall i, j | 0 <= i < j < |s[1..]| ensures key(s[1..][i]) != key(s[1..][j]) {
          assert s[1..][i] == s[i + 1] && s[1..][j] == s[j + 1];
        }
      }
      FilterKeysDistinct(s[1..], p, key);
      if p(s[0]) {
        var r := [s[0]] + tail;
        assert Filter(s, p) == r;
        forall i, j | 0 <= i < j < |r| ensures key(r[i]) != key(r[j]) {
          if i == 0 {
            assert r[j] == tail[j - 1];
            assert r[j] in s[1..];
            var m :| 0 <= m < |s[1..]| && s[1..][m] == r[j];
            assert s[m + 1] == r[j];
          } else {
            assert r[i] == tail[i - 1] && r[j] == tail[j - 1];
          }
        }
      } else {
        assert Filter(s, p) == tail;
      }
    }
  }

  /** Filtering keeps every key below a bound that held before. */
  lemma FilterKeysBelow<T>(s: seq<T>, p: T -> bool, key: T -> nat, bound: nat)
    requires KeysBelow(s, key, bound)
    ensures KeysBelow(Filter(s, p), key, bound)
  {
    var r := Filter(s, p);
    forall i | 0 <= i < |r| ensures key(r[i]) < bound {
      assert r[i] in s;
    }
  }

  /** Appending an element whose key is new keeps the keys distinct. */
  lemma AppendKeysDistinct<T, K>(s: seq<T>, x: T, key: T -> K)
    requires KeysDistinct(s, key)
    requires forall i :: 0 <= i < |s| ==> key(s[i]) != key(x)
    ensures KeysDistinct(s + [x], key)
  {
  }

  /** Replacing one element by one whose key no other element has keeps the keys distinct. */
  lemma UpdateKeysDistinct<T, K>(s: seq<T>, i: nat, x: T, key: T -> K)
    requires i < |s|
    requires KeysDistinct(s, key)
    requires forall j :: 0 <= j < |s| && j != i ==> key(s[j]) != key(x)
    ensures KeysDistinct(s[i := x], key)
  {
  }
  /** Rewriting the first match with another match leaves the first match where it was. */
  lemma FindFirstUpdate<T>(s: seq<T>, p: T -> bool, i: nat, x: T)
    requires FindFirst(s, p) == Some(i)
    requires p(x)
    ensures FindFirst(s[i := x], p) == Some(i)
  {
    var r := FindFirst(s[i := x], p);
    assert s[i := x][i] == x;
  }

  /** Appending a match to a sequence without one makes the new element the first match. */
  lemma FindFirstAppend<T>(s: seq<T>, p: T -> bool, x: T)
    requires FindFirst(s, p) == None
    requires p(x)
    ensures FindFirst(s + [x], p) == Some(|s|)
  {
    var r := FindFirst(s + [x], p);
    assert (s + [x])[|s|] == x;
  }
}

=== FILE: storage.dfy ===
/** The cloud file store behind applyJob, reduced to the uploaded files and
    the folders they live in. Folder paths follow the template
    `cvs/<jobId>/<userId>/<folderId>`. */
module Storage {
  import opened Common
  import opened Models

  datatype FolderPath = CvFolder(jobId: Id, userId: Id, folderId: string)

  datatype StoredFile = StoredFile(publicId: string, secureUrl: string, folder: FolderPath)

  datatype Storage = Storage(files: set<StoredFile>, folders: set<FolderPath>)

  /** `uploader.upload(path, {folder})` once the service has answered with `secureUrl` and `publicId`. */
  function Upload(st: Storage, folder: FolderPath, secureUrl: string, publicId: string): (st': Storage)
    ensures st'.files == st.files + {StoredFile(publicId, secureUrl, folder)}
    ensures st'.folders == st.folders + {folder}
  {
    Storage(st.files + {StoredFile(publicId, secureUrl, folder)}, st.folders + {folder})
  }

  /** `uploader.destroy(publicId)`: the file with that id is gone, nothing else is touched. */
  function Destroy(st: Storage, publicId: string): (st': Storage)
    ensures forall f :: f in st'.files <==> f in st.files && f.publicId != publicId
    ensures st'.folders == st.folders
  {
    st.(files := set f | f in st.files && f.publicId != publicId)
  }

  predicate FolderEmpty(st: Storage, folder: FolderPath) {
    forall f :: f in st.files ==> f.folder != folder
  }

  /** `api.delete_folder(path)`: the service removes only an empty folder. */
  function DeleteFolder(st: Storage, folder: FolderPath): (r: Option<Storage>)
    ensures r.Some? <==> FolderEmpty(st, folder)
    ensures r.Some? ==> r.value.files == st.files && r.value.folders == st.folders - {folder}
  {
    if FolderEmpty(st, folder) then Some(st.(folders := st.folders - {folder})) else None
  }

  /** The file id and folder of a new upload are not in use yet. */
  predicate Unused(st: Storage, folder: FolderPath, publicId: string) {
    && folder !in st.folders
    && FolderEmpty(st, folder)
    && forall f :: f in st.files ==> f.publicId != publicId
  }

  /** Destroying a fresh upload and then its folder gives back the storage as it was. */
  lemma UndoUpload(st: Storage, folder: FolderPath, secureUrl: string, publicId: string)
    requires Unused(st, folder, publicId)
    ensures var st2 := Destroy(Upload(st, folder, secureUrl, publicId), publicId);
            DeleteFolder(st2, folder) == Some(st)
  {
    var st1 := Upload(st, folder, secureUrl, publicId);
    var st2 := Destroy(st1, publicId);
    assert st2.files == st.files;
    assert FolderEmpty(st2, folder);
    assert st2.folders - {folder} == st.folders;
  }
}

=== FILE: user_controller.dfy ===
/** src/modules/user.module/user.controller.js: account handlers as
    transitions of the store. The caller is the id the auth middleware put
    in `req.authUser`; the clock is the `now` parameter (milliseconds). */
module UserController {
  import opened Common
  import opened Seqs
  import opened Models
  import opened Database
  import Otp

  /** bcryptjs.hashSync, bcryptjs.compareSync and jwt.sign as opaque
      collaborators. A result of "" is the falsy value the handlers test for.
      `sign` receives the user whose id, email, mobile number and names are
      the token's claims. */
  datatype Crypto = Crypto(
    hash: string -> string,
    verify: (string, string) -> bool,
    sign: User -> string)

  /** bcrypt's promise: a hash that was produced verifies against its password. */
  ghost predicate HashVerifies(c: Crypto) {
    forall p :: c.hash(p) != "" ==> c.verify(p, c.hash(p))
  }

  /** How long a reset code stays valid: ten minutes, in milliseconds. */
  const OtpLifetime: int := 10 * 60 * 1000

  // ================================================================ signUp

  datatype SignUpRequest = SignUpRequest(
    firstName: string,
    lastName: string,
    email: string,
    recoveryEmail: string,
    password: string,
    dateOfBirth: string,
    mobileNumber: string,
    role: Option<Role>,
    status: Option<Status>)

  function SignUp(s: Store, c: Crypto, req: SignUpRequest): (r: Result<(Store, User)>)
    ensures EmailTaken(s, req.email) ==> r == Err(EmailExists)
    ensures !EmailTaken(s, req.email) && MobileTaken(s, req.mobileNumber) ==> r == Err(MobileNumberExists)
    ensures r.Ok? <==> !EmailTaken(s, req.email) && !MobileTaken(s, req.mobileNumber) && c.hash(req.password) != ""
    ensures r.Ok? ==>
      && r.value.0.users == s.users + [r.value.1]
      && r.value.0.companies == s.companies && r.value.0.jobs == s.jobs
      && r.value.0.applications == s.applications
    ensures r.Ok? ==>
      && r.value.1.username == Some(req.firstName + req.lastName)
      && r.value.1.password == c.hash(req.password)
      && r.value.1.firstName == req.firstName && r.value.1.lastName == req.lastName
      && r.value.1.email == req.email && r.value.1.mobileNumber == req.mobileNumber
      && r.value.1.recoveryEmail == req.recoveryEmail && r.value.1.dateOfBirth == req.dateOfBirth
      && r.value.1.role == RoleOrDefault(req.role) && r.value.1.status == StatusOrDefault(req.status)
      && r.value.1.passwordResetOTP.None?
      && forall i :: 0 <= i < |s.users| && KeysBelow(s.users, UserIdOf, s.nextId) ==> s.users[i].id != r.value.1.id
  {
    var username := req.firstName + req.lastName;
    if EmailTaken(s, req.email) then Err(EmailExists)
    else if MobileTaken(s, req.mobileNumber) then Err(MobileNumberExists)
    else
      var hashed := c.hash(req.password);
      if hashed == "" then Err(HashFailed)
      else
        var u := User(s.nextId, req.firstName, req.lastName, Some(username), req.email,
                      req.recoveryEmail, hashed, req.dateOfBirth, req.mobileNumber,
                      RoleOrDefault(req.role), StatusOrDefault(req.status), None);
        Ok((s.(users := s.users + [u], nextId := s.nextId + 1), u))
  }

  lemma SignUpPreservesInvariants(s: Store, c: Crypto, req: SignUpRequest)
    requires Valid(s) && UsernamesConsistent(s)
    ensures SignUp(s, c, req).Ok? ==> Valid(SignUp(s, c, req).value.0) && UsernamesConsistent(SignUp(s, c, req).value.0)
  {
    var r := SignUp(s, c, req);
    if r.Ok? {
      AddUserValid(s, r.value.1);
      assert r.value.0 == s.(users := s.users + [r.value.1], nextId := s.nextId + 1);
    }
  }

  /** Signing up twice with one email, or with one mobile number, fails the second time. */
  lemma SignUpRejectsDuplicates(s: Store, c: Crypto, first: SignUpRequest, second: SignUpRequest)
    requires SignUp(s, c, first).Ok?
    ensures second.email == first.email ==> SignUp(SignUp(s, c, first).value.0, c, second) == Err(EmailExists)
    ensures second.email != first.email && !EmailTaken(s, second.email) &&
            second.mobileNumber == first.mobileNumber ==>
              SignUp(SignUp(s, c, first).value.0, c, second) == Err(MobileNumberExists)
  {
    var s' := SignUp(s, c, first).value.0;
    var u := SignUp(s, c, first).value.1;
    assert s'.users[|s.users|] == u;
    if second.email == first.email {
      assert EmailTaken(s', second.email);
    } else if second.mobileNumber == first.mobileNumber && !EmailTaken(s, second.email) {
      assert MobileTaken(s', second.mobileNumber);
      forall k | 0 <= k < |s'.users| ensures s'.users[k].email != second.email {
        if k < |s.users| { assert s'.users[k] == s.users[k]; }
      }
    }
  }

  // ================================================================ signIn

  /** The `$or: [{email}, {mobileNumber}]` filter; an absent criterion matches nothing. */
  predicate MatchesLogin(u: User, email: Option<string>, mobile: Option<string>) {
    (email.Some? && u.email == email.value) || (mobile.Some? && u.mobileNumber == mobile.value)
  }

  function FindLogin(s: Store, email: Option<string>, mobile: Option<string>): (r: Option<nat>)
    ensures r.Some? ==> r.value < |s.users| && MatchesLogin(s.users[r.value], email, mobile)
    ensures r.Some? ==> forall j :: 0 <= j < r.value ==> !MatchesLogin(s.users[j], email, mobile)
    ensures r.None? <==> forall j :: 0 <= j < |s.users| ==> !MatchesLogin(s.users[j], email, mobile)
  {
    FindFirst(s.users, (u: User) => MatchesLogin(u, email, mobile))
  }

  datatype Session = Session(user: User, token: string)

  function SignIn(s: Store, c: Crypto, email: Option<string>, mobile: Option<string>, password: string)
    : (r: Result<(Store, Session)>)
    ensures FindLogin(s, email, mobile).None? ==> r == Err(UserNotFound)
    ensures r.Ok? ==>
      && FindLogin(s, email, mobile).Some?
      && var i := FindLogin(s, email, mobile).value;
      && c.verify(password, s.users[i].password)
      && r.value.1.token == c.sign(s.users[i]) && r.value.1.token != ""
      && r.value.1.user == s.users[i].(status := Online)
      && r.value.0 == s.(users := s.users[i := s.users[i].(status := Online)])
    ensures (FindLogin(s, email, mobile).Some? &&
             !c.verify(password, s.users[FindLogin(s, email, mobile).value].password)) ==> r == Err(InvalidPassword)
    ensures FindLogin(s, email, mobile).Some? && c.verify(password, s.users[FindLogin(s, email, mobile).value].password) ==>
              var i := FindLogin(s, email, mobile).value;
              && (c.sign(s.users[i]) == "" ==> r == Err(TokenFailed))
              && (c.sign(s.users[i]) != "" ==> r.Ok?)
  {
    match FindLogin(s, email, mobile)
    case None => Err(UserNotFound)
    case Some(i) =>
      var user := s.users[i];
      if !c.verify(password, user.password) then Err(InvalidPassword)
      else
        var token := c.sign(user);
        if token == "" then Err(TokenFailed)
        else
          var online := user.(status := Online);
          Ok((s.(users := s.users[i := online]), Session(online, token)))
  }

  /** With unique emails, logging in by email alone finds the owner of that email. */
  lemma LoginByEmailFinds(s: Store, i: nat)
    requires KeysDistinct(s.users, EmailOf) && i < |s.users|
    ensures FindLogin(s, Some(s.users[i].email), None) == Some(i)
  {
    var r := FindLogin(s, Some(s.users[i].email), None);
    assert MatchesLogin(s.users[i], Some(s.users[i].email), None);
    var k := r.value;
    assert s.users[k].email == s.users[i].email;
    assert k < i ==> EmailOf(s.users[k]) != EmailOf(s.users[i]);
  }

  /** Login by mobile number alone likewise finds the owner of that number. */
  lemma LoginByMobileFinds(s: Store, i: nat)
    requires KeysDistinct(s.users, MobileOf) && i < |s.users|
    ensures FindLogin(s, None, Some(s.users[i].mobileNumber)) == Some(i)
  {
    var r := FindLogin(s, None, Some(s.users[i].mobileNumber));
    assert MatchesLogin(s.users[i], None, Some(s.users[i].mobileNumber));
    var k := r.value;
    assert k < i ==> MobileOf(s.users[k]) != MobileOf(s.users[i]);
  }

  lemma SignInPreservesInvariants(s: Store, c: Crypto, email: Option<string>, mobile: Option<string>, password: string)
    requires Valid(s) && UsernamesConsistent(s)
    ensures SignIn(s, c, email, mobile, password).Ok? ==>
              Valid(SignIn(s, c, email, mobile, password).value.0) &&
              UsernamesConsistent(SignIn(s, c, email, mobile, password).value.0)
  {
    var r := SignIn(s, c, email, mobile, password);
    if r.Ok? {
      var i := FindLogin(s, email, mobile).value;
      UpdateUserValid(s, i, s.users[i].(status := Online));
    }
  }

  /** A user who has just signed up can sign in with the same email and password
      (or the same mobile number and password), reaching the token step. */
  lemma SignUpThenSignIn(s: Store, c: Crypto, req: SignUpRequest)
    requires Valid(s) && HashVerifies(c)
    requires SignUp(s, c, req).Ok?
    ensures var s' := SignUp(s, c, req).value.0;
            var r := SignIn(s', c, Some(req.email), None, req.password);
            && (r.Ok? ==> r.value.1.user.id == SignUp(s, c, req).value.1.id)
            && (r.Err? ==> r.error == TokenFailed)
    ensures var s' := SignUp(s, c, req).value.0;
            var r := SignIn(s', c, None, Some(req.mobileNumber), req.password);
            && (r.Ok? ==> r.value.1.user.id == SignUp(s, c, req).value.1.id)
            && (r.Err? ==> r.error == TokenFailed)
  {
    var s' := SignUp(s, c, req).value.0;
    var u := SignUp(s, c, req).value.1;
    AddUserValid(s, u);
    assert s' == s.(users := s.users + [u], nextId := s.nextId + 1);
    assert s'.users[|s.users|] == u;
    LoginByEmailFinds(s', |s.users|);
    LoginByMobileFinds(s', |s.users|);
  }

  // ================================================================ updateAccount

  /** The body fields updateAccount reads; each may be absent. */
  datatype AccountPatch = AccountPatch(
    firstName: Option<string>,
    lastName: Option<string>,
    email: Option<string>,
    mobileNumber: Option<string>,
    recoveryEmail: Option<string>,
    dateOfBirth: Option<string>)

  /** The in-memory assignments updateAccount makes to the caller's document. */
  function PatchAccount(u: User, p: AccountPatch): (v: User)
    ensures v.firstName == PickText(p.firstName, u.firstName) && v.lastName == PickText(p.lastName, u.lastName)
    ensures Truthy(p.firstName) || Truthy(p.lastName) ==> v.username == Some(v.firstName + v.lastName)
    ensures !Truthy(p.firstName) && !Truthy(p.lastName) ==> v.username == u.username
    ensures v.email == PickText(p.email, u.email) && v.mobileNumber == PickText(p.mobileNumber, u.mobileNumber)
    ensures v.recoveryEmail == PickText(p.recoveryEmail, u.recoveryEmail) && v.dateOfBirth == PickText(p.dateOfBirth, u.dateOfBirth)
    ensures v.id == u.id && v.password == u.password && v.role == u.role && v.status == u.status
    ensures v.passwordResetOTP == u.passwordResetOTP
  {
    var named :=
      if Truthy(p.firstName) && Truthy(p.lastName) then
        u.(firstName := p.firstName.value, lastName := p.lastName.value,
           username := Some(p.firstName.value + p.lastName.value))
      else if Truthy(p.firstName) then
        u.(firstName := p.firstName.value, username := Some(p.firstName.value + u.lastName))
      else if Truthy(p.lastName) then
        u.(lastName := p.lastName.value, username := Some(u.firstName + p.lastName.value))
      else u;
    named.(email := PickText(p.email, u.email),
           mobileNumber := PickText(p.mobileNumber, u.mobileNumber),
           recoveryEmail := PickText(p.recoveryEmail, u.recoveryEmail),
           dateOfBirth := PickText(p.dateOfBirth, u.dateOfBirth))
  }

  function UpdateAccount(s: Store, caller: Id, p: AccountPatch): (r: Result<(Store, User)>)
    ensures p.email.Some? && EmailTaken(s, p.email.value) ==> r == Err(EmailExists)
    ensures (!(p.email.Some? && EmailTaken(s, p.email.value)) &&
             p.mobileNumber.Some? && MobileTaken(s, p.mobileNumber.value)) ==> r == Err(MobileNumberExists)
    ensures (!(p.email.Some? && EmailTaken(s, p.email.value)) &&
             !(p.mobileNumber.Some? && MobileTaken(s, p.mobileNumber.value)) &&
             FindUser(s, caller).None?) ==> r == Err(UserNotFound)
    ensures r.Ok? <==>
      && !(p.email.Some? && EmailTaken(s, p.email.value))
      && !(p.mobileNumber.Some? && MobileTaken(s, p.mobileNumber.value))
      && FindUser(s, caller).Some?
    ensures r.Ok? ==>
      var i := FindUser(s, caller).value;
      && r.value.1 == PatchAccount(s.users[i], p)
      && r.value.0 == s.(users := s.users[i := r.value.1])
  {
    if p.email.Some? && EmailTaken(s, p.email.value) then Err(EmailExists)
    else if p.mobileNumber.Some? && MobileTaken(s, p.mobileNumber.value) then Err(MobileNumberExists)
    else match FindUser(s, caller)
      case None => Err(UserNotFound)
      case Some(i) =>
        var u := PatchAccount(s.users[i], p);
        Ok((s.(users := s.users[i := u]), u))
  }

  /** Any successful update keeps every username equal to first name plus last
      name, and keeps emails and mobile numbers unique. */
  lemma UpdateAccountPreservesInvariants(s: Store, caller: Id, p: AccountPatch)
    requires Valid(s) && UsernamesConsistent(s)
    ensures UpdateAccount(s, caller, p).Ok? ==>
              Valid(UpdateAccount(s, caller, p).value.0) && UsernamesConsistent(UpdateAccount(s, caller, p).value.0)
  {
    var r := UpdateAccount(s, caller, p);
    if r.Ok? {
      var i := FindUser(s, caller).value;
      var u := s.users[i];
      var v := r.value.1;
      forall j | 0 <= j < |s.users| && j != i ensures s.users[j].email != v.email {
        if !Truthy(p.email) {
          if j < i { assert EmailOf(s.users[j]) != EmailOf(s.users[i]); }
          else { assert EmailOf(s.users[i]) != EmailOf(s.users[j]); }
        }
      }
      forall j | 0 <= j < |s.users| && j != i ensures s.users[j].mobileNumber != v.mobileNumber {
        if !Truthy(p.mobileNumber) {
          if j < i { assert MobileOf(s.users[j]) != MobileOf(s.users[i]); }
          else { assert MobileOf(s.users[i]) != MobileOf(s.users[j]); }
        }
      }
      UpdateUserValid(s, i, v);
    }
  }

  /** Resubmitting one's own email is rejected like anyone else's. */
  lemma UpdateAccountRejectsOwnEmail(s: Store, i: nat, p: AccountPatch)
    requires i < |s.users|
    requires p.email == Some(s.users[i].email)
    ensures UpdateAccount(s, s.users[i].id, p) == Err(EmailExists)
  {
    assert EmailTaken(s, p.email.value);
  }

  // ================================================================ deleteAccount

  function DeleteAccount(s: Store, caller: Id): (r: Result<(Store, User)>)
    ensures r.Err? <==> forall i :: 0 <= i < |s.users| ==> s.users[i].id != caller
    ensures r.Ok? ==> r.value.1 in s.users && r.value.1.id == caller
    ensures r.Ok? ==>
      var s' := r.value.0;
      && (forall i :: 0 <= i < |s'.users| ==> s'.users[i] in s.users && s'.users[i].id != caller)
      && (forall i :: 0 <= i < |s.users| && s.users[i].id != caller ==> s.users[i] in s'.users)
      && (forall i :: 0 <= i < |s'.applications| ==> s'.applications[i] in s.applications && s'.applications[i].userId != caller)
      && (forall i :: 0 <= i < |s.applications| && s.applications[i].userId != caller ==> s.applications[i] in s'.applications)
      && s'.companies == s.companies && s'.jobs == s.jobs && s'.nextId == s.nextId
  {
    match FindUser(s, caller)
    case None => Err(UserNotFound)
    case Some(i) =>
      Ok((s.(users := Filter(s.users, (u: User) => u.id != caller),
             applications := Filter(s.applications, (a: Application) => a.userId != caller)),
          s.users[i]))
  }

  lemma DeleteAccountPreservesInvariants(s: Store, caller: Id)
    requires Valid(s) && UsernamesConsistent(s)
    ensures DeleteAccount(s, caller).Ok? ==>
              Valid(DeleteAccount(s, caller).value.0) && UsernamesConsistent(DeleteAccount(s, caller).value.0)
  {
    if DeleteAccount(s, caller).Ok? {
      var s' := DeleteAccount(s, caller).value.0;
      RemoveValid(s, (u: User) => u.id != caller, (c: Company) => true, (j: Job) => true,
                  (a: Application) => a.userId != caller);
      assert Filter(s.companies, (c: Company) => true) == s.companies by { FilterAll(s.companies); }
      assert Filter(s.jobs, (j: Job) => true) == s.jobs by { FilterAll(s.jobs); }
      forall i | 0 <= i < |s'.users|
        ensures s'.users[i].username == Some(s'.users[i].firstName + s'.users[i].lastName)
      {
        assert s'.users[i] in s.users;
      }
    }
  }

  /** Once an account is deleted, its email no longer signs anyone in. */
  lemma DeleteAccountThenSignInFails(s: Store, c: Crypto, caller: Id, password: string)
    requires Valid(s)
    requires DeleteAccount(s, caller).Ok?
    ensures var gone := DeleteAccount(s, caller).value.1;
            SignIn(DeleteAccount(s, caller).value.0, c, Some(gone.email), None, password) == Err(UserNotFound)
  {
    var s' := DeleteAccount(s, caller).value.0;
    var gone := DeleteAccount(s, caller).value.1;
    var g := FindUser(s, caller).value;
    assert gone == s.users[g];
    forall j | 0 <= j < |s'.users| ensures !MatchesLogin(s'.users[j], Some(gone.email), None) {
      var k :| 0 <= k < |s.users| && s.users[k] == s'.users[j];
      assert k < g ==> EmailOf(s.users[k]) != EmailOf(s.users[g]);
      assert g < k ==> EmailOf(s.users[g]) != EmailOf(s.users[k]);
    }
  }

  // ================================================================ getUserAccountData / getProfileDataForAnotherUser

  /** Both profile reads look one user up by id (the caller's, or `accountId`). */
  function GetAccount(s: Store, id: Id): (r: Result<User>)
    ensures r.Err? <==> forall i :: 0 <= i < |s.users| ==> s.users[i].id != id
    ensures r.Ok? ==> r.value in s.users && r.value.id == id
  {
    match FindUser(s, id)
    case None => Err(UserNotFound)
    case Some(i) => Ok(s.users[i])
  }

  // ================================================================ updatePassword

  function UpdatePassword(s: Store, c: Crypto, caller: Id, password: string, newPassword: string)
    : (r: Result<(Store, User)>)
    ensures FindUser(s, caller).None? ==> r == Err(UserNotFound)
    ensures FindUser(s, caller).Some? && !c.verify(password, s.users[FindUser(s, caller).value].password) ==>
              r == Err(InvalidPassword)
    ensures FindUser(s, caller).Some? && c.verify(password, s.users[FindUser(s, caller).value].password) ==>
              && (c.hash(newPassword) == "" ==> r == Err(HashFailed))
              && (c.hash(newPassword) != "" ==> r.Ok?)
    ensures r.Ok? ==>
      && FindUser(s, caller).Some?
      && var i := FindUser(s, caller).value;
      && c.verify(password, s.users[i].password)
      && c.hash(newPassword) != ""
      && r.value.1 == s.users[i].(password := c.hash(newPassword))
      && r.value.0 == s.(users := s.users[i := r.value.1])
  {
    match FindUser(s, caller)
    case None => Err(UserNotFound)
    case Some(i) =>
      var user := s.users[i];
      if !c.verify(password, user.password) then Err(InvalidPassword)
      else
        var hashed := c.hash(newPassword);
        if hashed == "" then Err(HashFailed)
        else
          var updated := user.(password := hashed);
          Ok((s.(users := s.users[i := updated]), updated))
  }

  lemma UpdatePasswordPreservesInvariants(s: Store, c: Crypto, caller: Id, password: string, newPassword: string)
    requires Valid(s) && UsernamesConsistent(s)
    ensures UpdatePassword(s, c, caller, password, newPassword).Ok? ==>
              Valid(UpdatePassword(s, c, caller, password, newPassword).value.0) &&
              UsernamesConsistent(UpdatePassword(s, c, caller, password, newPassword).value.0)
  {
    var r := UpdatePassword(s, c, caller, password, newPassword);
    if r.Ok? {
      UpdateUserValid(s, FindUser(s, caller).value, r.value.1);
    }
  }

  /** After a password change the new password signs the user in by email. */
  lemma UpdatePasswordThenSignIn(s: Store, c: Crypto, caller: Id, password: string, newPassword: string)
    requires Valid(s) && HashVerifies(c)
    requires UpdatePassword(s, c, caller, password, newPassword).Ok?
    ensures var (s', u) := UpdatePassword(s, c, caller, password, newPassword).value;
            var r := SignIn(s', c, Some(u.email), None, newPassword);
            && (r.Ok? ==> r.value.1.user.id == caller)
            && (r.Err? ==> r.error == TokenFailed)
  {
    var s' := UpdatePassword(s, c, caller, password, newPassword).value.0;
    var i := FindUser(s, caller).value;
    UpdateUserValid(s, i, s'.users[i]);
    LoginByEmailFinds(s', i);
  }
  // ================================================================ forgetPassword

  function ForgetPassword(s: Store, email: string, k: Otp.Draw, now: int): (r: Result<(Store, string)>)
    ensures r.Err? <==> forall i :: 0 <= i < |s.users| ==> s.users[i].email != email
    ensures r.Err? ==> r.error == UserNotFound
    ensures r.Ok? ==>
      var i := FindUserByEmail(s, email).value;
      && r.value.1 == Otp.GenerateOtp(k)
      && r.value.0 == s.(users := s.users[i := s.users[i].(passwordResetOTP := Some(OtpRecord(r.value.1, now + OtpLifetime)))])
  {
    match FindUserByEmail(s, email)
    case None => Err(UserNotFound)
    case Some(i) =>
      var code := Otp.GenerateOtp(k);
      var user := s.users[i].(passwordResetOTP := Some(OtpRecord(code, now + OtpLifetime)));
      Ok((s.(users := s.users[i := user]), code))
  }

  /** The code handed out is six decimal digits with no leading zero, and
      only the matching user's reset record changes. */
  lemma ForgetPasswordIssuesCode(s: Store, email: string, k: Otp.Draw, now: int)
    requires ForgetPassword(s, email, k, now).Ok?
    ensures var (s', code) := ForgetPassword(s, email, k, now).value;
            && |code| == 6 && code[0] != '0'
            && (forall j :: 0 <= j < 6 ==> Otp.IsDigit(code[j]))
            && |s'.users| == |s.users|
            && (forall j :: 0 <= j < |s.users| && s.users[j].email != email ==> s'.users[j] == s.users[j])
            && (forall j :: 0 <= j < |s.users| ==> s'.users[j].password == s.users[j].password)
  {
  }

  lemma ForgetPasswordPreservesInvariants(s: Store, email: string, k: Otp.Draw, now: int)
    requires Valid(s) && UsernamesConsistent(s)
    ensures ForgetPassword(s, email, k, now).Ok? ==>
              Valid(ForgetPassword(s, email, k, now).value.0) &&
              UsernamesConsistent(ForgetPassword(s, email, k, now).value.0)
  {
    var r := ForgetPassword(s, email, k, now);
    if r.Ok? {
      var i := FindUserByEmail(s, email).value;
      UpdateUserValid(s, i, r.value.0.users[i]);
    }
  }

  // ================================================================ resetPasswordAfterOTP

  /** The acceptance rule: a stored record whose code equals `otp`, read at a
      time not after its expiry (the handler rejects `now > expiresAt`). */
  predicate OtpAccepted(rec: Option<OtpRecord>, otp: string, now: int) {
    rec.Some? && rec.value.code == otp && now <= rec.value.expiresAt
  }

  function ResetPasswordAfterOtp(s: Store, c: Crypto, email: string, otp: string, newPassword: string, now: int)
    : (r: Result<(Store, User)>)
    ensures FindUserByEmail(s, email).None? ==> r == Err(UserNotFound)
    ensures (FindUserByEmail(s, email).Some? &&
             !OtpAccepted(s.users[FindUserByEmail(s, email).value].passwordResetOTP, otp, now)) ==>
              r == Err(InvalidOrExpiredOtp)
    ensures FindUserByEmail(s, email).Some? && OtpAccepted(s.users[FindUserByEmail(s, email).value].passwordResetOTP, otp, now) ==>
              && (c.hash(newPassword) == "" ==> r == Err(HashFailed))
              && (c.hash(newPassword) != "" ==> r.Ok?)
    ensures r.Ok? ==>
      && FindUserByEmail(s, email).Some?
      && var i := FindUserByEmail(s, email).value;
      && OtpAccepted(s.users[i].passwordResetOTP, otp, now)
      && c.hash(newPassword) != ""
      && r.value.1 == s.users[i].(password := c.hash(newPassword))
      && r.value.0 == s.(users := s.users[i := r.value.1])
  {
    match FindUserByEmail(s, email)
    case None => Err(UserNotFound)
    case Some(i) =>
      var user := s.users[i];
      match user.passwordResetOTP
      case None => Err(InvalidOrExpiredOtp)
      case Some(stored) =>
        if stored.code != otp || now > stored.expiresAt then Err(InvalidOrExpiredOtp)
        else
          var hashed := c.hash(newPassword);
          if hashed == "" then Err(HashFailed)
          else
            var updated := user.(password := hashed);
            Ok((s.(users := s.users[i := updated]), updated))
  }

  /** A code issued at `issued` resets the password at any time up to ten minutes
      later, and is rejected at any later time, leaving the password as it was. */
  lemma ForgetThenReset(s: Store, c: Crypto, email: string, k: Otp.Draw, issued: int, newPassword: string, now: int)
    requires ForgetPassword(s, email, k, issued).Ok?
    requires c.hash(newPassword) != ""
    ensures var (s', code) := ForgetPassword(s, email, k, issued).value;
            var r := ResetPasswordAfterOtp(s', c, email, code, newPassword, now);
            && (now <= issued + OtpLifetime ==> r.Ok? && r.value.1.password == c.hash(newPassword) && r.value.1.email == email)
            && (now > issued + OtpLifetime ==> r == Err(InvalidOrExpiredOtp))
  {
    var (s', code) := ForgetPassword(s, email, k, issued).value;
    var i := FindUserByEmail(s, email).value;
    FindFirstUpdate(s.users, (u: User) => u.email == email, i, s'.users[i]);
    assert FindUserByEmail(s', email) == Some(i);
  }

  /** A successful reset leaves the code in place: it can be used again until it expires. */
  lemma ResetKeepsOtp(s: Store, c: Crypto, email: string, otp: string, p1: string, p2: string, now: int)
    requires ResetPasswordAfterOtp(s, c, email, otp, p1, now).Ok?
    requires c.hash(p2) != ""
    ensures var s' := ResetPasswordAfterOtp(s, c, email, otp, p1, now).value.0;
            ResetPasswordAfterOtp(s', c, email, otp, p2, now).Ok?
  {
    var s' := ResetPasswordAfterOtp(s, c, email, otp, p1, now).value.0;
    var i := FindUserByEmail(s, email).value;
    FindFirstUpdate(s.users, (u: User) => u.email == email, i, s'.users[i]);
    assert FindUserByEmail(s', email) == Some(i);
  }

  lemma ResetPasswordPreservesInvariants(s: Store, c: Crypto, email: string, otp: string, newPassword: string, now: int)
    requires Valid(s) && UsernamesConsistent(s)
    ensures ResetPasswordAfterOtp(s, c, email, otp, newPassword, now).Ok? ==>
              Valid(ResetPasswordAfterOtp(s, c, email, otp, newPassword, now).value.0) &&
              UsernamesConsistent(ResetPasswordAfterOtp(s, c, email, otp, newPassword, now).value.0)
  {
    var r := ResetPasswordAfterOtp(s, c, email, otp, newPassword, now);
    if r.Ok? {
      UpdateUserValid(s, FindUserByEmail(s, email).value, r.value.1);
    }
  }

  // ================================================================ getAllAccountsAssociated

  function GetAllAccountsAssociated(s: Store, recoveryEmail: string): (r: Result<seq<User>>)
    ensures r.Err? <==> forall i :: 0 <= i < |s.users| ==> s.users[i].recoveryEmail != recoveryEmail
    ensures r.Err? ==> r.error == RecoveryEmailNotFound
    ensures r.Ok? ==> |r.value| > 0
    ensures r.Ok? ==> forall i :: 0 <= i < |r.value| ==> r.value[i] in s.users && r.value[i].recoveryEmail == recoveryEmail
    ensures r.Ok? ==> forall i :: 0 <= i < |s.users| && s.users[i].recoveryEmail == recoveryEmail ==> s.users[i] in r.value
  {
    var accounts := Filter(s.users, (u: User) => u.recoveryEmail == recoveryEmail);
    if |accounts| == 0 then Err(RecoveryEmailNotFound)
    else
      assert accounts[0] in s.users && accounts[0].recoveryEmail == recoveryEmail;
      Ok(accounts)
  }
}

=== FILE: user_schemas.dfy ===
/** src/modules/user.module/user.validationSchema.js: the user routes' request
    schemas as values of the Joi model, and what acceptance by each implies. */
module UserSchemas {
  import opened Common
  import opened Joi

  /** Every password field: a string of 6 to 15 UTF-16 code units. */
  const PasswordRule: Rule := Bounded(6, 15)
  /** First and last names: 3 to 15 UTF-16 code units. */
  const NameRule: Rule := Bounded(3, 15)
  const UsernameRule: Rule := Bounded(6, 30)

  const RoleNames: set<string> := {"user", "hr"}
  const StatusNames: set<string> := {"online", "offline"}

  const SignUpBody: seq<Field> := [
    Required("firstName", NameRule),
    Required("lastName", NameRule),
    Optional("username", UsernameRule),
    Required("email", EmailString),
    Required("recoveryEmail", EmailString),
    Required("password", PasswordRule),
    Required("dateOfBirth", IsoDate),
    Required("mobileNumber", AnyString),
    Required("role", OneOf(RoleNames)),
    Required("status", OneOf(StatusNames))
  ]
  const SignUpSchema: Schema := Schema(Some(SignUpBody), None)

  const SignInBody: seq<Field> := [
    Optional("email", EmailString),
    Required("password", PasswordRule),
    Optional("mobileNumber", AnyString)
  ]
  const SignInSchema: Schema := Schema(Some(SignInBody), None)

  /** Shared by update, delete and both profile reads. The names are spelled `fName` and `lName`. */
  const AccountBody: seq<Field> := [
    Optional("fName", NameRule),
    Optional("lName", NameRule),
    Optional("username", UsernameRule),
    Optional("email", EmailString),
    Optional("recoveryEmail", EmailString),
    Optional("dateOfBirth", IsoDate),
    Optional("mobileNumber", AnyString)
  ]
  const AccountQuery: seq<Field> := [Required("accountId", ObjectIdString)]
  const AccountSchema: Schema := Schema(Some(AccountBody), Some(AccountQuery))

  const UpdatePasswordBody: seq<Field> := [
    Required("password", PasswordRule),
    Required("newPassword", PasswordRule)
  ]
  const UpdatePasswordSchema: Schema := Schema(Some(UpdatePasswordBody), None)

  const ForgetPasswordBody: seq<Field> := [Required("email", EmailString)]
  const ForgetPasswordSchema: Schema := Schema(Some(ForgetPasswordBody), None)

  const ResetPasswordBody: seq<Field> := [
    Required("email", EmailString),
    Required("otp", AnyString),
    Required("newPassword", PasswordRule)
  ]
  const ResetPasswordSchema: Schema := Schema(Some(ResetPasswordBody), None)

  const AccountsAssociatedBody: seq<Field> := [Required("recoveryEmail", EmailString)]
  const AccountsAssociatedSchema: Schema := Schema(Some(AccountsAssociatedBody), None)

  /** `key` holds a string whose UTF-16 length is `lo` to `hi`. */
  predicate TextWithin(m: map<string, Json>, key: string, lo: nat, hi: nat) {
    key in m && m[key].JStr? && lo <= Utf16Length(m[key].str) <= hi
  }

  /** Names within 3..15 characters join into a string within the username
      bound 6..30, so the username signUp composes always passes that rule. */
  lemma SignUpUsernameWithinBound(fm: Formats, req: Request)
    requires Accepts(fm, SignUpSchema, req)
    ensures TextWithin(req.body, "firstName", 3, 15) && TextWithin(req.body, "lastName", 3, 15)
    ensures RuleAccepts(fm, UsernameRule, JStr(req.body["firstName"].str + req.body["lastName"].str))
  {
    FieldChecked(fm, SignUpBody, req.body, 0);
    FieldChecked(fm, SignUpBody, req.body, 1);
    Utf16LengthAppend(req.body["firstName"].str, req.body["lastName"].str);
  }

  /** The name bound counts UTF-16 code units, not characters: two characters
      above U+FFFF make a name of length four, which passes the minimum of
      three, while one such character (length two) does not. */
  lemma NameBoundCountsCodeUnits(fm: Formats)
    ensures RuleAccepts(fm, NameRule, JStr("\U{1F600}\U{1F600}"))
    ensures !RuleAccepts(fm, NameRule, JStr("\U{1F600}"))
  {
    assert Utf16Length("\U{1F600}") == 2;
  }

  /** Every password any user route accepts has 6 to 15 characters. */
  lemma PasswordsBounded(fm: Formats, req: Request)
    ensures Accepts(fm, SignUpSchema, req) ==> TextWithin(req.body, "password", 6, 15)
    ensures Accepts(fm, SignInSchema, req) ==> TextWithin(req.body, "password", 6, 15)
    ensures Accepts(fm, UpdatePasswordSchema, req) ==>
              TextWithin(req.body, "password", 6, 15) && TextWithin(req.body, "newPassword", 6, 15)
    ensures Accepts(fm, ResetPasswordSchema, req) ==> TextWithin(req.body, "newPassword", 6, 15)
  {
    if Accepts(fm, SignUpSchema, req) { FieldChecked(fm, SignUpBody, req.body, 5); }
    if Accepts(fm, SignInSchema, req) { FieldChecked(fm, SignInBody, req.body, 1); }
    if Accepts(fm, UpdatePasswordSchema, req) {
      FieldChecked(fm, UpdatePasswordBody, req.body, 0);
      FieldChecked(fm, UpdatePasswordBody, req.body, 1);
    }
    if Accepts(fm, ResetPasswordSchema, req) { FieldChecked(fm, ResetPasswordBody, req.body, 2); }
  }

  /** signUp takes a role among `user`/`hr` and a status among `online`/`offline`,
      both required, along with the email, recovery email and birth date checks. */
  lemma SignUpRequiredFields(fm: Formats, req: Request)
    requires Accepts(fm, SignUpSchema, req)
    ensures "role" in req.body && req.body["role"].JStr? && req.body["role"].str in RoleNames
    ensures "status" in req.body && req.body["status"].JStr? && req.body["status"].str in StatusNames
    ensures "email" in req.body && req.body["email"].JStr? && fm.isEmail(req.body["email"].str)
    ensures "recoveryEmail" in req.body && req.body["recoveryEmail"].JStr? && fm.isEmail(req.body["recoveryEmail"].str)
    ensures "dateOfBirth" in req.body && req.body["dateOfBirth"].JStr? && fm.isIsoDate(req.body["dateOfBirth"].str)
    ensures "mobileNumber" in req.body && req.body["mobileNumber"].JStr? && req.body["mobileNumber"].str != ""
  {
    FieldChecked(fm, SignUpBody, req.body, 3);
    FieldChecked(fm, SignUpBody, req.body, 4);
    FieldChecked(fm, SignUpBody, req.body, 6);
    FieldChecked(fm, SignUpBody, req.body, 7);
    FieldChecked(fm, SignUpBody, req.body, 8);
    FieldChecked(fm, SignUpBody, req.body, 9);
  }

  /** signIn asks for neither the email nor the mobile number: a password alone passes. */
  lemma SignInNeedsNoIdentifier(fm: Formats, password: string)
    requires 6 <= Utf16Length(password) <= 15
    ensures Accepts(fm, SignInSchema, Request(map["password" := JStr(password)], map[]))
  {
    var m := map["password" := JStr(password)];
    assert SignInBody[1].name == "password" && RuleAccepts(fm, SignInBody[1].rule, m["password"]);
    ObjectAcceptedIf(fm, SignInBody, m);
  }

  /** The account schema's body keys are all optional and spelled `fName`/`lName`:
      an empty body passes, and a body naming `firstName` or `lastName` is refused. */
  lemma AccountSchemaKeys(fm: Formats, req: Request, accountId: string)
    requires accountId != "" && fm.isObjectId(accountId)
    ensures Accepts(fm, AccountSchema, Request(map[], map["accountId" := JStr(accountId)]))
    ensures "firstName" in req.body || "lastName" in req.body ==> !Accepts(fm, AccountSchema, req)
    ensures Accepts(fm, AccountSchema, req) ==> "accountId" in req.query
  {
    EmptyObjectAccepted(fm, AccountBody);
    var q := map["accountId" := JStr(accountId)];
    assert AccountQuery[0].name == "accountId" && RuleAccepts(fm, AccountQuery[0].rule, q["accountId"]);
    ObjectAcceptedIf(fm, AccountQuery, q);
    if "firstName" in req.body { UnknownKeyRejected(fm, AccountBody, req.body, "firstName"); }
    else if "lastName" in req.body { UnknownKeyRejected(fm, AccountBody, req.body, "lastName"); }
    if Accepts(fm, AccountSchema, req) { FieldChecked(fm, AccountQuery, req.query, 0); }
  }

  /** forgetPassword needs an email; the reset needs email, code and new password;
      the recovery lookup needs the recovery email. */
  lemma RecoveryFieldsRequired(fm: Formats, req: Request)
    ensures Accepts(fm, ForgetPasswordSchema, req) ==> "email" in req.body
    ensures Accepts(fm, ResetPasswordSchema, req) ==> "email" in req.body && "otp" in req.body && "newPassword" in req.body
    ensures Accepts(fm, AccountsAssociatedSchema, req) ==>
              "recoveryEmail" in req.body && req.body["recoveryEmail"].JStr? && fm.isEmail(req.body["recoveryEmail"].str)
  {
    if Accepts(fm, ForgetPasswordSchema, req) { FieldChecked(fm, ForgetPasswordBody, req.body, 0); }
    if Accepts(fm, ResetPasswordSchema, req) {
      FieldChecked(fm, ResetPasswordBody, req.body, 0);
      FieldChecked(fm, ResetPasswordBody, req.body, 1);
      FieldChecked(fm, ResetPasswordBody, req.body, 2);
    }
    if Accepts(fm, AccountsAssociatedSchema, req) { FieldChecked(fm, AccountsAssociatedBody, req.body, 0); }
  }
}
